=== FILE: README.md ===
# Transit ridership dashboard pipeline, modelled in Dafny

This project models the data pipeline behind a Streamlit dashboard of public
transport ridership. The pipeline runs in five stages:

- **Upload.** Uploaded yearly archives are turned into one table
  (`process_uploaded_files`). Each archive's year comes from its file name
  (`obtain_year_zipfile`).
- **Loading.** Each year's ridership file is left-joined with the line, stop,
  carbon-intensity and vessel-size tables. The loader stamps the year on every
  row and adds the next stop's name by position (`load_and_merge_data`).
- **Rename and clean.** The raw column labels are renamed through the rename
  map. The cleaner then repairs mis-decoded stop names (`safe_decode`), wraps
  departure hours of 24 and over (`adjust_invalid_times`), parses times of
  day, converts metres to kilometres and drops duplicate rows (`clean_data`).
- **Metrics.** Row-wise derived columns are computed, then the eight grouped
  views the dashboard draws (`calculate_metrics`). The time-indexed views are
  resampled into 15-second buckets (`aggregate_time_step`).
- **Saved files.** A processed file is saved as
  `processed_data_{first}-{last}.csv`. The years are read back out of that
  name when the file is uploaded again (`obtain_year_period`).

How things are represented:

- Tables are sequences of records. The column labels are tracked alongside, so
  that a missing label gives pandas' `KeyError`.
- A NaN is `None` where one can arise. That is in the columns a left join fills
  (line name, stop name, carbon intensity, capacities), in the two stop-name
  columns, and in the next stop's name.
- Numbers are exact `real`s. Times of day are whole seconds below 86400.
- Strings are sequences of code points. Bytes are integers below 256.

Modules:

| module | models |
|---|---|
| `Wrappers` | `Option` and `Result` |
| `Strings` | Python `str.split`, `str.join`, `str.find`, slicing with Python's bound rules, and `str(n)` |
| `Codec` | Latin-1 encoding and decoding. Strict UTF-8 (RFC 3629, sections 3 and 4). `safe_decode`. |
| `TimeRepair` | `int()` on the hour field, `adjust_invalid_times`, and the `%H:%M:%S` parse |
| `Tables` | `merge(how="left")`, `drop_duplicates()`, and `Series.map` with a raising function |
| `ReferenceData` | the rename map, the vehicle-class map, the carbon-intensity series with its relabelling, and the fleet intensity |
| `Columns` | label bookkeeping for `drop`, `merge`, column assignment and `rename`, plus the loader's labels |
| `Records` | the merged and cleaned row |
| `Loading` | `load_and_merge_data` |
| `Cleaning` | `clean_data` |
| `Arith`, `Bucketing` | `aggregate_time_step` |
| `Grouping`, `Pivots` | `groupby` sums, `nunique`, and `pivot_table` |
| `Metrics` | `calculate_metrics` |
| `Upload` | file-name years, the saved name, concatenation, and rename-then-clean |

## Model

| member | source | states |
|---|---|---|
| Codec.Latin1Encode | streamlit_app/utils/data_cleaning.py:7 | `encode('latin1')` succeeds exactly when every code point is below 256, and then gives one byte per code point with the same value |
| Codec.Latin1RoundTrip | streamlit_app/utils/data_cleaning.py:7 | Latin-1 decoding followed by encoding gives back every byte sequence |
| Codec.Latin1Decode | streamlit_app/utils/data_cleaning.py:7 | Latin-1 decoding gives one code point per byte, with the byte's value, as ISO 8859-1 assigns bytes 0 to 255 to U+0000 to U+00FF; `Latin1RoundTrip` shows that encoding undoes it |
| Codec.Utf8Encode | streamlit_app/utils/data_cleaning.py:7 | a text of `n` code points encodes to between `n` and `4n` bytes, and an ASCII text to exactly `n` |
| Codec.Utf8Decode | streamlit_app/utils/data_cleaning.py:7 | a successful decode is empty exactly when its input is, and reads at most four bytes per code point |
| Codec.DecodeFirst | streamlit_app/utils/data_cleaning.py:7 | decoding the first UTF-8 sequence consumes one to four bytes and never more than there are |
| Codec.Utf8RoundTrip | streamlit_app/utils/data_cleaning.py:7 | strict UTF-8 decoding inverts UTF-8 encoding on every string |
| Codec.Utf8EncodeOfDecode | streamlit_app/utils/data_cleaning.py:7 | whatever bytes decode successfully re-encode to exactly those bytes, so decoding is injective |
| Codec.Utf8DecodeShrinks | streamlit_app/utils/data_cleaning.py:7 | a decode never yields more code points than it read bytes |
| Codec.SafeDecode | streamlit_app/utils/data_cleaning.py:4-11 | the cell comes back unchanged when it is not a string, when it has a code point above U+00FF, or when its Latin-1 bytes are not UTF-8; `safe_decode` never raises |
| Codec.SafeDecodeRepairsMojibake | streamlit_app/utils/data_cleaning.py:7 | for every text `t`, `safe_decode(t.encode('utf-8').decode('latin1')) == t` |
| Codec.SafeDecodeCharacterised | streamlit_app/utils/data_cleaning.py:6-11 | the converse: the result is either the text whose mojibake the input is, or the input itself when no text has it as mojibake |
| Codec.SafeDecodeNeverLonger | streamlit_app/utils/data_cleaning.py:7 | the result never has more code points than the input |
| Codec.SafeDecodeKeepsAscii | streamlit_app/utils/data_cleaning.py:7-11 | ASCII strings are fixed points |
| TimeRepair.ParseTwoDigits | streamlit_app/utils/data_cleaning.py:15 | `int()` of two decimal digits is their value |
| TimeRepair.ParsePyInt | streamlit_app/utils/data_cleaning.py:15 | `int()` raises on an empty or all-blank field, reads a run of decimal digits as their value, and a minus sign followed by digits as the negated value |
| TimeRepair.DigitColonIsNotAnInteger | streamlit_app/utils/data_cleaning.py:15 | `int()` of a digit followed by a colon raises |
| TimeRepair.AdjustInvalidTimes | streamlit_app/utils/data_cleaning.py:13-18 | fails exactly when `int(time_str[:2])` raises; an hour below 24 leaves the string unchanged; an hour of 24 or more gives `str(hour - 24)` followed by `time_str[2:]` verbatim |
| TimeRepair.ShortFieldIsSmall | streamlit_app/utils/data_cleaning.py:15-16 | an hour field shorter than two characters reads below 10, so the `[2:]` tail is only taken from strings of length two or more |
| TimeRepair.ParseClockText | streamlit_app/utils/data_cleaning.py:28 | a well-formed `HH:MM:SS` text parses to its seconds after midnight |
| TimeRepair.ParseClockFields | streamlit_app/utils/data_cleaning.py:28 | conversely, any hour, minute and second fields of one or two digits with values below 24, 60 and 62, joined by colons, parse to hour·3600 + minute·60 + second, less a day if that reaches midnight |
| TimeRepair.ParseClock | streamlit_app/utils/data_cleaning.py:28 | the `%H:%M:%S` parse succeeds exactly when there are three colon-separated fields of one or two digits with hour at most 23, minute at most 59 and second at most 61 (`ClockShaped`). The time is hour·3600 + minute·60 + second, and seconds 60 and 61 carry into the next minute, and from 23:59 into the next day, whose date is dropped |
| TimeRepair.ParseClockReadBack | streamlit_app/utils/data_cleaning.py:28 | with seconds below 60, the parsed time gives the three fields back as its hour, its minute and its second |
| TimeRepair.WrapDayIsRemainder | streamlit_app/utils/data_cleaning.py:28 | dropping the date of a time less than two days past midnight is the remainder modulo 86400 seconds |
| TimeRepair.LeapSecondCarries | streamlit_app/utils/data_cleaning.py:28 | `"12:30:60"` parses as 12:31:00 |
| TimeRepair.LeapSecondPastMidnight | streamlit_app/utils/data_cleaning.py:28 | `"23:59:61"` parses as 00:00:01 |
| TimeRepair.SixtyTwoSecondsRejected | streamlit_app/utils/data_cleaning.py:28 | `"12:30:62"` does not match the pattern |
| TimeRepair.FormatClockRoundTrip | streamlit_app/utils/data_cleaning.py:28 | writing a time of day out as `%H:%M:%S` and parsing it back gives the same time, and the hour repair leaves such a text alone |
| TimeRepair.AdjustWrapsToDay | streamlit_app/utils/data_cleaning.py:16-17 | hours 24 to 47 wrap to the same time one day earlier, which then parses; hours 48 to 99 are still out of range after the repair, so the parse raises |
| TimeRepair.AdjustOnce | streamlit_app/utils/data_cleaning.py:16-17 | one repair of an hour `h >= 24` writes `h - 24` without zero padding |
| TimeRepair.AdjustTwice | streamlit_app/utils/data_cleaning.py:15-17 | the repair is not idempotent: for hours 24 to 33 a second repair raises, and for hours 34 to 47 it changes nothing |
| TimeRepair.AdjustNotIdempotentExample | streamlit_app/utils/data_cleaning.py:15-17 | `"24:30:00"` repairs to `"0:30:00"`, and repairing that again raises on `int("0:")` |
| Cleaning.DecodeNames | streamlit_app/utils/data_cleaning.py:23-24 | only the two stop-name columns change. A name that is the mojibake of a text `t` becomes `t`. A present name stays present, a missing one stays missing, and no name gets longer. |
| Cleaning.CleanRow | streamlit_app/utils/data_cleaning.py:23-31 | a raw row cleans exactly when its time can be repaired and parsed. The cleaned row has the decoded names, the parsed time and the distance divided by 1000, with every other column as it was. |
| Cleaning.CleanData | streamlit_app/utils/data_cleaning.py:20-34 | a successful clean keeps the labels and has no repeated row and no more rows than the input |
| Cleaning.CleanedInOrder | streamlit_app/utils/data_cleaning.py:23-31 | before deduplication, row `i` is raw row `i` cleaned |
| Cleaning.CleanDataSucceeds | streamlit_app/utils/data_cleaning.py:20-34 | the cleaner succeeds exactly when `stop_next`, `stop_current`, `departure_time` and `distance` are labels and every time can be repaired and parsed |
| Cleaning.CleanDataErrors | streamlit_app/utils/data_cleaning.py:23-31 | which error is raised. First, a missing stop-name or departure label, in reading order. Next, an unreadable time, even when `distance` is missing too. Last, `distance`. |
| Cleaning.UnreadableTimeFails | streamlit_app/utils/data_cleaning.py:27-28 | one time that cannot be repaired or parsed makes the whole clean fail |
| Cleaning.CleanDataValue | streamlit_app/utils/data_cleaning.py:20-34 | the result is `drop_duplicates` of the raw rows cleaned one to one, in order |
| Cleaning.CleanedRows | streamlit_app/utils/data_cleaning.py:34 | every output row is the cleaned form of an input row, and every input row's cleaned form is in the output |
| Cleaning.RepeatedRowOnce | streamlit_app/utils/data_cleaning.py:34 | two identical raw rows leave a single cleaned row |
| Cleaning.CleanReserialised | streamlit_app/utils/data_cleaning.py:31 | cleaning a cleaned row again, once written back as text, divides its distance by 1000 once more |
| Cleaning.CleanTwiceScales | streamlit_app/utils/data_cleaning.py:31 | cleaning a cleaned frame again succeeds, and every distance in it is a raw distance divided by 1000 twice |
| Cleaning.RowCleanedTwice | streamlit_app/utils/data_cleaning.py:31 | a row cleaned twice has its distance divided by a million |
| Tables.LeftJoin | streamlit_app/utils/data_loading.py:19-22 | every output row pairs a left row with a right row of the same key, or with `None` when no right row has that key; there are at least as many output rows as left rows |
| Tables.LeftJoinComplete | streamlit_app/utils/data_loading.py:19-22 | conversely, every left row appears paired with each right row of the same key, and with `None` when no right row has that key |
| Tables.LeftJoinCount | streamlit_app/utils/data_loading.py:19-22 | the output has, per left row, as many rows as it has matches, or one row when it has none |
| Tables.LeftJoinAppend | streamlit_app/utils/data_loading.py:19-22 | joining a concatenation joins the parts separately, so left order is kept |
| Tables.LeftJoinKeepsEveryRow | streamlit_app/utils/data_loading.py:19-22 | no left row is dropped |
| Tables.LeftJoinUnique | streamlit_app/utils/data_loading.py:19-22 | with unique right keys, output row `i` is left row `i` with its first match or `None`, and there are as many output rows as left rows |
| Tables.DuplicateKeyDuplicatesRow | streamlit_app/utils/data_loading.py:19 | a key two right rows carry duplicates its left row |
| Tables.Dedup | streamlit_app/utils/data_cleaning.py:34 | `drop_duplicates()` keeps the first occurrence of each row: the result has no repeats and the same members |
| Tables.DedupKeepsFirstOrder | streamlit_app/utils/data_cleaning.py:34 | kept rows appear in the order of their first occurrences |
| Tables.DedupIdempotent | streamlit_app/utils/data_cleaning.py:34 | deduplicating twice changes nothing |
| Tables.DedupOfDistinct | streamlit_app/utils/data_cleaning.py:34 | a table without repeated rows is left as it is |
| Tables.DropDuplicates | streamlit_app/utils/data_cleaning.py:34 | one pass with a set of rows already seen computes the same deduplication |
| Tables.MapAll | streamlit_app/Upload_Data.py:31-43 | applying a raising step in order gives every result, or the error of the first element it fails on |
| ReferenceData.Lookup | streamlit_app/utils/global_values.py:36-45 | a lookup finds nothing exactly when no pair has the key, and otherwise returns a value stored under it |
| ReferenceData.InvertInvolution | streamlit_app/utils/global_values.py:58 | the `{value: key ...}` inversion undone by a second inversion gives the table back, and the inverted table has distinct keys exactly when the table has distinct values |
| ReferenceData.InvertIsConverse | streamlit_app/utils/global_values.py:58 | for a one-to-one table, the inverted lookup of `v` is `k` exactly when the lookup of `k` is `v` |
| ReferenceData.VehicleClassOneToOne | streamlit_app/utils/global_values.py:36-45 | 10 codes with 10 distinct labels, so the inverted map is well defined |
| ReferenceData.MappingAttributesOneToOne | streamlit_app/utils/global_values.py:13-34 | 22 distinct source labels and 22 distinct targets, so the rename never merges two columns |
| ReferenceData.RenamedTo | streamlit_app/utils/global_values.py:13-34 | each source label of the rename map looks up its own target |
| ReferenceData.LabelToCode | streamlit_app/utils/global_values.py:36-45 | each class label looks up its own code in the inverted map |
| ReferenceData.RelabelledRow | streamlit_app/utils/global_values.py:47-58 | every intensity row whose label is a class label is re-keyed to that class's code |
| ReferenceData.AsWrittenCodes | streamlit_app/utils/global_values.py:47-58 | as written, nine rows get their class codes and the `"Night bus"` row keeps its label |
| ReferenceData.AsWrittenTable | streamlit_app/utils/global_values.py:47-58 | the relabelled series as written, entry by entry |
| ReferenceData.AsWrittenKeysDistinct | streamlit_app/utils/global_values.py:47-58 | the relabelled series as written still has ten distinct labels: nine class codes and `"Night bus"` |
| ReferenceData.NightBusHasNoIntensity | streamlit_app/utils/global_values.py:43-58 | as written, code `N` has no intensity and `"Night bus"` keeps 0.097; every other class code has an intensity |
| ReferenceData.CorrectedCodes | streamlit_app/utils/global_values.py:47-58 | with the label spelt `"Night Bus"`, all ten rows are re-keyed to their codes |
| ReferenceData.CorrectedTable | streamlit_app/utils/global_values.py:47-58 | the corrected relabelled series, entry by entry |
| ReferenceData.EveryClassHasIntensity | streamlit_app/utils/global_values.py:47-58 | in the corrected table every class code has an intensity and the codes are distinct |
| ReferenceData.TrolleyBusIsMean | streamlit_app/utils/global_values.py:57 | the trolley-bus intensity is the mean of 0.097 and 0.047 |
| ReferenceData.FleetIntensityIsWeightedMean | streamlit_app/utils/global_values.py:60-61 | the fleet shares sum to 1, and the fleet intensity is their weighted mean, 0.14015 |
| Columns.FirstMissing | streamlit_app/utils/data_cleaning.py:23-28 | reports the first label not present, or nothing when all are present |
| Columns.Drop | streamlit_app/utils/data_loading.py:13 | `drop(axis=1)` succeeds exactly when every named label is present, and otherwise names a missing one |
| Columns.DropHas | streamlit_app/utils/data_loading.py:13 | after a drop, a label is present exactly when it was before and was not dropped |
| Columns.Merge | streamlit_app/utils/data_loading.py:19-22 | a merge's labels exist exactly when every join key is on both sides |
| Columns.MergeHas | streamlit_app/utils/data_loading.py:19-22 | when the two sides share no label but the join keys, a merged label is a left label, or a right label that is not a join key |
| Columns.MergeSuffixes | streamlit_app/utils/data_loading.py:19-22 | a label on both sides that is not a join key comes out twice, as `label_x` from the left and `label_y` from the right |
| Columns.MergeSuffixExample | streamlit_app/utils/data_loading.py:19-22 | merging `["k", "x"]` with `["k", "x"]` on `k` gives the labels `k`, `x_x` and `x_y` |
| Columns.RenameLabels | streamlit_app/Upload_Data.py:48 | after `rename(mapping, axis=1)` a label is present exactly when a present label maps to it, or it was present and the map does not mention it; missing labels are not checked |
| Columns.LoadedColumnsLabels | streamlit_app/utils/data_loading.py:13-29 | when the four headers share only their join keys, a label is in the loader's result exactly when `LoadedLabel` says so, after the drops, joins and the two assignments |
| Columns.LoadedSucceedsWhen | streamlit_app/utils/data_loading.py:13-28 | when the four headers share only their join keys, the loader raises no `KeyError` if every header has the labels dropped from it or joined on, the ridership table has `Nach_Hst_Id` and the stop table has `Haltestellenlangname` |
| Columns.LoadedNeedsNextStop | streamlit_app/utils/data_loading.py:28 | once the four joins succeed, the next-stop lookup succeeds exactly when the ridership table has `Nach_Hst_Id` and exactly one of the ridership and stop tables has `Haltestellenlangname` (on both it is suffixed). Without `Nach_Hst_Id` the loader raises `KeyError("Nach_Hst_Id")` |
| Columns.UnsuffixedLabel | streamlit_app/utils/data_loading.py:28 | a label not ending in `x` or `y` is in a merge's labels exactly when the left side has it and the right side does not (or it is a key), or the right side has it as no key and the left side does not |
| Columns.MergeOn | streamlit_app/utils/data_loading.py:28 | a `left_on`/`right_on` merge succeeds exactly when each key is on its side, and otherwise raises `KeyError` on the first missing key |
| Columns.AssumedHeadersLoad | streamlit_app/utils/data_loading.py:13-29 | the headers the loader is written against share only their join keys and load, with exactly the labels `LoadedLabel` names |
| Columns.LoadedFailsWithoutVsys | streamlit_app/utils/data_loading.py:21 | when no `VSYS` label survives the line and stop joins, the intensity join raises `KeyError("VSYS")` |
| Columns.LineTableWithVsysFails | streamlit_app/utils/data_loading.py:19-21 | a line table that also carries `VSYS` splits it into `VSYS_x` and `VSYS_y`, so the intensity join on `VSYS` raises `KeyError` |
| Columns.DroppedColumnsAbsent | streamlit_app/utils/data_loading.py:13-22 | the eight labels dropped (`ID_Abschnitt`, `Tagtyp_Id`, `Anzahl_Messungen`, `Linienname`, `Haltestellennummer`, `Haltestellenkurzname`, `Linien_Id`, `Plan_Fahrt_Id`) are absent from the result |
| Columns.RenamedLoadedColumns | streamlit_app/Upload_Data.py:48 | every source label of the rename map is a loaded label, so every target is present after the rename; `carbon_intensity`, `year` and `stop_next` stay |
| Columns.NoStopCurrentBeforeRename | streamlit_app/Upload_Data.py:48-49 | before the rename the loaded frame has no `stop_current` label |
| Loading.NextStops | streamlit_app/utils/data_loading.py:28 | the next-stop join keeps at least one entry per ridership row |
| Loading.MergeRows | streamlit_app/utils/data_loading.py:19-29 | at least one row per ridership row, and every row carries the year argument |
| Loading.LoadAndMerge | streamlit_app/utils/data_loading.py:9-31 | with the intensity table as the code builds it: the load succeeds exactly when `LoadedColumns` finds every label the drops, the four joins and the next-stop lookup (`Nach_Hst_Id`, `Haltestellenlangname`) read; on success, every row carries the year and there are at least as many rows as ridership rows |
| Loading.EveryRideKept | streamlit_app/utils/data_loading.py:19-22 | each ridership row leads at least one merged row that carries its columns unchanged |
| Loading.IntensityByCode | streamlit_app/utils/data_loading.py:21 | a row's carbon intensity is missing exactly when the table has no entry for its VSYS code; otherwise it is a value stored under that code |
| Loading.NightBusUnratedAsWritten | streamlit_app/utils/data_loading.py:21 | with the table as written, no joined row of class `N` gets an intensity |
| Loading.KnownClassesRated | streamlit_app/utils/data_loading.py:21 | with the corrected table, a row of any known class gets the intensity stored for its class |
| Loading.MergeUnique | streamlit_app/utils/data_loading.py:19-29 | with unique right keys: one row per ridership row, in ridership order, each joined column looked up by key, `stop_next` included |
| Loading.LoadAndMergeUnique | streamlit_app/utils/data_loading.py:9-31 | the same for the loader's result, with the intensity table as written |
| Loading.AsWrittenCodesUnique | streamlit_app/utils/data_loading.py:21 | the intensity table as written has unique labels, so its join duplicates no row |
| Loading.LoadedNightBusUnrated | streamlit_app/utils/data_loading.py:21 | every night-bus row the loader returns lacks a carbon intensity |
| Loading.LoadAndMergeCorrected | streamlit_app/utils/data_loading.py:9-31 | the loader with the night-bus label corrected succeeds exactly when the loader as written does, with the same labels, the year on every row and at least one row per ridership row |
| Loading.LoadAndMergeCorrectedUnique | streamlit_app/utils/data_loading.py:9-31 | with unique registry keys, the corrected loader gives one row per ridership row, each joined column looked up by key |
| Loading.CorrectedLoadRated | streamlit_app/utils/data_loading.py:21 | with the corrected label, every returned row of a known class carries its class's intensity |
| Loading.StopNextMisaligned | streamlit_app/utils/data_loading.py:28-29 | the next stop is assigned by position. When the line join duplicates a row, merged row 1 still belongs to the first ride but carries the second ride's next stop, and the last row carries none. |
| Loading.DuplicatedLineJoins | streamlit_app/utils/data_loading.py:19-22 | a line registered twice gives three joined rows, the middle one still the first ride's |
| Bucketing.Mean | streamlit_app/utils/functions.py:26 | the mean is missing exactly when there are no values |
| Bucketing.AggregateTimeStep | streamlit_app/utils/functions.py:22-29 | `" "` leaves the column as it is; with a width, no samples give no buckets, and otherwise there is one bucket from the earliest time's bucket to the latest time's |
| Bucketing.BucketsAligned | streamlit_app/utils/functions.py:26 | each bucket starts at a multiple of the width and holds the mean of the present values whose time lies in `[start, start + w)` |
| Bucketing.BucketsIncrease | streamlit_app/utils/functions.py:26-27 | bucket starts strictly increase |
| Bucketing.AtMostADayOfBuckets | streamlit_app/utils/functions.py:26 | there are at most `(86400 - 1) / w + 1` buckets |
| Bucketing.FifteenSecondBuckets | streamlit_app/utils/metrics.py:49-67 | at most 5760 buckets of 15 seconds |
| Bucketing.EveryValueBucketed | streamlit_app/utils/functions.py:26 | every present cell lands in the bucket at its time rounded down to the width, and that bucket is present |
| Bucketing.MeanWithin | streamlit_app/utils/functions.py:26 | a bucket's mean lies between its smallest and largest value, so buckets are averaged, never summed |
| Bucketing.ConstantBucketKept | streamlit_app/utils/functions.py:26 | a bucket whose values all equal `c`, a single value included, keeps `c` |
| Bucketing.EmptyInnerBucket | streamlit_app/utils/functions.py:26 | an empty bucket between two occupied ones is emitted with a missing value |
| Grouping.GroupSum | streamlit_app/utils/metrics.py:34 | the groups of a `groupby` sum are exactly the keys that occur |
| Grouping.SumByKey | streamlit_app/utils/metrics.py:34 | a one-pass accumulation computes the same sums |
| Grouping.GroupValueFrom | streamlit_app/utils/metrics.py:34 | every value summed for a group comes from a row of that group |
| Grouping.GroupHasValues | streamlit_app/utils/metrics.py:78-80 | a group has a value exactly when one of its rows has a present value |
| Grouping.NamesAtMostRows | streamlit_app/utils/metrics.py:72-73 | `nunique` never exceeds the group's row count |
| Grouping.NamesAbsent | streamlit_app/utils/metrics.py:72-73 | `nunique` is 0 exactly when every row of the group lacks a name |
| Pivots.PivotSumCells | streamlit_app/utils/metrics.py:37-41 | a pivot cell exists exactly when its row label and column label both occur, and is present exactly when a row has that label pair |
| Pivots.PivotSumValue | streamlit_app/utils/metrics.py:37-41 | a present cell is its group's sum, and every summed value comes from a row of that group |
| Pivots.PivotCountBounds | streamlit_app/utils/metrics.py:72-75 | a present count belongs to a non-empty group, is at most its row count, and is 0 exactly when the group's names are all missing |
| Pivots.FilledMeanCell | streamlit_app/utils/metrics.py:78-80 | a filled cell is its group's mean when it has values and 0 otherwise |
| Pivots.TimeColumnIndex | streamlit_app/utils/metrics.py:44-47 | a time-indexed column lists each time of its rows once, in increasing order |
| Pivots.TimeColumnCell | streamlit_app/utils/metrics.py:44-47 | a sample is present exactly when a row has its time, and then holds their sum |
| Pivots.CellsValuesIn | streamlit_app/utils/metrics.py:44-47 | the present samples of a time-indexed column whose times lie in `[a, b)` are the per-time sums, in time order, for the times in `[a, b)` that a row of the column has |
| Pivots.ResampledCell | streamlit_app/utils/functions.py:22-29 | resampling such a column gives buckets that start at a multiple of the width and hold the mean of the per-time sums within them |
| Metrics.FlowIn | streamlit_app/utils/metrics.py:20 | the flow divided by the average factor gives back the boardings, and the flow is 0 exactly when either is 0 |
| Metrics.WorkingDayAmount | streamlit_app/utils/metrics.py:22 | the per-working-day load times 251 is the load times the working-day factor |
| Metrics.NonWorkingDayAmount | streamlit_app/utils/metrics.py:23-24 | the per-non-working-day load times 52 times 62 is the load times the sum of the Saturday factor times 62 and the Sunday factor times 52 |
| Metrics.NightAmount | streamlit_app/utils/metrics.py:25-26 | the night load is the non-working-day formula with the night factors in place of the day factors |
| Metrics.PassengerKm | streamlit_app/utils/metrics.py:27 | passenger-kilometres are the load times the distance travelled |
| Metrics.DistanceTravelled | streamlit_app/utils/metrics.py:29 | the distance travelled divided by the average factor gives back the distance |
| Metrics.SeatOccupancy | streamlit_app/utils/metrics.py:21 | occupancy is missing exactly when the seat count is missing or zero, and otherwise times the seats gives the load |
| Metrics.PassengerKmCo2 | streamlit_app/utils/metrics.py:28 | CO2 is missing exactly when the intensity is |
| Metrics.LabelsOneToOne | streamlit_app/utils/metrics.py:50-53 | the occupancy relabelling is one-to-one |
| Metrics.PassengersPerLine | streamlit_app/utils/metrics.py:37-41 | `number_passengers[year][line]` is the sum of boardings over the rows with that year and line |
| Metrics.PassengerDay | streamlit_app/utils/metrics.py:56-60 | one column per year of the frame |
| Metrics.PassengerDayBucket | streamlit_app/utils/metrics.py:56-60 | each bucket of a year's `passenger_day` column starts at a multiple of 15 seconds and holds the mean, over the departure times in it that the year's rows have, of the night loads summed per time |
| Metrics.PkmAmount | streamlit_app/utils/metrics.py:63-67 | one column per (year, vehicle class) that occurs |
| Metrics.PkmBucket | streamlit_app/utils/metrics.py:63-67 | each bucket of a (year, class) `pkm_amount` column starts at a multiple of 15 seconds and holds the mean of that group's per-time passenger-kilometre sums within it |
| Metrics.LoadBucket | streamlit_app/utils/metrics.py:44-49 | each bucket of a load column of one year starts at a multiple of 15 seconds and holds the mean of that year's per-time load sums within it |
| Metrics.OccupancyColumn | streamlit_app/utils/metrics.py:44-53 | an `occupancy_trend` column exists only for one of the three relabelled loads and a year of the frame, and is that load's resampled column for the year |
| Metrics.DistancePerClass | streamlit_app/utils/metrics.py:85-92 | `distance_travelled[year][class]` is the sum of the distances travelled by the rows of that year and class, and every summed value comes from such a row |
| Metrics.LineCounts | streamlit_app/utils/metrics.py:72-75 | `number_lines` is at most the group's row count, and is 0 exactly when no row of the group has a line name |
| Metrics.CapacityFactorIsFraction | streamlit_app/utils/metrics.py:78-80 | a cell is the group's mean occupancy or 0, and lies in `[0, 1]` when every occupancy does |
| Metrics.SavedCo2 | streamlit_app/utils/metrics.py:95-100 | one saving per year of the frame |
| Metrics.SavedCo2ByRow | streamlit_app/utils/metrics.py:95-100 | a year's saving is the sum of its rows' savings divided by 1000 |
| Metrics.SavedCo2ZeroAtFleetIntensity | streamlit_app/utils/metrics.py:95-100 | a year whose every row is carried at the fleet intensity saves nothing |
| Metrics.TrendsFitADay | streamlit_app/utils/metrics.py:44-67 | every resampled column has at most 5760 buckets |
| Metrics.CalculateMetrics | streamlit_app/utils/metrics.py:102-111 | the result has exactly the eight view names as keys |
| Metrics.EightViews | streamlit_app/utils/metrics.py:102-109 | the eight names are distinct |
| Metrics.NightViewIsPassengerDay | streamlit_app/utils/metrics.py:49-60 | the view under `"passenger_day"` is the night load, the same column as occupancy's `"Non-working nights"` |
| Strings.Find | streamlit_app/utils/functions.py:7 | `find` gives the lowest index where the pattern occurs, or -1 |
| Strings.Split | streamlit_app/Upload_Data.py:60 | `split` gives at least one piece and no piece holds the separator |
| Strings.SplitJoin | streamlit_app/Upload_Data.py:60 | `split` undoes `join` when no piece holds the separator |
| Strings.JoinSplit | streamlit_app/Upload_Data.py:60 | `join` undoes `split` |
| Strings.JoinEnds | streamlit_app/Upload_Data.py:60 | `join` starts with the first piece, followed by the separator when there are more pieces, and ends with the last piece |
| Strings.Slice | streamlit_app/utils/data_cleaning.py:15-17 | Python slicing: in-range bounds slice as written, a stop past the end means to the end, a negative start counts from the end, and a stop at or before the start gives the empty string |
| Upload.ObtainYearZipfile | streamlit_app/utils/functions.py:6-9 | at most 4 characters. When "20" occurs, the result starts with "20" at its first occurrence. Otherwise it is empty for names of 4 or more characters, and the last character for shorter ones. |
| Upload.YearOfArchiveName | streamlit_app/utils/functions.py:6-9 | a name whose first "20" starts a four-character year yields that year |
| Upload.ObtainYearPeriod | streamlit_app/Upload_Data.py:59-61 | never empty, and no piece holds "-" |
| Upload.PlainNamePeriod | streamlit_app/Upload_Data.py:60 | a name with no "_", "." or "-" is read whole |
| Upload.YearPeriodOfProcessedName | streamlit_app/Upload_Data.py:59-61 | `obtain_year_period("processed_data_{a}-{b}.csv") == [a, b]` when neither year holds "_", "." or "-" |
| Upload.ProcessedNameLayout | streamlit_app/Upload_Data.py:74 | the saved name is `processed_data_`, the first year, `-`, the last year and `.csv`, each at its own position |
| Upload.SavedName | streamlit_app/Upload_Data.py:74-88 | when no year holds "_", "." or "-", the period read back from the saved name is the first and the last year of the upload that wrote it |
| Upload.LoadArchive | streamlit_app/Upload_Data.py:32-43 | an archive loads exactly when the loader finds every label it drops, joins on or reads for the next stop (`Loading.LoadAndMerge`), and its rows carry the year from its name |
| Upload.Concat | streamlit_app/Upload_Data.py:44 | the stacked labels are the labels of the frames |
| Upload.ProcessUploadedFiles | streamlit_app/Upload_Data.py:29-44 | succeeds exactly when there are archives and all of them load. On an empty list the function fails, as `pd.concat([])` does. Otherwise the error is the first failing archive's. The years are one per archive, in upload order. |
| Upload.ProcessedFrames | streamlit_app/Upload_Data.py:43-44 | a successful upload stacks the frames of its archives in upload order |
| Upload.RowsOfFrame | streamlit_app/Upload_Data.py:44 | each frame's rows sit, in order, at its offset in the stacked frame |
| Upload.RowsCount | streamlit_app/Upload_Data.py:44 | the stacked frame's row count is the sum of the frames' row counts |
| Upload.RowFromFrame | streamlit_app/Upload_Data.py:44 | every stacked row comes from one of the frames |
| Upload.LabelsOfFrames | streamlit_app/Upload_Data.py:44 | a label of the stacked frame is a label of some frame, and conversely |
| Upload.UploadedRowsCarryYears | streamlit_app/Upload_Data.py:32-44 | every uploaded row carries one of the years reported for the upload |
| Upload.CleanUploaded | streamlit_app/Upload_Data.py:47-49 | a successful clean of an upload has the renamed labels and no more rows than the upload |
| Upload.CleanAfterRename | streamlit_app/Upload_Data.py:47-49 | when the rename yields every label the cleaner reads, cleaning succeeds exactly when every time can be repaired and parsed |
| Upload.CleanWithoutRename | streamlit_app/Upload_Data.py:47-49 | skipping the rename makes the cleaner fail on `stop_current` |
| Upload.UploadThenClean | streamlit_app/Upload_Data.py:29-49 | archives with the expected headers upload, and the stacked frame, once renamed, cleans exactly when every time can be repaired and parsed |

## Left out

- ZIP extraction, CSV reads and writes, the download button, `st.cache_data`,
  `st.session_state` and the page widgets are left out. They are I/O and
  framework plumbing. The loader takes its four tables as parameters, and the
  upload takes archives that already hold them.
- The dashboard page (`streamlit_app/pages/1_Dashboard.py`) is not part of
  this model. It only renders the views.
- pandas' reshaping (stack, unstack, level renames, reset_index) is left out.
  Each view is kept as a map from its group labels to its cells, not as a
  column layout.
- Floating-point rounding is left out. Arithmetic is exact `real`; a NaN is
  `None`.
- In-place mutation of the caller's frame (`metrics.py:20-29`,
  `functions.py:24`) is left out. Every function returns a new value.
- Metrics.SeatOccupancy: a seat count of zero gives a missing occupancy,
  whereas pandas gives an infinity or NaN. Occupancy is not defined as a real
  number there.
- Metrics.PkmAmount: the stacked `pkm_amount` frame also lists the
  (time, year, class) combinations no row has, with NaN values. The model
  keeps only the columns that occur.
- Metrics.SavedCo2: the summation order of the floating-point sums is left
  out. With exact arithmetic the order does not matter.
- Upload.Concat: columns missing from some frames are filled with NaN by
  `pd.concat`. The model keeps the union of the labels and rows of one record
  type, so the contract speaks of labels and rows, not of NaN filling.
- Upload.YearPeriodOfProcessedName: the round trip holds only for years
  without "_", "." or "-". A year with one of them is read back differently,
  as the code does.
- Upload.ObtainYearZipfile: the year is not checked to be four digits. Any
  four characters starting at the first "20" are returned, as the code does.
- Codec.SafeDecode: a non-string cell is modelled as `None`. Only
  `AttributeError` on NaN is modelled, not other object types.
- TimeRepair.AdjustInvalidTimes: Python's `int()` also reads non-ASCII
  decimal digits (Arabic-Indic or full-width digits, say). It also strips
  Unicode whitespace such as U+1680, U+2000 to U+200A, U+2028, U+2029, U+202F,
  U+205F and U+3000. The model reads only ASCII digits and strips only the
  ASCII and Latin-1 whitespace. On an hour field that uses any of these, the
  model fails where the code succeeds.
- Columns.Merge: pandas raises when a `label_x` or `label_y` it would create
  already exists on its side. The model does not check that collision. The
  loader's label lemmas (`LoadedColumnsLabels`, `LoadedSucceedsWhen`) assume
  the four headers share no label beyond their join keys (`SharesOnlyKeys`).
  `MergeSuffixes` and `LineTableWithVsysFails` show what happens otherwise.
- Raw values that cannot be missing: the ridership numbers (boardings, alightings, load,
  factors, distance), `FZ_AB` and the capacity figures inside a matched
  vessel row are never missing in the model. pandas would carry a NaN there
  from an empty CSV field.
- Tables.Dedup: a row compares only the fields of `Record`. Labels in a
  header beyond those fields carry no values in the model. So two rows that
  differ only in such a column are merged by the model, whereas
  `drop_duplicates()` keeps both.
- TimeRepair.ParseClock: the model reads only ASCII digits. pandas' `%H:%M:%S`
  pattern (hour `2[0-3]|[0-1]\d|\d`, minute `[0-5]\d|\d`, second
  `6[0-1]|[0-5]\d|\d`) uses `\d`, which also matches non-ASCII decimal
  digits. So a time such as `12:٣٠:00` (Arabic-Indic digits in the minute or
  second field) parses in pandas and is `None` in the model, which then fails
  the clean. Signs, fractions and the leap seconds 60 and 61 are handled as
  pandas does.

### Behaviour worth knowing (the model follows the code)

- `aggregate_time_step` emits every bucket between the first and the last
  occupied one. An empty bucket in between is present with a missing value
  (`Bucketing.EmptyInnerBucket`).
- `adjust_invalid_times` is not idempotent: `"24:30:00"` becomes `"0:30:00"`,
  and a second call raises (`TimeRepair.AdjustTwice`).
- `rename(..., axis=1)` silently ignores labels that are not there. A frame
  without the raw labels only fails later, in the cleaner
  (`Upload.CleanWithoutRename`).
- `number_lines` is 0 for a group whose line names are all missing
  (`Metrics.LineCounts`).
- `process_uploaded_files([])` would raise, because `pd.concat([])` does
  (`Upload.ProcessUploadedFiles`). The page never calls it that way: the
  call at `streamlit_app/Upload_Data.py:72` is guarded by `if uploaded_files`
  on line 70.

## Findings

| source | as written | input that shows it | evidently intended | confidence | as-written member | corrected member |
|---|---|---|---|---|---|---|
| streamlit_app/utils/global_values.py:43-58 | the intensity series labels the night bus `"Night bus"`, but the class map spells it `"Night Bus"`, so the inversion leaves that row unrenamed | any ridership row with `VSYS == "N"` gets no carbon intensity, so its `passenger_kilometre_co2` is NaN and its emissions are skipped in the public-transport total, which overstates `saved_co2` | the night-bus row is re-keyed to `N` like the nine others, so every class code has an intensity | not executed | Loading.LoadedNightBusUnrated | Loading.CorrectedLoadRated |

=== FILE: arith.dfy ===
/**
 * Whole multiples of a bucket width, defined by repeated addition so that
 * proofs about bucket starts stay linear. `Times(k, w)` is `k * w` and
 * `Over(t, w)` is `t / w` (see `TimesIsProduct` and `OverIsQuotient`).
 */
module Arith {
  /** `k` widths of `w` laid end to end. */
  function Times(k: nat, w: nat): nat {
    if k == 0 then 0 else Times(k - 1, w) + w
  }

  /** How many whole widths of `w` fit in `t`. */
  function Over(t: nat, w: nat): nat
    requires w > 0
    decreases t
  {
    if t < w then 0 else Over(t - w, w) + 1
  }

  /** Between two multiples of `w` there is at least `w`. */
  lemma {:induction false} TimesGap(i: nat, j: nat, w: nat)
    requires i < j
    ensures Times(i, w) + w <= Times(j, w)
  {
    if j > i + 1 {
      TimesGap(i, j - 1, w);
    }
  }

  lemma TimesMonotone(i: nat, j: nat, w: nat)
    requires i <= j
    ensures Times(i, w) <= Times(j, w)
  {
    if i < j {
      TimesGap(i, j, w);
    }
  }

  /** `t` lies in the width that starts at `Times(Over(t, w), w)`. */
  lemma {:induction false} OverBounds(t: nat, w: nat)
    requires w > 0
    ensures Times(Over(t, w), w) <= t < Times(Over(t, w), w) + w
  {
    if t >= w {
      OverBounds(t - w, w);
    }
  }

  /** The width that holds `t` is the only one. */
  lemma OverUnique(t: nat, w: nat, k: nat)
    requires w > 0 && Times(k, w) <= t < Times(k, w) + w
    ensures Over(t, w) == k
  {
    OverBounds(t, w);
    var q := Over(t, w);
    if q < k {
      TimesGap(q, k, w);
    } else if k < q {
      TimesGap(k, q, w);
    }
  }

  lemma OverMonotone(a: nat, b: nat, w: nat)
    requires w > 0 && a <= b
    ensures Over(a, w) <= Over(b, w)
  {
    OverBounds(a, w);
    OverBounds(b, w);
    if Over(b, w) < Over(a, w) {
      assert false;
    }
  }

  lemma {:induction false} TimesIsProduct(k: nat, w: nat)
    ensures Times(k, w) == k * w
  {
    if k > 0 {
      TimesIsProduct(k - 1, w);
      assert (k - 1) * w + w == k * w;
    }
  }

  /** `Over` is Euclidean (and, on naturals, Python's floor) division. */
  lemma OverIsQuotient(t: nat, w: nat)
    requires w > 0
    ensures Over(t, w) == t / w && Times(Over(t, w), w) == t / w * w
  {
    OverBounds(t, w);
    var q := Over(t, w);
    TimesIsProduct(q, w);
    assert t == q * w + (t - q * w) && 0 <= t - q * w < w;
    DivUnique(t, w, q, t - q * w);
  }

  lemma DivUnique(a: nat, w: nat, q: nat, r: nat)
    requires w > 0 && a == q * w + r && r < w
    ensures a / w == q
  {
    var q', r' := a / w, a % w;
    assert a == q' * w + r';
    if q < q' {
      ProductGap(q, q', w);
    } else if q' < q {
      ProductGap(q', q, w);
    }
  }

  lemma ProductGap(i: nat, j: nat, w: nat)
    requires i < j
    ensures i * w + w <= j * w
  {
    TimesGap(i, j, w);
    TimesIsProduct(i, w);
    TimesIsProduct(j, w);
  }

  /** A mean `m` of `n` values with a sum between `n * lo` and `n * hi` lies between `lo` and `hi`. */
  lemma ScaledBetween(m: real, n: real, lo: real, hi: real)
    requires n > 0.0 && n * lo <= m * n <= n * hi
    ensures lo <= m <= hi
  {
  }
}

=== FILE: bucketing.dfy ===
/**
 * Averaging a time-of-day indexed column into fixed-width buckets, as the
 * dashboard's `aggregate_time_step` does with a pandas resample anchored at
 * midnight. Times are whole seconds since midnight; a missing cell is `None`.
 *
 * The resample produces one bucket for every multiple of the width from the
 * bucket of the earliest index entry to that of the latest, so a bucket that
 * holds no value in between is present with a missing value.
 */
module Bucketing {
  import opened Wrappers
  import opened TimeRepair
  import opened Arith

  /** A bucket width in seconds ("15S" is 15). */
  type Width = w: nat | 0 < w witness 1

  /** The resampling rule: `" "` leaves the column as it is. */
  datatype Step = Unchanged | Every(width: Width)

  /** One index entry of a column and its cell. */
  datatype Sample = Sample(time: Seconds, value: Option<real>)

  function Sum(xs: seq<real>): real {
    if |xs| == 0 then 0.0 else Sum(xs[..|xs| - 1]) + xs[|xs| - 1]
  }

  /** The mean of a list of values; missing when there are none. */
  function Mean(xs: seq<real>): (m: Option<real>)
    ensures m.None? <==> |xs| == 0
  {
    if |xs| == 0 then None else Some(Sum(xs) / |xs| as real)
  }

  /** A mean times the number of values is their sum. */
  lemma MeanTimesCount(xs: seq<real>)
    requires |xs| > 0
    ensures Mean(xs).value * |xs| as real == Sum(xs)
  {
  }

  /** The present values of `s` whose time lies in `[a, b)`, in index order. */
  function ValuesIn(s: seq<Sample>, a: int, b: int): (v: seq<real>)
    ensures |v| <= |s|
  {
    if |s| == 0 then []
    else
      var earlier, x := ValuesIn(s[..|s| - 1], a, b), s[|s| - 1];
      if x.value.Some? && a <= x.time < b then earlier + [x.value.value] else earlier
  }

  /** The earliest time among the first `n` index entries. */
  function Earliest(s: seq<Sample>, n: nat := |s|): Seconds
    requires 0 < n <= |s|
  {
    if n == 1 then s[0].time
    else
      var t := Earliest(s, n - 1);
      if s[n - 1].time < t then s[n - 1].time else t
  }

  /** The latest time among the first `n` index entries. */
  function Latest(s: seq<Sample>, n: nat := |s|): Seconds
    requires 0 < n <= |s|
  {
    if n == 1 then s[0].time
    else
      var t := Latest(s, n - 1);
      if s[n - 1].time > t then s[n - 1].time else t
  }

  /** The earliest and latest times bound every time, and both occur. */
  lemma {:induction false} Extremes(s: seq<Sample>, n: nat) returns (lo: nat, hi: nat)
    requires 0 < n <= |s|
    ensures forall i :: 0 <= i < n ==> Earliest(s, n) <= s[i].time <= Latest(s, n)
    ensures lo < n && s[lo].time == Earliest(s, n)
    ensures hi < n && s[hi].time == Latest(s, n)
  {
    if n == 1 {
      lo, hi := 0, 0;
    } else {
      lo, hi := Extremes(s, n - 1);
      if s[n - 1].time < Earliest(s, n - 1) {
        lo := n - 1;
      }
      if s[n - 1].time > Latest(s, n - 1) {
        hi := n - 1;
      }
    }
  }

  lemma EarliestNotAfterLatest(s: seq<Sample>)
    requires |s| > 0
    ensures Earliest(s) <= Latest(s)
  {
    var lo, hi := Extremes(s, |s|);
  }

  /** Bucket number `n`: it starts `n` widths after midnight and holds the mean of the values in it. */
  function Bucket(s: seq<Sample>, w: Width, n: nat): (b: Sample)
    requires Times(n, w) < SecondsPerDay
    ensures b.time == Times(n, w)
  {
    var start := Times(n, w);
    Sample(start, Mean(ValuesIn(s, start, start + w)))
  }

  lemma NumbersBelow(k: nat, last: nat, w: Width)
    requires Times(last, w) < SecondsPerDay
    ensures forall n :: k <= n <= last ==> Times(n, w) < SecondsPerDay
  {
    forall n | k <= n <= last ensures Times(n, w) < SecondsPerDay {
      TimesMonotone(n, last, w);
    }
  }

  /** The buckets numbered `k` to `last`, in order. */
  function Bins(s: seq<Sample>, w: Width, k: nat, last: nat): (r: seq<Sample>)
    requires k <= last && Times(last, w) < SecondsPerDay
    ensures |r| == last + 1 - k
  {
    NumbersBelow(k, last, w);
    seq(last + 1 - k, j requires 0 <= j < last + 1 - k => Bucket(s, w, k + j))
  }

  /** The `j`-th of those buckets is bucket number `k + j`. */
  lemma BinsAt(s: seq<Sample>, w: Width, k: nat, last: nat, j: nat)
    requires k <= last && Times(last, w) < SecondsPerDay && j < last + 1 - k
    ensures Times(k + j, w) < SecondsPerDay
    ensures Bins(s, w, k, last)[j] == Bucket(s, w, k + j)
  {
    TimesMonotone(k + j, last, w);
  }

  /**
   * The column resampled by `step`, its index then read back as times of day:
   * with a width, the buckets from that of the earliest time to that of the
   * latest (`resample(...).mean()`).
   */
  function AggregateTimeStep(s: seq<Sample>, step: Step): (r: seq<Sample>)
    ensures step.Unchanged? ==> r == s
    ensures step.Every? && |s| == 0 ==> r == []
    ensures step.Every? && |s| > 0 ==> |r| == Over(Latest(s), step.width) - Over(Earliest(s), step.width) + 1
  {
    match step
    case Unchanged => s
    case Every(w) =>
      if |s| == 0 then []
      else
        OverBounds(Latest(s), w);
        EarliestNotAfterLatest(s);
        OverMonotone(Earliest(s), Latest(s), w);
        Bins(s, w, Over(Earliest(s), w), Over(Latest(s), w))
  }

  /** A value is among those collected for `[a, b)` exactly when some present cell with a time in `[a, b)` holds it. */
  lemma {:induction false} ValuesInMembers(s: seq<Sample>, a: int, b: int, x: real)
    ensures x in ValuesIn(s, a, b) <==> exists i :: 0 <= i < |s| && s[i].value == Some(x) && a <= s[i].time < b
  {
    if |s| > 0 {
      var init := s[..|s| - 1];
      ValuesInMembers(init, a, b, x);
      if exists i :: 0 <= i < |s| && s[i].value == Some(x) && a <= s[i].time < b {
        var i :| 0 <= i < |s| && s[i].value == Some(x) && a <= s[i].time < b;
        if i < |s| - 1 {
          assert init[i] == s[i];
        }
      }
    }
  }

  /**
   * Every bucket starts at a multiple of the width and holds the mean of the
   * present values whose time lies in it.
   */
  lemma BucketsAligned(s: seq<Sample>, w: Width)
    ensures var r := AggregateTimeStep(s, Every(w));
      forall i :: 0 <= i < |r| ==> r[i].time % w == 0 && r[i].value == Mean(ValuesIn(s, r[i].time, r[i].time + w))
  {
    if |s| > 0 {
      AggregateIsBins(s, w);
      BinsAligned(s, w, Over(Earliest(s), w), Over(Latest(s), w));
    }
  }

  /** The bucket starts strictly increase, so the output is in time order with no time twice. */
  lemma BucketsIncrease(s: seq<Sample>, w: Width)
    ensures var r := AggregateTimeStep(s, Every(w));
      forall i, j :: 0 <= i < j < |r| ==> r[i].time < r[j].time
  {
    if |s| > 0 {
      AggregateIsBins(s, w);
      BinsAligned(s, w, Over(Earliest(s), w), Over(Latest(s), w));
    }
  }

  /** With a width, the output is the buckets from the earliest time's to the latest time's. */
  lemma AggregateIsBins(s: seq<Sample>, w: Width)
    requires |s| > 0
    ensures Over(Earliest(s), w) <= Over(Latest(s), w) && Times(Over(Latest(s), w), w) < SecondsPerDay
    ensures AggregateTimeStep(s, Every(w)) == Bins(s, w, Over(Earliest(s), w), Over(Latest(s), w))
  {
    OverBounds(Latest(s), w);
    EarliestNotAfterLatest(s);
    OverMonotone(Earliest(s), Latest(s), w);
  }

  /** The same, for the buckets numbered `k` to `last`. */
  lemma BinsAligned(s: seq<Sample>, w: Width, k: nat, last: nat)
    requires k <= last && Times(last, w) < SecondsPerDay
    ensures var r := Bins(s, w, k, last);
      forall i :: 0 <= i < |r| ==> r[i].time % w == 0 && r[i].value == Mean(ValuesIn(s, r[i].time, r[i].time + w))
    ensures var r := Bins(s, w, k, last);
      forall i, j :: 0 <= i < j < |r| ==> r[i].time < r[j].time
  {
    var r := Bins(s, w, k, last);
    forall i | 0 <= i < |r|
      ensures r[i].time % w == 0 && r[i].value == Mean(ValuesIn(s, r[i].time, r[i].time + w))
    {
      BinsAt(s, w, k, last, i);
      TimesAreMultiples(k + i, w);
    }
    forall i, j | 0 <= i < j < |r| ensures r[i].time < r[j].time {
      BinsAt(s, w, k, last, i);
      BinsAt(s, w, k, last, j);
      TimesGap(k + i, k + j, w);
    }
  }

  /** Bucket `i` of the output is bucket number `i` after the earliest time's. */
  lemma BucketAt(s: seq<Sample>, w: Width, i: nat)
    requires |s| > 0 && i <= Over(Latest(s), w) - Over(Earliest(s), w)
    ensures Times(Over(Earliest(s), w) + i, w) < SecondsPerDay
    ensures AggregateTimeStep(s, Every(w))[i] == Bucket(s, w, Over(Earliest(s), w) + i)
  {
    OverBounds(Latest(s), w);
    EarliestNotAfterLatest(s);
    OverMonotone(Earliest(s), Latest(s), w);
    BinsAt(s, w, Over(Earliest(s), w), Over(Latest(s), w), i);
  }

  lemma TimesAreMultiples(k: nat, w: Width)
    ensures Times(k, w) % w == 0
  {
    OverUnique(Times(k, w), w, k);
    OverBounds(Times(k, w), w);
    OverIsQuotient(Times(k, w), w);
  }

  /** A day holds at most `(86400 - 1) / w + 1` buckets of width `w`. */
  lemma AtMostADayOfBuckets(s: seq<Sample>, w: Width)
    ensures |AggregateTimeStep(s, Every(w))| <= (SecondsPerDay - 1) / w + 1
  {
    if |s| > 0 {
      OverMonotone(Latest(s), SecondsPerDay - 1, w);
      OverIsQuotient(SecondsPerDay - 1, w);
    }
  }

  /** When `q` widths make a day, there are at most `q` buckets. */
  lemma DividingWidthBound(s: seq<Sample>, w: Width, q: nat)
    requires Times(q, w) == SecondsPerDay
    ensures |AggregateTimeStep(s, Every(w))| <= q
  {
    if |s| > 0 {
      assert q > 0;
      assert Times(q, w) == Times(q - 1, w) + w;
      OverUnique(SecondsPerDay - 1, w, q - 1);
      OverMonotone(Latest(s), SecondsPerDay - 1, w);
    }
  }

  /** The 15-second buckets the metrics use: at most 5760 of them. */
  lemma FifteenSecondBuckets(s: seq<Sample>)
    ensures |AggregateTimeStep(s, Every(15))| <= 5760
  {
    TimesIsProduct(5760, 15);
    DividingWidthBound(s, 15, 5760);
  }

  /**
   * Every present cell lands in the bucket that starts at its time rounded
   * down to the width, and that bucket's value is present.
   */
  lemma EveryValueBucketed(s: seq<Sample>, w: Width, i: nat) returns (j: nat)
    requires i < |s| && s[i].value.Some?
    ensures var r := AggregateTimeStep(s, Every(w));
      j < |r| && r[j].time == s[i].time / w * w && r[j].value.Some?
  {
    var t := s[i].time;
    var k, l := Over(Earliest(s), w), Over(Latest(s), w);
    var lo, hi := Extremes(s, |s|);
    OverMonotone(Earliest(s), t, w);
    OverMonotone(t, Latest(s), w);
    OverBounds(Latest(s), w);
    j := BinHolding(s, w, k, l, i);
    OverIsQuotient(t, w);
  }

  /** The bucket among `k..last` that holds a present cell whose time falls in that range. */
  lemma BinHolding(s: seq<Sample>, w: Width, k: nat, last: nat, i: nat) returns (j: nat)
    requires k <= last && Times(last, w) < SecondsPerDay
    requires i < |s| && s[i].value.Some? && k <= Over(s[i].time, w) <= last
    ensures j < |Bins(s, w, k, last)|
    ensures Bins(s, w, k, last)[j].time == Times(Over(s[i].time, w), w)
    ensures Bins(s, w, k, last)[j].value.Some?
  {
    var t := s[i].time;
    j := Over(t, w) - k;
    BinsAt(s, w, k, last, j);
    var a := Times(Over(t, w), w);
    OverBounds(t, w);
    ValuesInMembers(s, a, a + w, s[i].value.value);
  }

  /** A sum of values within `[lo, hi]` lies between `n * lo` and `n * hi`. */
  lemma {:induction false} SumWithin(xs: seq<real>, lo: real, hi: real)
    requires forall k :: 0 <= k < |xs| ==> lo <= xs[k] <= hi
    ensures |xs| as real * lo <= Sum(xs) <= |xs| as real * hi
  {
    if |xs| > 0 {
      SumWithin(xs[..|xs| - 1], lo, hi);
    }
  }

  /** A mean lies between the smallest and the largest value averaged: buckets are averaged, never summed. */
  lemma MeanWithin(xs: seq<real>, lo: real, hi: real)
    requires |xs| > 0
    requires forall k :: 0 <= k < |xs| ==> lo <= xs[k] <= hi
    ensures Mean(xs).Some? && lo <= Mean(xs).value <= hi
  {
    SumWithin(xs, lo, hi);
    MeanTimesCount(xs);
    ScaledBetween(Mean(xs).value, |xs| as real, lo, hi);
  }

  /** A bucket whose present values are all `c` (in particular, a single value `c`) keeps `c`. */
  lemma ConstantBucketKept(xs: seq<real>, c: real)
    requires |xs| > 0
    requires forall k :: 0 <= k < |xs| ==> xs[k] == c
    ensures Mean(xs) == Some(c)
  {
    MeanWithin(xs, c, c);
  }

  /** A bucket between two occupied ones but holding nothing itself is present with a missing value. */
  lemma EmptyInnerBucket()
    ensures AggregateTimeStep([Sample(0, Some(1.0)), Sample(30, Some(2.0))], Every(15))
      == [Sample(0, Some(1.0)), Sample(15, None), Sample(30, Some(2.0))]
  {
    var s := [Sample(0, Some(1.0)), Sample(30, Some(2.0))];
    assert Earliest(s) == 0 && Latest(s) == 30;
    assert Times(1, 15) == 15 && Times(2, 15) == 30;
    OverUnique(0, 15, 0);
    OverUnique(30, 15, 2);
    OverBounds(30, 15);
    assert AggregateTimeStep(s, Every(15)) == Bins(s, 15, 0, 2);
    assert ValuesIn(s, 0, 15) == [1.0];
    assert ValuesIn(s, 15, 30) == [];
    assert ValuesIn(s, 30, 45) == [2.0];
    var r := Bins(s, 15, 0, 2);
    BinsAt(s, 15, 0, 2, 0);
    BinsAt(s, 15, 0, 2, 1);
    BinsAt(s, 15, 0, 2, 2);
    assert r[0] == Sample(0, Some(1.0));
    assert r[1] == Sample(15, None);
    assert r[2] == Sample(30, Some(2.0));
  }
}

=== FILE: cleaning.dfy ===
/**
 * `clean_data(data)`: repair the stop names' text encoding, bring departure
 * hours past midnight back into the day and read them as times of day,
 * convert the distance from metres to kilometres, and drop repeated rows.
 */
module Cleaning {
  import opened Wrappers
  import opened Tables
  import opened Codec
  import opened TimeRepair
  import opened Columns
  import opened Records

  datatype CleanError =
    | MissingColumn(name: string)   // a label the cleaner reads is absent: KeyError
    | BadTime(reason: TimeError)     // a departure time cannot be repaired or read

  /** The labels the cleaner reads before it converts the times, in the order it reads them. */
  const DecodedAndTimed: seq<string> := ["stop_next", "stop_current", "departure_time"]

  /**
   * Both stop-name columns through `safe_decode`: no other field changes,
   * a missing name stays missing, a name that is the mojibake of some text
   * comes back as that text, and no name grows longer.
   */
  function DecodeNames(r: Record<string>): (s: Record<string>)
    ensures s.(stopNext := r.stopNext, stopCurrent := r.stopCurrent) == r
    ensures s.stopNext.Some? <==> r.stopNext.Some?
    ensures s.stopCurrent.Some? <==> r.stopCurrent.Some?
    ensures forall t :: r.stopNext == Some(Mojibake(t)) ==> s.stopNext == Some(t)
    ensures forall t :: r.stopCurrent == Some(Mojibake(t)) ==> s.stopCurrent == Some(t)
    ensures r.stopNext.Some? ==> |s.stopNext.value| <= |r.stopNext.value|
    ensures r.stopCurrent.Some? ==> |s.stopCurrent.value| <= |r.stopCurrent.value|
  {
    assert forall t :: r.stopNext == Some(Mojibake(t)) ==> SafeDecode(r.stopNext) == Some(t) by {
      forall t | r.stopNext == Some(Mojibake(t)) ensures SafeDecode(r.stopNext) == Some(t) {
        SafeDecodeRepairsMojibake(t);
      }
    }
    assert forall t :: r.stopCurrent == Some(Mojibake(t)) ==> SafeDecode(r.stopCurrent) == Some(t) by {
      forall t | r.stopCurrent == Some(Mojibake(t)) ensures SafeDecode(r.stopCurrent) == Some(t) {
        SafeDecodeRepairsMojibake(t);
      }
    }
    assert r.stopNext.Some? ==> |SafeDecode(r.stopNext).value| <= |r.stopNext.value| by {
      if r.stopNext.Some? { SafeDecodeNeverLonger(r.stopNext.value); }
    }
    assert r.stopCurrent.Some? ==> |SafeDecode(r.stopCurrent).value| <= |r.stopCurrent.value| by {
      if r.stopCurrent.Some? { SafeDecodeNeverLonger(r.stopCurrent.value); }
    }
    r.(stopNext := SafeDecode(r.stopNext), stopCurrent := SafeDecode(r.stopCurrent))
  }

  /** `adjust_invalid_times` on one row's departure. */
  function AdjustRow(r: Record<string>): Result<Record<string>, CleanError> {
    match AdjustInvalidTimes(r.departure)
    case Failure(e) => Failure(BadTime(e))
    case Success(t) => Success(r.(departure := t))
  }

  /** `pd.to_datetime(..., format="%H:%M:%S").dt.time` on one row's departure. */
  function ParseRow(r: Record<string>): Result<Record<Seconds>, CleanError> {
    match ParseClock(r.departure)
    case None => Failure(BadTime(NotATime(r.departure)))
    case Some(t) => Success(WithDeparture(r, t))
  }

  /** Metres to kilometres. */
  function ToKm(r: Record<Seconds>): Record<Seconds> {
    r.(distance := r.distance / 1000.0)
  }

  /**
   * `clean_data`. Each column is read when its step comes: a missing
   * stop-name or departure label raises before any time is looked at, and a
   * missing distance label only after every time has been converted.
   */
  function CleanData(data: Table<Record<string>>): (r: Result<Table<Record<Seconds>>, CleanError>)
    ensures r.Success? ==> r.value.columns == data.columns && Distinct(r.value.rows)
    ensures r.Success? ==> |r.value.rows| <= |data.rows|
  {
    match FirstMissing(data.columns, DecodedAndTimed)
    case Some(name) => Failure(MissingColumn(name))
    case None =>
      var adjusted :- MapAll(Decoded(data.rows), AdjustRow);
      var timed :- MapAll(adjusted, ParseRow);
      if "distance" !in data.columns then Failure(MissingColumn("distance"))
      else Success(Table(data.columns, Dedup(InKm(timed))))
  }

  function Decoded(rows: seq<Record<string>>): (d: seq<Record<string>>)
    ensures |d| == |rows| && forall i :: 0 <= i < |rows| ==> d[i].departure == rows[i].departure
  {
    seq(|rows|, i requires 0 <= i < |rows| => DecodeNames(rows[i]))
  }

  function InKm(rows: seq<Record<Seconds>>): (k: seq<Record<Seconds>>)
    ensures |k| == |rows|
  {
    seq(|rows|, i requires 0 <= i < |rows| => ToKm(rows[i]))
  }

  // ------------------------------------------------------------ properties

  /**
   * One raw row as the cleaner leaves it, or `None` if its time cannot be
   * repaired and read: names through `safe_decode`, the time repaired and
   * read, the distance in kilometres, every other column as it was.
   */
  function CleanRow(x: Record<string>): (r: Option<Record<Seconds>>)
    ensures r.Some? <==> AdjustInvalidTimes(x.departure).Success? && ParseClock(AdjustInvalidTimes(x.departure).value).Some?
    ensures r.Some? ==> r.value == WithDeparture(x, ParseClock(AdjustInvalidTimes(x.departure).value).value).(
      distance := x.distance / 1000.0, stopNext := SafeDecode(x.stopNext), stopCurrent := SafeDecode(x.stopCurrent))
  {
    match AdjustRow(DecodeNames(x))
    case Failure(_) => None
    case Success(a) =>
      match ParseRow(a)
      case Failure(_) => None
      case Success(p) => Some(ToKm(p))
  }

  /** Every raw time can be repaired and then read. */
  predicate TimesReadable(rows: seq<Record<string>>) {
    forall i :: 0 <= i < |rows| ==>
      AdjustInvalidTimes(rows[i].departure).Success? && ParseClock(AdjustInvalidTimes(rows[i].departure).value).Some?
  }

  /** The rows before deduplication: each raw row cleaned, in order. */
  lemma CleanedInOrder(data: Table<Record<string>>)
    requires TimesReadable(data.rows)
    ensures MapAll(Decoded(data.rows), AdjustRow).Success?
    ensures MapAll(MapAll(Decoded(data.rows), AdjustRow).value, ParseRow).Success?
    ensures var timed := MapAll(MapAll(Decoded(data.rows), AdjustRow).value, ParseRow).value;
      |timed| == |data.rows| && forall i :: 0 <= i < |timed| ==> CleanRow(data.rows[i]) == Some(InKm(timed)[i])
  {
    var decoded := Decoded(data.rows);
    forall i | 0 <= i < |decoded| ensures AdjustRow(decoded[i]).Success? {
    }
    var adjusted := MapAll(decoded, AdjustRow).value;
    forall i | 0 <= i < |adjusted| ensures ParseRow(adjusted[i]).Success? {
      assert AdjustRow(decoded[i]) == Success(adjusted[i]);
    }
    var timed := MapAll(adjusted, ParseRow).value;
    forall i | 0 <= i < |timed| ensures CleanRow(data.rows[i]) == Some(InKm(timed)[i]) {
      assert AdjustRow(decoded[i]) == Success(adjusted[i]);
      assert ParseRow(adjusted[i]) == Success(timed[i]);
    }
  }

  /**
   * The cleaner succeeds exactly when the four labels it reads are there and
   * every time can be repaired and read.
   */
  lemma CleanDataSucceeds(data: Table<Record<string>>)
    ensures CleanData(data).Success? <==>
      FirstMissing(data.columns, DecodedAndTimed).None? && TimesReadable(data.rows) && "distance" in data.columns
  {
    if FirstMissing(data.columns, DecodedAndTimed).None? {
      if TimesReadable(data.rows) {
        CleanedInOrder(data);
      } else {
        UnreadableTimeFails(data.rows);
      }
    }
  }

  lemma UnreadableTimeFails(rows: seq<Record<string>>)
    requires !TimesReadable(rows)
    ensures MapAll(Decoded(rows), AdjustRow).Failure? || MapAll(MapAll(Decoded(rows), AdjustRow).value, ParseRow).Failure?
  {
    var decoded := Decoded(rows);
    var j :| 0 <= j < |rows| && !(AdjustInvalidTimes(rows[j].departure).Success? && ParseClock(AdjustInvalidTimes(rows[j].departure).value).Some?);
    if MapAll(decoded, AdjustRow).Success? {
      var adjusted := MapAll(decoded, AdjustRow).value;
      assert AdjustRow(decoded[j]) == Success(adjusted[j]);
      assert ParseRow(adjusted[j]).Failure?;
    }
  }

  /**
   * A successful clean keeps, in order of first occurrence, one copy of each
   * distinct cleaned row: every output row is the cleaned form of an input
   * row and every input row's cleaned form is in the output.
   */
  lemma CleanedRows(data: Table<Record<string>>)
    requires CleanData(data).Success?
    ensures forall i :: 0 <= i < |CleanData(data).value.rows| ==> CleanedOf(data.rows, CleanData(data).value.rows[i])
    ensures forall j :: 0 <= j < |data.rows| ==>
      CleanRow(data.rows[j]).Some? && CleanRow(data.rows[j]).value in CleanData(data).value.rows
  {
    forall i | 0 <= i < |CleanData(data).value.rows| ensures CleanedOf(data.rows, CleanData(data).value.rows[i]) {
      OutputRowCleaned(data, i);
    }
    forall j | 0 <= j < |data.rows|
      ensures CleanRow(data.rows[j]).Some? && CleanRow(data.rows[j]).value in CleanData(data).value.rows
    {
      InputRowKept(data, j);
    }
  }

  lemma OutputRowCleaned(data: Table<Record<string>>, i: nat)
    requires CleanData(data).Success? && i < |CleanData(data).value.rows|
    ensures CleanedOf(data.rows, CleanData(data).value.rows[i])
  {
    var kms := CleanDataValue(data);
    var out := CleanData(data).value.rows;
    assert out[i] in kms;
    var j :| 0 <= j < |kms| && kms[j] == out[i];
    assert CleanRow(data.rows[j]) == Some(out[i]);
  }

  lemma InputRowKept(data: Table<Record<string>>, j: nat)
    requires CleanData(data).Success? && j < |data.rows|
    ensures CleanRow(data.rows[j]).Some? && CleanRow(data.rows[j]).value in CleanData(data).value.rows
  {
    var kms := CleanDataValue(data);
    assert kms[j] in Dedup(kms);
  }

  /** `r` is the cleaned form of some row of `rows`. */
  ghost predicate CleanedOf(rows: seq<Record<string>>, r: Record<Seconds>) {
    exists j :: 0 <= j < |rows| && CleanRow(rows[j]) == Some(r)
  }

  /** A successful clean deduplicates the cleaned rows, which correspond to the raw rows one to one. */
  lemma CleanDataValue(data: Table<Record<string>>) returns (kms: seq<Record<Seconds>>)
    requires CleanData(data).Success?
    ensures |kms| == |data.rows| && forall j :: 0 <= j < |kms| ==> CleanRow(data.rows[j]) == Some(kms[j])
    ensures CleanData(data).value.rows == Dedup(kms)
  {
    CleanDataSucceeds(data);
    CleanedInOrder(data);
    var timed := MapAll(MapAll(Decoded(data.rows), AdjustRow).value, ParseRow).value;
    kms := InKm(timed);
  }

  /**
   * Which error the cleaner raises: a missing stop-name or departure label
   * first, in reading order; then a time that cannot be repaired or read,
   * even when the distance label is missing too; then the distance label.
   */
  lemma CleanDataErrors(data: Table<Record<string>>)
    ensures FirstMissing(data.columns, DecodedAndTimed).Some? ==>
      CleanData(data) == Failure(MissingColumn(FirstMissing(data.columns, DecodedAndTimed).value))
    ensures FirstMissing(data.columns, DecodedAndTimed).None? && !TimesReadable(data.rows) ==>
      CleanData(data).Failure? && CleanData(data).error.BadTime?
    ensures FirstMissing(data.columns, DecodedAndTimed).None? && TimesReadable(data.rows) && "distance" !in data.columns ==>
      CleanData(data) == Failure(MissingColumn("distance"))
  {
    if FirstMissing(data.columns, DecodedAndTimed).None? {
      if TimesReadable(data.rows) {
        CleanedInOrder(data);
      } else {
        UnreadableTimeFails(data.rows);
        var adjusted := MapAll(Decoded(data.rows), AdjustRow);
        if adjusted.Failure? {
          var k :| 0 <= k < |Decoded(data.rows)| && AdjustRow(Decoded(data.rows)[k]) == Failure(adjusted.error);
        } else {
          var timed := MapAll(adjusted.value, ParseRow);
          var k :| 0 <= k < |adjusted.value| && ParseRow(adjusted.value[k]) == Failure(timed.error);
        }
      }
    }
  }

  /** A cleaned row written back out as text, the way a saved frame stores it. */
  function Reserialise(r: Record<Seconds>): (s: Record<string>)
    ensures ParseClock(s.departure) == Some(r.departure)
  {
    FormatClockRoundTrip(r.departure);
    WithDeparture(r, FormatClock(r.departure))
  }

  /** Cleaning a written-back cleaned row again divides its distance by 1000 once more. */
  lemma CleanReserialised(r: Record<Seconds>)
    ensures CleanRow(Reserialise(r)).Some?
    ensures CleanRow(Reserialise(r)).value.distance == r.distance / 1000.0
  {
    FormatClockRoundTrip(r.departure);
  }

  /** A cleaned frame written back out as text. */
  function WriteBack(t: Table<Record<Seconds>>): (w: Table<Record<string>>)
    ensures w.columns == t.columns && |w.rows| == |t.rows|
    ensures forall k :: 0 <= k < |t.rows| ==> w.rows[k] == Reserialise(t.rows[k])
  {
    Table(t.columns, seq(|t.rows|, k requires 0 <= k < |t.rows| => Reserialise(t.rows[k])))
  }

  /**
   * The conversion to kilometres is not idempotent: cleaning a cleaned
   * frame again (once written back as text) succeeds, and every distance
   * it holds is a raw distance divided by 1000 twice.
   */
  lemma CleanTwiceScales(data: Table<Record<string>>)
    requires CleanData(data).Success?
    ensures CleanData(WriteBack(CleanData(data).value)).Success?
    ensures var again := CleanData(WriteBack(CleanData(data).value)).value;
      forall i :: 0 <= i < |again.rows| ==> ScaledByMillion(data.rows, again.rows[i])
  {
    WrittenBackCleans(data);
    var again := CleanData(WriteBack(CleanData(data).value)).value;
    forall i | 0 <= i < |again.rows| ensures ScaledByMillion(data.rows, again.rows[i]) {
      var j := ScaledTwice(data, i);
    }
  }

  /** The distance of `r` is that of some raw row divided by a million. */
  ghost predicate ScaledByMillion(raw: seq<Record<string>>, r: Record<Seconds>) {
    exists j :: 0 <= j < |raw| && r.distance == raw[j].distance / 1000000.0
  }

  lemma WrittenBackCleans(data: Table<Record<string>>)
    requires CleanData(data).Success?
    ensures CleanData(WriteBack(CleanData(data).value)).Success?
  {
    var once := CleanData(data).value;
    var written := WriteBack(once);
    CleanDataSucceeds(data);
    forall k | 0 <= k < |written.rows|
      ensures AdjustInvalidTimes(written.rows[k].departure).Success?
      ensures ParseClock(AdjustInvalidTimes(written.rows[k].departure).value).Some?
    {
      FormatClockRoundTrip(once.rows[k].departure);
    }
    CleanDataSucceeds(written);
  }

  lemma ScaledTwice(data: Table<Record<string>>, i: nat) returns (j: nat)
    requires CleanData(data).Success? && CleanData(WriteBack(CleanData(data).value)).Success?
    requires i < |CleanData(WriteBack(CleanData(data).value)).value.rows|
    ensures j < |data.rows|
    ensures CleanData(WriteBack(CleanData(data).value)).value.rows[i].distance == data.rows[j].distance / 1000000.0
  {
    var once := CleanData(data).value;
    var written := WriteBack(once);
    var r := CleanData(written).value.rows[i];
    OutputRowCleaned(written, i);
    var k :| 0 <= k < |written.rows| && CleanRow(written.rows[k]) == Some(r);
    OutputRowCleaned(data, k);
    j :| 0 <= j < |data.rows| && CleanRow(data.rows[j]) == Some(once.rows[k]);
    RowCleanedTwice(data.rows[j], once.rows[k], r);
  }

  /** A raw row cleaned, written back and cleaned again has its distance divided by a million. */
  lemma RowCleanedTwice(x: Record<string>, once: Record<Seconds>, twice: Record<Seconds>)
    requires CleanRow(x) == Some(once)
    requires CleanRow(Reserialise(once)) == Some(twice)
    ensures twice.distance == x.distance / 1000000.0
  {
    CleanReserialised(once);
  }

  /** Two identical raw rows leave one cleaned row. */
  lemma RepeatedRowOnce(columns: seq<string>, x: Record<string>)
    requires FirstMissing(columns, DecodedAndTimed).None? && "distance" in columns && CleanRow(x).Some?
    ensures CleanData(Table(columns, [x, x])).Success?
    ensures CleanData(Table(columns, [x, x])).value.rows == [CleanRow(x).value]
  {
    var data := Table(columns, [x, x]);
    PairReadable(x);
    CleanDataSucceeds(data);
    var kms := CleanDataValue(data);
    var c := CleanRow(x).value;
    assert kms[0] == c && kms[1] == c;
    assert kms == [c, c];
    DedupPair(c);
  }

  lemma PairReadable(x: Record<string>)
    requires CleanRow(x).Some?
    ensures TimesReadable([x, x])
  {
    forall i | 0 <= i < 2
      ensures AdjustInvalidTimes([x, x][i].departure).Success? && ParseClock(AdjustInvalidTimes([x, x][i].departure).value).Some?
    {
      assert [x, x][i] == x;
    }
  }

  lemma DedupPair<T>(c: T)
    ensures Dedup([c, c]) == Dedup([c]) == [c]
  {
    assert [c, c][..1] == [c];
    assert [c][..0] == [];
  }
}

=== FILE: codec.dfy ===
/**
 * The text repair of the cleaning stage: `safe_decode` reads a string as
 * ISO/IEC 8859-1 bytes (one byte per code point U+0000..U+00FF) and decodes
 * those bytes as strict UTF-8 (RFC 3629, sections 3 and 4). Any failure keeps
 * the original value. Characters are Unicode scalar values.
 */
module Codec {
  import opened Wrappers

  type byte = x: int | 0 <= x < 256

  predicate IsContinuation(b: byte) { 0x80 <= b <= 0xBF }

  predicate IsScalar(n: int) { 0 <= n < 0xD800 || 0xE000 <= n <= 0x10FFFF }

  // ---------------------------------------------------------------- Latin-1

  /** `str.encode('latin1')`: fails on the first code point above U+00FF. */
  function Latin1Encode(s: string): (r: Option<seq<byte>>)
    ensures r.Some? <==> forall i :: 0 <= i < |s| ==> s[i] as int < 256
    ensures r.Some? ==> |r.value| == |s| && forall i :: 0 <= i < |s| ==> r.value[i] == s[i] as int
  {
    if |s| == 0 then Some([])
    else if s[0] as int < 256 then
      match Latin1Encode(s[1..])
      case None => None
      case Some(rest) => Some([s[0] as int as byte] + rest)
    else None
  }

  /** `bytes.decode('latin1')`: every byte is the code point of the same value. */
  function Latin1Decode(b: seq<byte>): (s: string)
    ensures |s| == |b|
    ensures forall i :: 0 <= i < |b| ==> s[i] as int == b[i]
  {
    seq(|b|, i requires 0 <= i < |b| => b[i] as char)
  }

  lemma Latin1RoundTrip(b: seq<byte>)
    ensures Latin1Encode(Latin1Decode(b)) == Some(b)
  {
    var e := Latin1Encode(Latin1Decode(b));
    assert e.Some?;
    assert e.value == b;
  }

  // ---------------------------------------------------------------- UTF-8

  /** The UTF-8 encoding of one scalar value (RFC 3629, section 3). */
  function EncodeChar(c: char): (r: seq<byte>)
    ensures 1 <= |r| <= 4
  {
    var n := c as int;
    if n < 0x80 then [n]
    else if n < 0x800 then [0xC0 + n / 64, 0x80 + n % 64]
    else if n < 0x10000 then [0xE0 + n / 4096, 0x80 + (n / 64) % 64, 0x80 + n % 64]
    else [0xF0 + n / 262144, 0x80 + (n / 4096) % 64, 0x80 + (n / 64) % 64, 0x80 + n % 64]
  }

  /** `str.encode('utf-8')`: one to four bytes per code point, exactly one for ASCII text. */
  function Utf8Encode(s: string): (r: seq<byte>)
    ensures |s| <= |r| <= 4 * |s|
    ensures (forall i :: 0 <= i < |s| ==> s[i] as int < 0x80) ==> |r| == |s|
  {
    if |s| == 0 then [] else EncodeChar(s[0]) + Utf8Encode(s[1..])
  }

  /**
   * Decodes the sequence that starts `b`, returning the scalar value and the
   * number of bytes it used. Overlong forms, surrogates, values above
   * U+10FFFF, stray continuation bytes and truncated sequences are refused,
   * which is the byte-sequence syntax of RFC 3629, section 4.
   */
  function DecodeFirst(b: seq<byte>): (r: Option<(char, nat)>)
    requires |b| > 0
    ensures r.Some? ==> 1 <= r.value.1 <= |b| && r.value.1 <= 4
  {
    var b0: int := b[0];
    if b0 < 0x80 then Some((b0 as char, 1))
    else if 0xC2 <= b0 <= 0xDF then
      if |b| >= 2 && IsContinuation(b[1]) then
        Some((((b0 - 0xC0) * 64 + (b[1] as int - 0x80)) as char, 2))
      else None
    else if 0xE0 <= b0 <= 0xEF then
      if |b| >= 3 && IsContinuation(b[1]) && IsContinuation(b[2]) then
        var n := (b0 - 0xE0) * 4096 + (b[1] as int - 0x80) * 64 + (b[2] as int - 0x80);
        if n < 0x800 || 0xD800 <= n <= 0xDFFF then None else Some((n as char, 3))
      else None
    else if 0xF0 <= b0 <= 0xF4 then
      if |b| >= 4 && IsContinuation(b[1]) && IsContinuation(b[2]) && IsContinuation(b[3]) then
        var n := (b0 - 0xF0) * 262144 + (b[1] as int - 0x80) * 4096 + (b[2] as int - 0x80) * 64 + (b[3] as int - 0x80);
        if n < 0x10000 || n > 0x10FFFF then None else Some((n as char, 4))
      else None
    else None
  }

  /**
   * `bytes.decode('utf-8')` with the default strict error handler. A
   * successful decode is empty only for empty input, and uses at most four
   * bytes per code point.
   */
  function Utf8Decode(b: seq<byte>): (r: Option<string>)
    ensures r.Some? ==> (|r.value| == 0 <==> |b| == 0)
    ensures r.Some? ==> 4 * |r.value| >= |b|
    decreases |b|
  {
    if |b| == 0 then Some([])
    else
      match DecodeFirst(b)
      case None => None
      case Some((c, k)) =>
        match Utf8Decode(b[k..])
        case None => None
        case Some(rest) => Some([c] + rest)
  }

  // ---------------------------------------------------------------- safe_decode

  /**
   * `safe_decode`: a cell is a string (`Some`) or a non-string such as NaN
   * (`None`, for which `.encode` raises AttributeError). Every failure returns
   * the cell unchanged.
   */
  function SafeDecode(cell: Option<string>): (r: Option<string>)
    ensures cell.None? ==> r == cell
    ensures cell.Some? && Latin1Encode(cell.value).None? ==> r == cell
    ensures cell.Some? && Latin1Encode(cell.value).Some? && Utf8Decode(Latin1Encode(cell.value).value).None? ==> r == cell
    ensures r.Some? <==> cell.Some?
  {
    match cell
    case None => None
    case Some(s) =>
      match Latin1Encode(s)
      case None => cell
      case Some(bytes) =>
        match Utf8Decode(bytes)
        case None => cell
        case Some(t) => Some(t)
  }

  /** The corruption `safe_decode` repairs: UTF-8 bytes wrongly read as Latin-1. */
  function Mojibake(t: string): string {
    Latin1Decode(Utf8Encode(t))
  }

  // ---------------------------------------------------------------- proofs

  /** Base-64 digit facts used by the encoder and decoder proofs. */
  lemma SixBitDigits(n: nat)
    ensures (n / 64) / 64 == n / 4096
    ensures ((n / 64) / 64) / 64 == n / 262144
    ensures (n / 4096) / 64 == n / 262144
  {
    var q, r := n / 64, n % 64;
    var q2, r2 := q / 64, q % 64;
    var q3, r3 := q2 / 64, q2 % 64;
    assert n == 4096 * q2 + (64 * r2 + r);
    assert n == 262144 * q3 + (4096 * r3 + 64 * r2 + r);
  }

  /** The two-byte digits of `n` put back together give `n`. */
  lemma TwoDigits(n: nat)
    ensures (n / 64) * 64 + n % 64 == n
  {
  }

  /** The three-byte digits of `n` put back together give `n`. */
  lemma ThreeDigits(n: nat)
    requires n < 0x10000
    ensures n / 4096 < 16
    ensures (n / 4096) * 4096 + ((n / 64) % 64) * 64 + n % 64 == n
  {
    SixBitDigits(n);
    var q := n / 64;
    assert n == q * 64 + n % 64;
    assert q == (q / 64) * 64 + q % 64;
  }

  /** The four-byte digits of `n` put back together give `n`. */
  lemma FourDigits(n: nat)
    requires n <= 0x10FFFF
    ensures n / 262144 < 5
    ensures (n / 262144) * 262144 + ((n / 4096) % 64) * 4096 + ((n / 64) % 64) * 64 + n % 64 == n
  {
    SixBitDigits(n);
    var q := n / 64;
    var q2 := q / 64;
    assert n == q * 64 + n % 64;
    assert q == q2 * 64 + q % 64;
    assert q2 == (q2 / 64) * 64 + q2 % 64;
  }

  lemma DecodeTwo(n: nat, b: seq<byte>)
    requires 0x80 <= n < 0x800 && |b| >= 2
    requires b[0] == 0xC0 + n / 64 && b[1] == 0x80 + n % 64
    ensures DecodeFirst(b) == Some((n as char, 2))
  {
    TwoDigits(n);
  }

  lemma DecodeThree(n: nat, b: seq<byte>)
    requires 0x800 <= n < 0x10000 && IsScalar(n) && |b| >= 3
    requires b[0] == 0xE0 + n / 4096 && b[1] == 0x80 + (n / 64) % 64 && b[2] == 0x80 + n % 64
    ensures DecodeFirst(b) == Some((n as char, 3))
  {
    ThreeDigits(n);
  }

  lemma DecodeFour(n: nat, b: seq<byte>)
    requires 0x10000 <= n <= 0x10FFFF && |b| >= 4
    requires b[0] == 0xF0 + n / 262144 && b[1] == 0x80 + (n / 4096) % 64
    requires b[2] == 0x80 + (n / 64) % 64 && b[3] == 0x80 + n % 64
    ensures DecodeFirst(b) == Some((n as char, 4))
  {
    FourDigits(n);
  }

  /** Decoding the encoding of one scalar value gives it back and uses all its bytes. */
  lemma DecodeFirstOfEncodeChar(c: char, rest: seq<byte>)
    ensures DecodeFirst(EncodeChar(c) + rest) == Some((c, |EncodeChar(c)|))
  {
    var n := c as int;
    var b := EncodeChar(c) + rest;
    if n < 0x80 {
    } else if n < 0x800 {
      DecodeTwo(n, b);
    } else if n < 0x10000 {
      DecodeThree(n, b);
    } else {
      DecodeFour(n, b);
    }
  }

  /** Strict UTF-8 decoding inverts UTF-8 encoding on every string. */
  lemma {:induction false} Utf8RoundTrip(s: string)
    ensures Utf8Decode(Utf8Encode(s)) == Some(s)
  {
    if |s| > 0 {
      var e := Utf8Encode(s);
      var head := EncodeChar(s[0]);
      DecodeFirstOfEncodeChar(s[0], Utf8Encode(s[1..]));
      assert e[|head|..] == Utf8Encode(s[1..]);
      Utf8RoundTrip(s[1..]);
      assert [s[0]] + s[1..] == s;
    }
  }

  /** Appending a base-64 digit and taking it off again. */
  lemma ShiftDigit(q: nat, r: nat)
    requires r < 64
    ensures (q * 64 + r) / 64 == q && (q * 64 + r) % 64 == r
  {
  }

  lemma EncodeTwo(x: nat, y: nat)
    requires 2 <= x < 32 && y < 64
    ensures EncodeChar((x * 64 + y) as char) == [0xC0 + x, 0x80 + y]
  {
    ShiftDigit(x, y);
  }

  lemma EncodeThree(x: nat, y: nat, z: nat)
    requires x < 16 && y < 64 && z < 64
    requires 0x800 <= (x * 64 + y) * 64 + z && IsScalar((x * 64 + y) * 64 + z)
    ensures EncodeChar(((x * 64 + y) * 64 + z) as char) == [0xE0 + x, 0x80 + y, 0x80 + z]
  {
    var n := (x * 64 + y) * 64 + z;
    ShiftDigit(x * 64 + y, z);
    ShiftDigit(x, y);
    SixBitDigits(n);
  }

  lemma EncodeFour(w: nat, x: nat, y: nat, z: nat)
    requires w < 5 && x < 64 && y < 64 && z < 64
    requires 0x10000 <= ((w * 64 + x) * 64 + y) * 64 + z <= 0x10FFFF
    ensures EncodeChar((((w * 64 + x) * 64 + y) * 64 + z) as char) == [0xF0 + w, 0x80 + x, 0x80 + y, 0x80 + z]
  {
    var n := ((w * 64 + x) * 64 + y) * 64 + z;
    ShiftDigit((w * 64 + x) * 64 + y, z);
    ShiftDigit(w * 64 + x, y);
    ShiftDigit(w, x);
    SixBitDigits(n);
  }

  /** Whatever `DecodeFirst` accepts is exactly the encoding of the value it returns. */
  lemma EncodeCharOfDecodeFirst(b: seq<byte>)
    requires |b| > 0 && DecodeFirst(b).Some?
    ensures EncodeChar(DecodeFirst(b).value.0) == b[..DecodeFirst(b).value.1]
  {
    var b0: int := b[0];
    if b0 < 0x80 {
    } else if b0 <= 0xDF {
      EncodeTwo(b0 - 0xC0, b[1] - 0x80);
    } else if b0 <= 0xEF {
      var x, y, z := b0 - 0xE0, b[1] - 0x80, b[2] - 0x80;
      assert x * 4096 + y * 64 + z == (x * 64 + y) * 64 + z;
      EncodeThree(x, y, z);
    } else {
      var w, x, y, z := b0 - 0xF0, b[1] - 0x80, b[2] - 0x80, b[3] - 0x80;
      assert w * 262144 + x * 4096 + y * 64 + z == ((w * 64 + x) * 64 + y) * 64 + z;
      EncodeFour(w, x, y, z);
    }
  }

  /** Strict UTF-8 decoding is injective: a successful decode re-encodes to its input. */
  lemma {:induction false} Utf8EncodeOfDecode(b: seq<byte>)
    requires Utf8Decode(b).Some?
    ensures Utf8Encode(Utf8Decode(b).value) == b
    decreases |b|
  {
    if |b| > 0 {
      var c, k := DecodeFirst(b).value.0, DecodeFirst(b).value.1;
      EncodeCharOfDecodeFirst(b);
      Utf8EncodeOfDecode(b[k..]);
      var t := Utf8Decode(b).value;
      assert t[0] == c && t[1..] == Utf8Decode(b[k..]).value;
      assert b == b[..k] + b[k..];
    }
  }

  /** A successful decode never yields more code points than it consumed bytes. */
  lemma {:induction false} Utf8DecodeShrinks(b: seq<byte>)
    requires Utf8Decode(b).Some?
    ensures |Utf8Decode(b).value| <= |b|
    decreases |b|
  {
    if |b| > 0 {
      var k := DecodeFirst(b).value.1;
      Utf8DecodeShrinks(b[k..]);
    }
  }

  /** Mojibake of any text is repaired exactly. */
  lemma SafeDecodeRepairsMojibake(t: string)
    ensures SafeDecode(Some(Mojibake(t))) == Some(t)
  {
    Latin1RoundTrip(Utf8Encode(t));
    Utf8RoundTrip(t);
  }

  /** The repaired text never has more code points than the input. */
  lemma SafeDecodeNeverLonger(s: string)
    ensures |SafeDecode(Some(s)).value| <= |s|
  {
    var e := Latin1Encode(s);
    if e.Some? && Utf8Decode(e.value).Some? {
      Utf8DecodeShrinks(e.value);
    }
  }

  /** Strings of ASCII characters are fixed points. */
  lemma {:induction false} SafeDecodeKeepsAscii(s: string)
    requires forall i :: 0 <= i < |s| ==> s[i] as int < 0x80
    ensures SafeDecode(Some(s)) == Some(s)
  {
    var bytes := Latin1Encode(s).value;
    AsciiDecodes(bytes);
    assert Latin1Decode(bytes) == s;
  }

  lemma {:induction false} AsciiDecodes(b: seq<byte>)
    requires forall i :: 0 <= i < |b| ==> b[i] < 0x80
    ensures Utf8Decode(b) == Some(Latin1Decode(b))
    decreases |b|
  {
    if |b| > 0 {
      AsciiDecodes(b[1..]);
      assert Latin1Decode(b) == [b[0] as char] + Latin1Decode(b[1..]);
    }
  }

  /**
   * The converse of the repair: `safe_decode` changes text only by undoing
   * mojibake. Its result `t` either is the text whose mojibake the input was,
   * or is the input itself, when no text has the input as its mojibake.
   */
  lemma SafeDecodeCharacterised(s: string)
    ensures var t := SafeDecode(Some(s)).value;
      s == Mojibake(t) || (t == s && forall u :: Mojibake(u) != s)
  {
    var t := SafeDecode(Some(s)).value;
    var e := Latin1Encode(s);
    if e.Some? && Utf8Decode(e.value).Some? {
      Utf8EncodeOfDecode(e.value);
      assert Latin1Decode(e.value) == s;
    } else {
      forall u ensures Mojibake(u) != s {
        if Mojibake(u) == s {
          Latin1RoundTrip(Utf8Encode(u));
          Utf8RoundTrip(u);
        }
      }
    }
  }
}

=== FILE: columns.dfy ===
/**
 * Column labels of the frames the loader builds and the cleaner reads.
 * The frames' rows are typed records elsewhere; this module follows only
 * the labels, because that is where `drop`, `merge` and `rename` act and
 * where a missing label raises pandas' `KeyError`.
 */
module Columns {
  import opened Wrappers
  import opened Tables
  import opened ReferenceData

  datatype ColumnError = KeyError(name: string)

  /** The labels of `cols` that are not in `names`, in order. */
  function Without(cols: seq<string>, names: seq<string>): (r: seq<string>)
    ensures |r| <= |cols|
  {
    if |cols| == 0 then []
    else (if cols[0] in names then [] else [cols[0]]) + Without(cols[1..], names)
  }

  /** The first of `names` that is not a label of `cols`. */
  function FirstMissing(cols: seq<string>, names: seq<string>): (r: Option<string>)
    ensures r.None? <==> forall i :: 0 <= i < |names| ==> names[i] in cols
    ensures r.Some? ==> r.value in names && r.value !in cols
  {
    if |names| == 0 then None
    else if names[0] !in cols then Some(names[0])
    else FirstMissing(cols, names[1..])
  }

  /** `df.drop(names, axis=1)`: fails on the first label that is not there. */
  function Drop(cols: seq<string>, names: seq<string>): (r: Result<seq<string>, ColumnError>)
    ensures r.Success? <==> forall i :: 0 <= i < |names| ==> names[i] in cols
    ensures r.Failure? ==> r.error.name in names && r.error.name !in cols
  {
    match FirstMissing(cols, names)
    case Some(missing) => Failure(KeyError(missing))
    case None => Success(Without(cols, names))
  }

  /** A label of one side of a merge: suffixed when the other side has it too and it is no join key. */
  function Suffixed(c: string, other: seq<string>, keys: seq<string>, suffix: string): string {
    if c in other && c !in keys then c + suffix else c
  }

  function SuffixAll(cols: seq<string>, other: seq<string>, keys: seq<string>, suffix: string): (r: seq<string>)
    ensures |r| == |cols|
  {
    seq(|cols|, i requires 0 <= i < |cols| => Suffixed(cols[i], other, keys, suffix))
  }

  /**
   * The labels a merge produces once its keys are found: the left labels,
   * then the right labels that are not join keys; a non-key label both
   * sides carry becomes `<label>_x` on the left and `<label>_y` on the right.
   */
  function JoinLabels(left: seq<string>, right: seq<string>, keys: seq<string>): seq<string> {
    SuffixAll(left, right, keys, "_x") + SuffixAll(Without(right, keys), left, keys, "_y")
  }

  /** The two sides of a merge share no label but the join keys, so nothing is suffixed. */
  predicate NoClash(left: seq<string>, right: seq<string>, keys: seq<string>) {
    forall c :: c in left && c in right ==> c in keys
  }

  /**
   * The labels of `pd.merge(left, right, on=keys)`. A key absent from either
   * side raises `KeyError`.
   */
  function Merge(left: seq<string>, right: seq<string>, keys: seq<string>): (r: Result<seq<string>, ColumnError>)
    ensures r.Success? <==> forall i :: 0 <= i < |keys| ==> keys[i] in left && keys[i] in right
  {
    match FirstMissing(left, keys)
    case Some(missing) => Failure(KeyError(missing))
    case None =>
      match FirstMissing(right, keys)
      case Some(missing) => Failure(KeyError(missing))
      case None => Success(JoinLabels(left, right, keys))
  }

  /** `df[name] = ...`: a new label goes to the end, an existing one stays where it is. */
  function Assign(cols: seq<string>, name: string): (r: seq<string>)
    ensures name in r
  {
    if name in cols then cols else cols + [name]
  }

  /** `df.rename(mapping, axis=1)`: labels not in the mapping are kept; nothing is checked. */
  function Rename(cols: seq<string>, mapping: seq<(string, string)>): (r: seq<string>)
    ensures |r| == |cols|
    ensures forall i :: 0 <= i < |r| ==> r[i] == Lookup(mapping, cols[i]).GetOr(cols[i])
  {
    seq(|cols|, i requires 0 <= i < |cols| => Lookup(mapping, cols[i]).GetOr(cols[i]))
  }

  lemma {:induction false} WithoutHas(cols: seq<string>, names: seq<string>, c: string)
    ensures c in Without(cols, names) <==> c in cols && c !in names
  {
    if |cols| > 0 {
      WithoutHas(cols[1..], names, c);
      assert cols == [cols[0]] + cols[1..];
    }
  }

  lemma DropHas(cols: seq<string>, names: seq<string>, c: string)
    requires Drop(cols, names).Success?
    ensures c in Drop(cols, names).value <==> c in cols && c !in names
  {
    WithoutHas(cols, names, c);
  }

  lemma SuffixFree(cols: seq<string>, other: seq<string>, keys: seq<string>, suffix: string)
    requires forall c :: c in cols && c in other ==> c in keys
    ensures SuffixAll(cols, other, keys, suffix) == cols
  {
  }

  /** When the two sides share only join keys, a merged label is a left label or a right non-key label. */
  lemma MergeHas(left: seq<string>, right: seq<string>, keys: seq<string>, c: string)
    requires Merge(left, right, keys).Success?
    requires NoClash(left, right, keys)
    ensures c in Merge(left, right, keys).value <==> c in left || (c in right && c !in keys)
  {
    SuffixFree(left, right, keys, "_x");
    forall x | x in Without(right, keys) ensures x in right && x !in keys {
      WithoutHas(right, keys, x);
    }
    SuffixFree(Without(right, keys), left, keys, "_y");
    WithoutHas(right, keys, c);
  }

  /** A non-key label both sides carry comes out twice, as `<label>_x` and `<label>_y`. */
  lemma MergeSuffixes(left: seq<string>, right: seq<string>, keys: seq<string>, c: string)
    requires Merge(left, right, keys).Success?
    requires c in left && c in right && c !in keys
    ensures c + "_x" in Merge(left, right, keys).value
    ensures c + "_y" in Merge(left, right, keys).value
  {
    var i :| 0 <= i < |left| && left[i] == c;
    assert SuffixAll(left, right, keys, "_x")[i] == c + "_x";
    WithoutHas(right, keys, c);
    var w := Without(right, keys);
    var j :| 0 <= j < |w| && w[j] == c;
    assert SuffixAll(w, left, keys, "_y")[j] == c + "_y";
    assert Merge(left, right, keys).value[|left| + j] == c + "_y";
  }

  /** Two frames with a shared non-key label `x`: pandas' suffixes, not two `x` columns. */
  lemma MergeSuffixExample()
    ensures Merge(["k", "x"], ["k", "x"], ["k"]) == Success(["k", "x_x", "x_y"])
  {
    assert Without(["k", "x"], ["k"]) == ["x"];
    assert "x" + "_x" == "x_x" && "x" + "_y" == "x_y";
    assert Suffixed("k", ["k", "x"], ["k"], "_x") == "k";
    assert Suffixed("x", ["k", "x"], ["k"], "_x") == "x_x";
    assert Suffixed("x", ["k", "x"], ["k"], "_y") == "x_y";
    assert SuffixAll(["k", "x"], ["k", "x"], ["k"], "_x") == ["k", "x_x"];
    assert SuffixAll(["x"], ["k", "x"], ["k"], "_y") == ["x_y"];
    assert FirstMissing(["k", "x"], ["k"]) == None;
    assert JoinLabels(["k", "x"], ["k", "x"], ["k"]) == ["k", "x_x"] + ["x_y"];
    assert ["k", "x_x"] + ["x_y"] == ["k", "x_x", "x_y"];
  }

  // ---------------------------------------------------------- the loader

  /** The labels once the line and stop registries are joined in and their spare labels dropped. */
  function StopColumns(reisende: seq<string>, linie: seq<string>, stops: seq<string>)
    : (r: Result<seq<string>, ColumnError>)
  {
    var ridership :- Drop(reisende, ["ID_Abschnitt", "Tagtyp_Id", "Anzahl_Messungen"]);
    var withLine :- Merge(ridership, linie, ["Linien_Id", "Linienname"]);
    var named :- Drop(withLine, ["Linienname"]);
    var withStop :- Merge(named, stops, ["Haltestellen_Id"]);
    Drop(withStop, ["Haltestellennummer", "Haltestellenkurzname"])
  }

  /**
   * The labels of the joined frame, before `year` and `stop_next`: the four
   * joins of `load_and_merge_data` on the four file headers; the
   * carbon-intensity table contributes its one value column and is joined
   * on its index.
   */
  function JoinedColumns(reisende: seq<string>, linie: seq<string>, stops: seq<string>, vessels: seq<string>)
    : (r: Result<seq<string>, ColumnError>)
  {
    var stopNamed :- StopColumns(reisende, linie, stops);
    var withIntensity :- (if "VSYS" in stopNamed then Success(JoinLabels(stopNamed, ["carbon_intensity"], []))
                          else Failure(KeyError("VSYS")));
    var withVessel :- Merge(withIntensity, vessels, ["Plan_Fahrt_Id"]);
    Drop(withVessel, ["Linien_Id", "Plan_Fahrt_Id"])
  }

  /**
   * The labels of `pd.merge(left, right, left_on=leftKey, right_on=rightKey)`.
   * The two keys have different names, so neither is merged away, and every
   * label both sides carry is suffixed. A key absent from its side raises
   * `KeyError`.
   */
  function MergeOn(left: seq<string>, right: seq<string>, leftKey: string, rightKey: string)
    : (r: Result<seq<string>, ColumnError>)
    ensures r.Success? <==> leftKey in left && rightKey in right
    ensures r.Failure? ==> r.error.name == (if leftKey !in left then leftKey else rightKey)
  {
    if leftKey !in left then Failure(KeyError(leftKey))
    else if rightKey !in right then Failure(KeyError(rightKey))
    else Success(JoinLabels(left, right, []))
  }

  /**
   * The labels of the loader's result: the joined frame, then `year`, then
   * `stop_next`, which is read as `Haltestellenlangname` from a second
   * join of the ridership table (after its drop) with the stop table on
   * `Nach_Hst_Id` = `Haltestellen_Id`.
   */
  function LoadedColumns(reisende: seq<string>, linie: seq<string>, stops: seq<string>, vessels: seq<string>)
    : (r: Result<seq<string>, ColumnError>)
  {
    var final :- JoinedColumns(reisende, linie, stops, vessels);
    var ridership :- Drop(reisende, ["ID_Abschnitt", "Tagtyp_Id", "Anzahl_Messungen"]);
    var nextStops :- MergeOn(ridership, stops, "Nach_Hst_Id", "Haltestellen_Id");
    if "Haltestellenlangname" !in nextStops then Failure(KeyError("Haltestellenlangname"))
    else Success(Assign(Assign(final, "year"), "stop_next"))
  }

  /**
   * A label that does not end in `x` or `y` is in a merge's labels exactly
   * when one side carries it unsuffixed: the left side when the right lacks
   * it or it is a key, the right side when it is no key and the left lacks it.
   */
  lemma UnsuffixedLabel(left: seq<string>, right: seq<string>, keys: seq<string>, c: string)
    requires |c| > 0 && c[|c| - 1] != 'x' && c[|c| - 1] != 'y'
    ensures c in JoinLabels(left, right, keys) <==>
      (c in left && (c !in right || c in keys)) || (c in right && c !in keys && c !in left)
  {
    var l := SuffixAll(left, right, keys, "_x");
    var w := Without(right, keys);
    var rr := SuffixAll(w, left, keys, "_y");
    WithoutHas(right, keys, c);
    if c in l {
      var i :| 0 <= i < |l| && l[i] == c;
      var x := left[i];
      assert x !in right || x in keys;
    }
    if c in rr {
      var i :| 0 <= i < |rr| && rr[i] == c;
      var x := w[i];
      assert x !in left || x in keys;
      assert x in w;
      WithoutHas(right, keys, x);
    }
    if c in left && (c !in right || c in keys) {
      var i :| 0 <= i < |left| && left[i] == c;
      assert l[i] == c;
    }
    if c in right && c !in keys && c !in left {
      var i :| 0 <= i < |w| && w[i] == c;
      assert rr[i] == c;
    }
  }

  /**
   * Once the joins succeed, the next-stop lookup succeeds exactly when the
   * ridership table has `Nach_Hst_Id` and exactly one of the two tables has
   * `Haltestellenlangname`; a missing `Nach_Hst_Id` raises `KeyError` on it.
   */
  lemma LoadedNeedsNextStop(reisende: seq<string>, linie: seq<string>, stops: seq<string>, vessels: seq<string>)
    requires JoinedColumns(reisende, linie, stops, vessels).Success?
    ensures LoadedColumns(reisende, linie, stops, vessels).Success? <==>
      "Nach_Hst_Id" in reisende &&
      ("Haltestellenlangname" in stops) != ("Haltestellenlangname" in reisende)
    ensures "Nach_Hst_Id" !in reisende ==>
      LoadedColumns(reisende, linie, stops, vessels) == Failure(KeyError("Nach_Hst_Id"))
  {
    var d1 := ["ID_Abschnitt", "Tagtyp_Id", "Anzahl_Messungen"];
    var n := "Haltestellenlangname";
    assert StopColumns(reisende, linie, stops).Success?;
    var ridership := Drop(reisende, d1).value;
    DropHas(reisende, d1, "Nach_Hst_Id");
    DropHas(reisende, d1, n);
    assert "Haltestellen_Id" in stops;
    UnsuffixedLabel(ridership, stops, [], n);
  }

  /**
   * The four headers share no label but the join keys, and none of them
   * already has `carbon_intensity`: no merge of the loader suffixes a label.
   */
  predicate SharesOnlyKeys(reisende: seq<string>, linie: seq<string>, stops: seq<string>, vessels: seq<string>) {
    && (forall c :: c in linie && c != "Linien_Id" && c != "Linienname" ==> c !in reisende)
    && (forall c :: c in stops && c != "Haltestellen_Id" ==> c !in reisende && c !in linie)
    && "carbon_intensity" !in reisende && "carbon_intensity" !in linie && "carbon_intensity" !in stops
    && (forall c :: c in vessels && c != "Plan_Fahrt_Id" ==>
          c !in reisende && c !in linie && c !in stops && c != "carbon_intensity")
  }

  /** Joining the intensity column to a frame without that label appends it unsuffixed. */
  lemma IntensityJoin(cols: seq<string>)
    requires "carbon_intensity" !in cols
    ensures JoinLabels(cols, ["carbon_intensity"], []) == cols + ["carbon_intensity"]
  {
    SuffixFree(cols, ["carbon_intensity"], [], "_x");
    assert Without(["carbon_intensity"], []) == ["carbon_intensity"];
    assert SuffixAll(["carbon_intensity"], cols, [], "_y") == ["carbon_intensity"];
  }

  /** Which labels survive the line and stop joins, given the three headers. */
  predicate StopLabel(c: string, reisende: seq<string>, linie: seq<string>, stops: seq<string>) {
    var ridership := c in reisende && c !in ["ID_Abschnitt", "Tagtyp_Id", "Anzahl_Messungen"];
    var named := c != "Linienname" && ((c in linie && c != "Linien_Id") || ridership);
    c != "Haltestellennummer" && c != "Haltestellenkurzname" && ((c in stops && c != "Haltestellen_Id") || named)
  }

  /** Which labels the loader's result carries, given the four headers. */
  predicate LoadedLabel(c: string, reisende: seq<string>, linie: seq<string>, stops: seq<string>, vessels: seq<string>) {
    var final := c != "Linien_Id" && c != "Plan_Fahrt_Id"
      && (c == "carbon_intensity" || c in vessels || StopLabel(c, reisende, linie, stops));
    final || c == "year" || c == "stop_next"
  }

  lemma StopColumnsLabels(reisende: seq<string>, linie: seq<string>, stops: seq<string>, c: string)
    requires StopColumns(reisende, linie, stops).Success?
    requires SharesOnlyKeys(reisende, linie, stops, [])
    ensures c in StopColumns(reisende, linie, stops).value <==> StopLabel(c, reisende, linie, stops)
  {
    var d1 := ["ID_Abschnitt", "Tagtyp_Id", "Anzahl_Messungen"];
    var k1 := ["Linien_Id", "Linienname"];
    var ridership := Drop(reisende, d1);
    assert ridership.Success?;
    forall x ensures x in ridership.value <==> x in reisende && x !in d1 {
      DropHas(reisende, d1, x);
    }
    assert NoClash(ridership.value, linie, k1);
    var withLine := Merge(ridership.value, linie, k1);
    assert withLine.Success?;
    forall x ensures x in withLine.value <==> x in ridership.value || (x in linie && x !in k1) {
      MergeHas(ridership.value, linie, k1, x);
    }
    var named := Drop(withLine.value, ["Linienname"]);
    assert named.Success?;
    forall x ensures x in named.value <==> x in withLine.value && x != "Linienname" {
      DropHas(withLine.value, ["Linienname"], x);
    }
    assert NoClash(named.value, stops, ["Haltestellen_Id"]);
    var withStop := Merge(named.value, stops, ["Haltestellen_Id"]);
    assert withStop.Success?;
    MergeHas(named.value, stops, ["Haltestellen_Id"], c);
    DropHas(withStop.value, ["Haltestellennummer", "Haltestellenkurzname"], c);
  }

  /** A label is in the loader's result exactly when `LoadedLabel` says so. */
  lemma LoadedColumnsLabels(reisende: seq<string>, linie: seq<string>, stops: seq<string>, vessels: seq<string>, c: string)
    requires LoadedColumns(reisende, linie, stops, vessels).Success?
    requires SharesOnlyKeys(reisende, linie, stops, vessels)
    ensures c in LoadedColumns(reisende, linie, stops, vessels).value <==> LoadedLabel(c, reisende, linie, stops, vessels)
  {
    LoadedIsJoined(reisende, linie, stops, vessels);
    JoinedColumnsLabels(reisende, linie, stops, vessels, c);
  }

  /** The loader's labels are the joined labels with `year` and `stop_next` assigned. */
  lemma LoadedIsJoined(reisende: seq<string>, linie: seq<string>, stops: seq<string>, vessels: seq<string>)
    requires LoadedColumns(reisende, linie, stops, vessels).Success?
    ensures JoinedColumns(reisende, linie, stops, vessels).Success?
    ensures LoadedColumns(reisende, linie, stops, vessels).value
      == Assign(Assign(JoinedColumns(reisende, linie, stops, vessels).value, "year"), "stop_next")
  {
  }

  lemma JoinedColumnsLabels(reisende: seq<string>, linie: seq<string>, stops: seq<string>, vessels: seq<string>, c: string)
    requires JoinedColumns(reisende, linie, stops, vessels).Success?
    requires SharesOnlyKeys(reisende, linie, stops, vessels)
    ensures c in JoinedColumns(reisende, linie, stops, vessels).value <==>
      c != "Linien_Id" && c != "Plan_Fahrt_Id" && (c == "carbon_intensity" || c in vessels || StopLabel(c, reisende, linie, stops))
  {
    var stopNamed := StopColumns(reisende, linie, stops);
    assert stopNamed.Success?;
    forall x ensures x in stopNamed.value <==> StopLabel(x, reisende, linie, stops) {
      StopColumnsLabels(reisende, linie, stops, x);
    }
    assert "VSYS" in stopNamed.value;
    var withVessel := Merge(JoinLabels(stopNamed.value, ["carbon_intensity"], []), vessels, ["Plan_Fahrt_Id"]);
    assert withVessel.Success?;
    VesselJoinLabels(stopNamed.value, reisende, linie, stops, vessels, c);
    DropHas(withVessel.value, ["Linien_Id", "Plan_Fahrt_Id"], c);
  }

  /** After the intensity and vessel joins, a label is a stop-join label, the intensity, or a vessel label. */
  lemma VesselJoinLabels(stopNamed: seq<string>, reisende: seq<string>, linie: seq<string>, stops: seq<string>,
                         vessels: seq<string>, c: string)
    requires forall x :: x in stopNamed <==> StopLabel(x, reisende, linie, stops)
    requires SharesOnlyKeys(reisende, linie, stops, vessels)
    requires Merge(JoinLabels(stopNamed, ["carbon_intensity"], []), vessels, ["Plan_Fahrt_Id"]).Success?
    ensures c in Merge(JoinLabels(stopNamed, ["carbon_intensity"], []), vessels, ["Plan_Fahrt_Id"]).value
      <==> c in stopNamed || c == "carbon_intensity" || (c in vessels && c != "Plan_Fahrt_Id")
  {
    IntensityJoin(stopNamed);
    var withIntensity := stopNamed + ["carbon_intensity"];
    assert NoClash(withIntensity, vessels, ["Plan_Fahrt_Id"]);
    MergeHas(withIntensity, vessels, ["Plan_Fahrt_Id"], c);
  }

  // The file headers the loader is written against. The files themselves
  // are not part of this model; these are the labels the code names.
  const ReisendeHeader: seq<string> := ["Linien_Id", "Linienname", "Richtung", "Sequenz",
    "Haltestellen_Id", "Nach_Hst_Id", "FZ_AB", "Einsteiger", "Aussteiger", "Besetzung", "Distanz",
    "Tage_DTV", "Tage_DWV", "Tage_SA", "Tage_SO", "Tage_SA_N", "Tage_SO_N", "Nachtnetz", "VSYS",
    "Plan_Fahrt_Id", "ID_Abschnitt", "Tagtyp_Id", "Anzahl_Messungen"]
  const LinieHeader: seq<string> := ["Linien_Id", "Linienname", "Linienname_Fahrgastauskunft"]
  const StopsHeader: seq<string> := ["Haltestellen_Id", "Haltestellennummer", "Haltestellenkurzname",
    "Haltestellenlangname"]
  const VesselHeader: seq<string> := ["Plan_Fahrt_Id", "SITZPLAETZE", "KAP_1m2", "KAP_2m2", "KAP_3m2", "KAP_4m2"]


  lemma {:induction false} StopColumnsSucceedWhen(reisende: seq<string>, linie: seq<string>, stops: seq<string>)
    requires "ID_Abschnitt" in reisende && "Tagtyp_Id" in reisende && "Anzahl_Messungen" in reisende
    requires "Linien_Id" in reisende && "Linienname" in reisende && "Haltestellen_Id" in reisende
    requires "Linien_Id" in linie && "Linienname" in linie
    requires "Haltestellen_Id" in stops && "Haltestellennummer" in stops && "Haltestellenkurzname" in stops
    requires SharesOnlyKeys(reisende, linie, stops, [])
    ensures StopColumns(reisende, linie, stops).Success?
  {
    var d1 := ["ID_Abschnitt", "Tagtyp_Id", "Anzahl_Messungen"];
    var k1 := ["Linien_Id", "Linienname"];
    var ridership := Drop(reisende, d1).value;
    forall x ensures x in ridership <==> x in reisende && x !in d1 {
      DropHas(reisende, d1, x);
    }
    assert NoClash(ridership, linie, k1);
    var withLine := Merge(ridership, linie, k1).value;
    forall x ensures x in withLine <==> x in ridership || (x in linie && x !in k1) {
      MergeHas(ridership, linie, k1, x);
    }
    var named := Drop(withLine, ["Linienname"]).value;
    forall x ensures x in named <==> x in withLine && x != "Linienname" {
      DropHas(withLine, ["Linienname"], x);
    }
    assert NoClash(named, stops, ["Haltestellen_Id"]);
    var withStop := Merge(named, stops, ["Haltestellen_Id"]).value;
    MergeHas(named, stops, ["Haltestellen_Id"], "Haltestellennummer");
    MergeHas(named, stops, ["Haltestellen_Id"], "Haltestellenkurzname");
  }

  /**
   * The loader's labels exist when each header carries the labels dropped
   * from it, joined on, or read for the next stop.
   */
  lemma {:induction false} LoadedSucceedsWhen(reisende: seq<string>, linie: seq<string>, stops: seq<string>, vessels: seq<string>)
    requires "ID_Abschnitt" in reisende && "Tagtyp_Id" in reisende && "Anzahl_Messungen" in reisende
    requires "Linien_Id" in reisende && "Linienname" in reisende && "Haltestellen_Id" in reisende
    requires "VSYS" in reisende && "Plan_Fahrt_Id" in reisende
    requires "Linien_Id" in linie && "Linienname" in linie
    requires "Haltestellen_Id" in stops && "Haltestellennummer" in stops && "Haltestellenkurzname" in stops
    requires "Plan_Fahrt_Id" in vessels
    requires "Nach_Hst_Id" in reisende && "Haltestellenlangname" in stops
    requires SharesOnlyKeys(reisende, linie, stops, vessels)
    ensures LoadedColumns(reisende, linie, stops, vessels).Success?
  {
    JoinedSucceedsWhen(reisende, linie, stops, vessels);
    LoadedNeedsNextStop(reisende, linie, stops, vessels);
  }

  /** The four joins succeed when each header carries the labels dropped from it or joined on. */
  lemma {:induction false} JoinedSucceedsWhen(reisende: seq<string>, linie: seq<string>, stops: seq<string>, vessels: seq<string>)
    requires "ID_Abschnitt" in reisende && "Tagtyp_Id" in reisende && "Anzahl_Messungen" in reisende
    requires "Linien_Id" in reisende && "Linienname" in reisende && "Haltestellen_Id" in reisende
    requires "VSYS" in reisende && "Plan_Fahrt_Id" in reisende
    requires "Linien_Id" in linie && "Linienname" in linie
    requires "Haltestellen_Id" in stops && "Haltestellennummer" in stops && "Haltestellenkurzname" in stops
    requires "Plan_Fahrt_Id" in vessels
    requires SharesOnlyKeys(reisende, linie, stops, vessels)
    ensures JoinedColumns(reisende, linie, stops, vessels).Success?
  {
    StopColumnsSucceedWhen(reisende, linie, stops);
    var stopNamed := StopColumns(reisende, linie, stops).value;
    forall x ensures x in stopNamed <==> StopLabel(x, reisende, linie, stops) {
      StopColumnsLabels(reisende, linie, stops, x);
    }
    assert "VSYS" in stopNamed;
    VesselJoinKeeps(stopNamed, reisende, linie, stops, vessels);
  }

  /** The vessel join keeps the two labels the loader drops after it. */
  lemma VesselJoinKeeps(stopNamed: seq<string>, reisende: seq<string>, linie: seq<string>, stops: seq<string>, vessels: seq<string>)
    requires forall x :: x in stopNamed <==> StopLabel(x, reisende, linie, stops)
    requires "Linien_Id" in reisende && "Plan_Fahrt_Id" in reisende && "Plan_Fahrt_Id" in vessels
    requires SharesOnlyKeys(reisende, linie, stops, vessels)
    ensures Merge(JoinLabels(stopNamed, ["carbon_intensity"], []), vessels, ["Plan_Fahrt_Id"]).Success?
    ensures "Linien_Id" in Merge(JoinLabels(stopNamed, ["carbon_intensity"], []), vessels, ["Plan_Fahrt_Id"]).value
    ensures "Plan_Fahrt_Id" in Merge(JoinLabels(stopNamed, ["carbon_intensity"], []), vessels, ["Plan_Fahrt_Id"]).value
  {
    IntensityJoin(stopNamed);
    var withIntensity := stopNamed + ["carbon_intensity"];
    assert StopLabel("Linien_Id", reisende, linie, stops);
    assert StopLabel("Plan_Fahrt_Id", reisende, linie, stops);
    assert NoClash(withIntensity, vessels, ["Plan_Fahrt_Id"]);
    MergeHas(withIntensity, vessels, ["Plan_Fahrt_Id"], "Linien_Id");
    MergeHas(withIntensity, vessels, ["Plan_Fahrt_Id"], "Plan_Fahrt_Id");
  }


  /** A label is in the loader's result exactly when `LoadedLabel` says so. */
  lemma LoadedColumnsExactly(reisende: seq<string>, linie: seq<string>, stops: seq<string>, vessels: seq<string>)
    requires LoadedColumns(reisende, linie, stops, vessels).Success?
    requires SharesOnlyKeys(reisende, linie, stops, vessels)
    ensures forall c :: c in LoadedColumns(reisende, linie, stops, vessels).value <==> LoadedLabel(c, reisende, linie, stops, vessels)
  {
    forall c ensures c in LoadedColumns(reisende, linie, stops, vessels).value <==> LoadedLabel(c, reisende, linie, stops, vessels) {
      LoadedColumnsLabels(reisende, linie, stops, vessels, c);
    }
  }

  predicate AssumedHeaders(reisende: seq<string>, linie: seq<string>, stops: seq<string>, vessels: seq<string>) {
    reisende == ReisendeHeader && linie == LinieHeader && stops == StopsHeader && vessels == VesselHeader
  }

  /** The assumed headers load, and the loaded labels are those `LoadedLabel` names. */
  lemma AssumedHeadersLoad(reisende: seq<string>, linie: seq<string>, stops: seq<string>, vessels: seq<string>)
    requires AssumedHeaders(reisende, linie, stops, vessels)
    ensures SharesOnlyKeys(reisende, linie, stops, vessels)
    ensures LoadedColumns(reisende, linie, stops, vessels).Success?
    ensures forall c :: c in LoadedColumns(reisende, linie, stops, vessels).value <==> LoadedLabel(c, reisende, linie, stops, vessels)
  {
    AssumedHeadersShareOnlyKeys(reisende, linie, stops, vessels);
    LoadedSucceedsWhen(reisende, linie, stops, vessels);
    LoadedColumnsExactly(reisende, linie, stops, vessels);
  }

  /** The assumed headers share only the join keys, so no merge of theirs suffixes a label. */
  lemma AssumedHeadersShareOnlyKeys(reisende: seq<string>, linie: seq<string>, stops: seq<string>, vessels: seq<string>)
    requires AssumedHeaders(reisende, linie, stops, vessels)
    ensures SharesOnlyKeys(reisende, linie, stops, vessels)
  {
    forall c | c in linie && c != "Linien_Id" && c != "Linienname" ensures c !in reisende {
      assert c == "Linienname_Fahrgastauskunft";
    }
    forall c | c in stops && c != "Haltestellen_Id" ensures c !in reisende && c !in linie {
      assert c in ["Haltestellennummer", "Haltestellenkurzname", "Haltestellenlangname"];
    }
    forall c | c in vessels && c != "Plan_Fahrt_Id"
      ensures c !in reisende && c !in linie && c !in stops && c != "carbon_intensity"
    {
      assert c in ["SITZPLAETZE", "KAP_1m2", "KAP_2m2", "KAP_3m2", "KAP_4m2"];
    }
  }

  /** When the line and stop joins lose `VSYS`, the intensity join raises `KeyError('VSYS')`. */
  lemma LoadedFailsWithoutVsys(reisende: seq<string>, linie: seq<string>, stops: seq<string>, vessels: seq<string>)
    requires StopColumns(reisende, linie, stops).Success?
    requires "VSYS" !in StopColumns(reisende, linie, stops).value
    ensures LoadedColumns(reisende, linie, stops, vessels) == Failure(KeyError("VSYS"))
  {
  }

  /** A label that ends unlike the suffix, and is suffixed wherever it occurs, is not among the suffixed labels. */
  lemma SuffixAllAvoids(cols: seq<string>, other: seq<string>, keys: seq<string>, suffix: string, c: string)
    requires |c| > 0 && |suffix| > 0 && c[|c| - 1] != suffix[|suffix| - 1]
    requires c in cols ==> c in other && c !in keys
    ensures c !in SuffixAll(cols, other, keys, suffix)
  {
    var r := SuffixAll(cols, other, keys, suffix);
    forall i | 0 <= i < |r| ensures r[i] != c {
      if cols[i] in other && cols[i] !in keys {
        var t := cols[i] + suffix;
        assert t[|t| - 1] == suffix[|suffix| - 1];
      }
    }
  }

  /**
   * A line table that also carries `VSYS`: the line join renames both
   * copies to `VSYS_x` and `VSYS_y`, and the intensity join then raises
   * `KeyError('VSYS')` (unless the stop table brings its own `VSYS`).
   */
  lemma LineTableWithVsysFails(reisende: seq<string>, linie: seq<string>, stops: seq<string>, vessels: seq<string>)
    requires StopColumns(reisende, linie, stops).Success?
    requires "VSYS" in reisende && "VSYS" in linie && "VSYS" !in stops
    ensures LoadedColumns(reisende, linie, stops, vessels) == Failure(KeyError("VSYS"))
  {
    var v := "VSYS";
    var d1 := ["ID_Abschnitt", "Tagtyp_Id", "Anzahl_Messungen"];
    var k1 := ["Linien_Id", "Linienname"];
    var ridership := Drop(reisende, d1).value;
    DropHas(reisende, d1, v);
    SuffixAllAvoids(ridership, linie, k1, "_x", v);
    WithoutHas(linie, k1, v);
    SuffixAllAvoids(Without(linie, k1), ridership, k1, "_y", v);
    var withLine := Merge(ridership, linie, k1).value;
    assert v !in withLine;
    var named := Drop(withLine, ["Linienname"]).value;
    DropHas(withLine, ["Linienname"], v);
    SuffixAllAvoids(named, stops, ["Haltestellen_Id"], "_x", v);
    WithoutHas(stops, ["Haltestellen_Id"], v);
    SuffixAllAvoids(Without(stops, ["Haltestellen_Id"]), named, ["Haltestellen_Id"], "_y", v);
    var withStop := Merge(named, stops, ["Haltestellen_Id"]).value;
    assert v !in withStop;
    DropHas(withStop, ["Haltestellennummer", "Haltestellenkurzname"], v);
    LoadedFailsWithoutVsys(reisende, linie, stops, vessels);
  }

  /** None of the eight labels the loader drops survives the load. */
  lemma DroppedColumnsAbsent(reisende: seq<string>, linie: seq<string>, stops: seq<string>, vessels: seq<string>)
    requires AssumedHeaders(reisende, linie, stops, vessels)
    ensures LoadedColumns(reisende, linie, stops, vessels).Success?
    ensures forall d :: d in DroppedLabels ==> d !in LoadedColumns(reisende, linie, stops, vessels).value
  {
    AssumedHeadersLoad(reisende, linie, stops, vessels);
    NotLoaded(LoadedColumns(reisende, linie, stops, vessels).value, reisende, linie, stops, vessels);
  }

  const DroppedLabels: seq<string> := ["ID_Abschnitt", "Tagtyp_Id", "Anzahl_Messungen", "Linienname",
    "Haltestellennummer", "Haltestellenkurzname", "Linien_Id", "Plan_Fahrt_Id"]

  lemma NotLoaded(cols: seq<string>, reisende: seq<string>, linie: seq<string>, stops: seq<string>, vessels: seq<string>)
    requires AssumedHeaders(reisende, linie, stops, vessels)
    requires forall c :: c in cols <==> LoadedLabel(c, reisende, linie, stops, vessels)
    ensures forall d :: d in DroppedLabels ==> d !in cols
  {
  }

  lemma NoStopCurrent(cols: seq<string>, reisende: seq<string>, linie: seq<string>, stops: seq<string>, vessels: seq<string>)
    requires AssumedHeaders(reisende, linie, stops, vessels)
    requires forall c :: c in cols <==> LoadedLabel(c, reisende, linie, stops, vessels)
    ensures "stop_current" !in cols
  {
    assert !LoadedLabel("stop_current", reisende, linie, stops, vessels);
  }

  lemma RenameHas(cols: seq<string>, mapping: seq<(string, string)>, from: string, to: string)
    requires from in cols && Lookup(mapping, from) == Some(to)
    ensures to in Rename(cols, mapping)
  {
    var i :| 0 <= i < |cols| && cols[i] == from;
    assert Rename(cols, mapping)[i] == to;
  }

  lemma RenameKeeps(cols: seq<string>, mapping: seq<(string, string)>, c: string)
    requires c in cols && Lookup(mapping, c) == None
    ensures c in Rename(cols, mapping)
  {
    var i :| 0 <= i < |cols| && cols[i] == c;
    assert Rename(cols, mapping)[i] == c;
  }

  /**
   * After a rename a label is present exactly when some present label maps
   * to it, or it was present and the map does not mention it.
   */
  lemma RenameLabels(cols: seq<string>, mapping: seq<(string, string)>, c: string)
    ensures c in Rename(cols, mapping) <==>
      (exists f :: f in cols && Lookup(mapping, f) == Some(c)) || (c in cols && Lookup(mapping, c) == None)
  {
    if c in Rename(cols, mapping) {
      var i :| 0 <= i < |cols| && Rename(cols, mapping)[i] == c;
      if Lookup(mapping, cols[i]).Some? {
        assert cols[i] in cols && Lookup(mapping, cols[i]) == Some(c);
      }
    }
    if exists f :: f in cols && Lookup(mapping, f) == Some(c) {
      var f :| f in cols && Lookup(mapping, f) == Some(c);
      RenameHas(cols, mapping, f, c);
    }
    if c in cols && Lookup(mapping, c) == None {
      RenameKeeps(cols, mapping, c);
    }
  }

  /**
   * Every source label of the rename map is among the loaded labels, so
   * after the rename every target label is there; the unmapped labels
   * `carbon_intensity`, `year` and `stop_next` stay as they are.
   */
  lemma RenamedLoadedColumns(reisende: seq<string>, linie: seq<string>, stops: seq<string>, vessels: seq<string>)
    requires AssumedHeaders(reisende, linie, stops, vessels)
    ensures LoadedColumns(reisende, linie, stops, vessels).Success?
    ensures var renamed := Rename(LoadedColumns(reisende, linie, stops, vessels).value, MappingAttributes);
      && (forall j :: 0 <= j < |MappingAttributes| ==> MappingAttributes[j].1 in renamed)
      && "carbon_intensity" in renamed && "year" in renamed && "stop_next" in renamed
  {
    AssumedHeadersLoad(reisende, linie, stops, vessels);
    RenamedHas(LoadedColumns(reisende, linie, stops, vessels).value, reisende, linie, stops, vessels);
    var cols := LoadedColumns(reisende, linie, stops, vessels).value;
    LoadedColumnsLabels(reisende, linie, stops, vessels, "carbon_intensity");
    LoadedColumnsLabels(reisende, linie, stops, vessels, "year");
    LoadedColumnsLabels(reisende, linie, stops, vessels, "stop_next");
    UnmappedKept(cols);
  }

  lemma RenamedHas(cols: seq<string>, reisende: seq<string>, linie: seq<string>, stops: seq<string>, vessels: seq<string>)
    requires AssumedHeaders(reisende, linie, stops, vessels)
    requires forall c :: c in cols <==> LoadedLabel(c, reisende, linie, stops, vessels)
    ensures forall j :: 0 <= j < |MappingAttributes| ==> MappingAttributes[j].1 in Rename(cols, MappingAttributes)
  {
    forall j | 0 <= j < |MappingAttributes|
      ensures MappingAttributes[j].1 in Rename(cols, MappingAttributes)
    {
      SourceLoaded(reisende, linie, stops, vessels, j);
      RenamedTo(j);
      RenameHas(cols, MappingAttributes, MappingAttributes[j].0, MappingAttributes[j].1);
    }
  }

  lemma UnmappedKept(cols: seq<string>)
    requires "carbon_intensity" in cols && "year" in cols && "stop_next" in cols
    ensures "carbon_intensity" in Rename(cols, MappingAttributes)
    ensures "year" in Rename(cols, MappingAttributes)
    ensures "stop_next" in Rename(cols, MappingAttributes)
  {
    KeptLabel(cols, "carbon_intensity");
    KeptLabel(cols, "year");
    KeptLabel(cols, "stop_next");
  }

  /** A loaded label outside the rename map survives the rename. */
  lemma KeptLabel(cols: seq<string>, c: string)
    requires c in cols
    requires c == "carbon_intensity" || c == "year" || c == "stop_next"
    ensures c in Rename(cols, MappingAttributes)
  {
    Unmapped(c);
    RenameKeeps(cols, MappingAttributes, c);
  }

  /** The labels the loader adds are not sources of the rename map. */
  lemma Unmapped(c: string)
    requires c == "carbon_intensity" || c == "year" || c == "stop_next"
    ensures Lookup(MappingAttributes, c) == None
  {
    NotRenamed(c);
  }

  /** Each source label of the rename map is a loaded label. */
  lemma SourceLoaded(reisende: seq<string>, linie: seq<string>, stops: seq<string>, vessels: seq<string>, j: nat)
    requires AssumedHeaders(reisende, linie, stops, vessels)
    requires j < |MappingAttributes|
    ensures LoadedLabel(MappingAttributes[j].0, reisende, linie, stops, vessels)
  {
    var c := MappingAttributes[j].0;
    if j < 15 {
      RidershipSourceLoaded(reisende, linie, stops, j);
    } else if j == 15 {
      assert c == linie[2];
    } else if j < 21 {
      assert c == vessels[j - 15];
    } else {
      assert c == stops[3];
    }
  }

  /** The first fifteen source labels of the rename map come from the ridership file and survive its joins. */
  lemma RidershipSourceLoaded(reisende: seq<string>, linie: seq<string>, stops: seq<string>, j: nat)
    requires reisende == ReisendeHeader
    requires j < 15
    ensures StopLabel(MappingAttributes[j].0, reisende, linie, stops)
  {
    var c := MappingAttributes[j].0;
    var k := [2, 3, 6, 7, 8, 9, 10, 11, 12, 13, 14, 17, 15, 16, 18][j];
    assert c == reisende[k];
    assert c !in ["ID_Abschnitt", "Tagtyp_Id", "Anzahl_Messungen"];
  }

  /** Before the rename the loaded frame has no `stop_current` label. */
  lemma NoStopCurrentBeforeRename(reisende: seq<string>, linie: seq<string>, stops: seq<string>, vessels: seq<string>)
    requires AssumedHeaders(reisende, linie, stops, vessels)
    ensures LoadedColumns(reisende, linie, stops, vessels).Success?
    ensures "stop_current" !in LoadedColumns(reisende, linie, stops, vessels).value
  {
    AssumedHeadersLoad(reisende, linie, stops, vessels);
    NoStopCurrent(LoadedColumns(reisende, linie, stops, vessels).value, reisende, linie, stops, vessels);
  }
}

=== FILE: grouping.dfy ===
/**
 * The grouped reductions behind the dashboard's metrics: pandas'
 * `pivot_table` and `groupby(...).nunique()`, seen as maps from group key to
 * value. A row whose key is missing (a NaN key) belongs to no group, and a
 * missing value is skipped by the sum, the mean and the distinct count.
 */
module Grouping {
  import opened Wrappers
  import opened TimeRepair
  import opened Bucketing

  /** The present values of the rows whose key is `k`, in row order. */
  function GroupValues<T, K(==)>(rows: seq<T>, key: T -> Option<K>, val: T -> Option<real>, k: K): (v: seq<real>)
    ensures |v| <= GroupSize(rows, key, k)
  {
    if |rows| == 0 then []
    else
      var earlier, x := GroupValues(rows[..|rows| - 1], key, val, k), rows[|rows| - 1];
      if key(x) == Some(k) && val(x).Some? then earlier + [val(x).value] else earlier
  }

  /** The number of rows whose key is `k`. */
  function GroupSize<T, K(==)>(rows: seq<T>, key: T -> Option<K>, k: K): (n: nat)
    ensures n <= |rows|
  {
    if |rows| == 0 then 0
    else GroupSize(rows[..|rows| - 1], key, k) + (if key(rows[|rows| - 1]) == Some(k) then 1 else 0)
  }

  /** The keys that occur: one group per distinct present key. */
  function GroupKeys<T, K>(rows: seq<T>, key: T -> Option<K>): set<K> {
    set i | 0 <= i < |rows| && key(rows[i]).Some? :: key(rows[i]).value
  }

  /** `groupby(key)[val].sum()`: each group's present values added up (zero when all are missing). */
  function GroupSum<T, K(==)>(rows: seq<T>, key: T -> Option<K>, val: T -> Option<real>): (m: map<K, real>)
    ensures m.Keys == GroupKeys(rows, key)
  {
    map k | k in GroupKeys(rows, key) :: Sum(GroupValues(rows, key, val, k))
  }

  /** Adding a value at the end adds it to the sum. */
  lemma SumAppend(xs: seq<real>, v: real)
    ensures Sum(xs + [v]) == Sum(xs) + v
  {
    assert (xs + [v])[..|xs|] == xs;
  }

  /** Appending a row extends only the row's own group. */
  lemma GroupValuesAppend<T, K>(rows: seq<T>, x: T, key: T -> Option<K>, val: T -> Option<real>, k: K)
    ensures GroupValues(rows + [x], key, val, k)
      == if key(x) == Some(k) && val(x).Some? then GroupValues(rows, key, val, k) + [val(x).value]
         else GroupValues(rows, key, val, k)
  {
    assert (rows + [x])[..|rows|] == rows;
  }

  lemma GroupKeysAppend<T, K>(rows: seq<T>, x: T, key: T -> Option<K>)
    ensures GroupKeys(rows + [x], key) == if key(x).Some? then GroupKeys(rows, key) + {key(x).value} else GroupKeys(rows, key)
  {
    var after := rows + [x];
    forall k | k in GroupKeys(after, key) ensures k in GroupKeys(rows, key) || key(x) == Some(k) {
      var i :| 0 <= i < |after| && key(after[i]) == Some(k);
      if i < |rows| {
        assert after[i] == rows[i];
      }
    }
    forall k | k in GroupKeys(rows, key) ensures k in GroupKeys(after, key) {
      var i :| 0 <= i < |rows| && key(rows[i]) == Some(k);
      assert after[i] == rows[i];
    }
    if key(x).Some? {
      assert after[|rows|] == x;
    }
  }

  /** A key that does not occur has no values. */
  lemma {:induction false} AbsentGroupEmpty<T, K>(rows: seq<T>, key: T -> Option<K>, val: T -> Option<real>, k: K)
    requires k !in GroupKeys(rows, key)
    ensures GroupValues(rows, key, val, k) == []
  {
    if |rows| > 0 {
      var init, x := rows[..|rows| - 1], rows[|rows| - 1];
      assert rows == init + [x];
      GroupKeysAppend(init, x, key);
      AbsentGroupEmpty(init, key, val, k);
    }
  }

  /** The one-pass accumulation of the sums after one more row. */
  function Accumulate<K(==)>(m: map<K, real>, k: K, v: real): (r: map<K, real>)
    ensures r.Keys == m.Keys + {k}
  {
    m[k := (if k in m then m[k] else 0.0) + v]
  }

  lemma GroupSumStep<T, K>(rows: seq<T>, x: T, key: T -> Option<K>, val: T -> Option<real>)
    ensures GroupSum(rows + [x], key, val)
      == if key(x).None? then GroupSum(rows, key, val)
         else Accumulate(GroupSum(rows, key, val), key(x).value, val(x).GetOr(0.0))
  {
    if key(x).None? {
      KeylessRowStep(rows, x, key, val);
    } else {
      KeyedRowStep(rows, x, key, val);
    }
  }

  /** A row without a key leaves every sum as it was. */
  lemma KeylessRowStep<T, K>(rows: seq<T>, x: T, key: T -> Option<K>, val: T -> Option<real>)
    requires key(x).None?
    ensures GroupSum(rows + [x], key, val) == GroupSum(rows, key, val)
  {
    var before, after := GroupSum(rows, key, val), GroupSum(rows + [x], key, val);
    assert after.Keys == before.Keys by {
      GroupKeysAppend(rows, x, key);
    }
    assert forall k :: k in after.Keys ==> after[k] == before[k] by {
      forall k | k in after.Keys ensures after[k] == before[k] {
        GroupSumStepAt(rows, x, key, val, k);
      }
    }
    SameEntries(after, before);
  }

  /** A row with a key adds its value (or nothing, when missing) to that key's sum. */
  lemma KeyedRowStep<T, K>(rows: seq<T>, x: T, key: T -> Option<K>, val: T -> Option<real>)
    requires key(x).Some?
    ensures GroupSum(rows + [x], key, val) == Accumulate(GroupSum(rows, key, val), key(x).value, val(x).GetOr(0.0))
  {
    var before, after := GroupSum(rows, key, val), GroupSum(rows + [x], key, val);
    var expected := Accumulate(before, key(x).value, val(x).GetOr(0.0));
    assert after.Keys == expected.Keys by {
      GroupKeysAppend(rows, x, key);
    }
    assert forall k :: k in after.Keys ==> after[k] == expected[k] by {
      forall k | k in after.Keys ensures after[k] == expected[k] {
        GroupSumStepAt(rows, x, key, val, k);
      }
    }
    SameEntries(after, expected);
  }

  /** Two maps with the same keys and the same value under each key are equal. */
  lemma SameEntries<K, V>(a: map<K, V>, b: map<K, V>)
    requires a.Keys == b.Keys
    requires forall k :: k in a.Keys ==> a[k] == b[k]
    ensures a == b
  {
  }

  /** One present key's sum after one more row, against the one-pass accumulation. */
  lemma GroupSumStepAt<T, K>(rows: seq<T>, x: T, key: T -> Option<K>, val: T -> Option<real>, k: K)
    requires k in GroupKeys(rows + [x], key)
    ensures k in GroupKeys(rows, key) || key(x) == Some(k)
    ensures GroupSum(rows + [x], key, val)[k]
      == (if k in GroupKeys(rows, key) then GroupSum(rows, key, val)[k] else 0.0)
         + (if key(x) == Some(k) then val(x).GetOr(0.0) else 0.0)
  {
    GroupKeysAppend(rows, x, key);
    GroupSumCell(rows, x, key, val, k);
    if k !in GroupKeys(rows, key) {
      AbsentGroupEmpty(rows, key, val, k);
    }
  }

  /** One group's sum after one more row. */
  lemma GroupSumCell<T, K>(rows: seq<T>, x: T, key: T -> Option<K>, val: T -> Option<real>, k: K)
    ensures Sum(GroupValues(rows + [x], key, val, k))
      == if key(x) == Some(k) then Sum(GroupValues(rows, key, val, k)) + val(x).GetOr(0.0)
         else Sum(GroupValues(rows, key, val, k))
  {
    GroupValuesAppend(rows, x, key, val, k);
    if key(x) == Some(k) && val(x).Some? {
      SumAppend(GroupValues(rows, key, val, k), val(x).value);
    }
  }

  /** The sums computed the way a single pass over the rows computes them. */
  method SumByKey<T, K(==)>(rows: seq<T>, key: T -> Option<K>, val: T -> Option<real>) returns (m: map<K, real>)
    ensures m == GroupSum(rows, key, val)
  {
    m := map[];
    var i := 0;
    while i < |rows|
      invariant i <= |rows|
      invariant m == GroupSum(rows[..i], key, val)
    {
      var x := rows[i];
      GroupSumStep(rows[..i], x, key, val);
      assert rows[..i + 1] == rows[..i] + [x];
      if key(x).Some? {
        m := Accumulate(m, key(x).value, val(x).GetOr(0.0));
      }
      i := i + 1;
    }
    assert rows[..|rows|] == rows;
  }

  /** Every value of a group comes from a row of that group. */
  lemma {:induction false} GroupValueFrom<T, K>(rows: seq<T>, key: T -> Option<K>, val: T -> Option<real>, k: K, j: nat)
    requires j < |GroupValues(rows, key, val, k)|
    ensures exists i :: 0 <= i < |rows| && key(rows[i]) == Some(k) && val(rows[i]) == Some(GroupValues(rows, key, val, k)[j])
  {
    var init, x := rows[..|rows| - 1], rows[|rows| - 1];
    var earlier := GroupValues(init, key, val, k);
    if j < |earlier| {
      GroupValueFrom(init, key, val, k, j);
      var i :| 0 <= i < |init| && key(init[i]) == Some(k) && val(init[i]) == Some(earlier[j]);
      assert rows[i] == init[i];
    } else {
      assert key(rows[|rows| - 1]) == Some(k);
    }
  }

  /** A group has a value exactly when one of its rows has a present value. */
  lemma {:induction false} GroupHasValues<T, K>(rows: seq<T>, key: T -> Option<K>, val: T -> Option<real>, k: K)
    ensures |GroupValues(rows, key, val, k)| > 0 <==> exists i :: 0 <= i < |rows| && key(rows[i]) == Some(k) && val(rows[i]).Some?
  {
    if |rows| > 0 {
      var init, x := rows[..|rows| - 1], rows[|rows| - 1];
      GroupHasValues(init, key, val, k);
      if exists i :: 0 <= i < |rows| && key(rows[i]) == Some(k) && val(rows[i]).Some? {
        var i :| 0 <= i < |rows| && key(rows[i]) == Some(k) && val(rows[i]).Some?;
        if i < |init| {
          assert init[i] == rows[i];
        }
      }
      if |GroupValues(init, key, val, k)| > 0 {
        var i :| 0 <= i < |init| && key(init[i]) == Some(k) && val(init[i]).Some?;
        assert rows[i] == init[i];
      }
    }
  }

  /** The distinct present names among the rows whose key is `k` (`nunique` counts them). */
  function GroupNames<T, K(==), N(==)>(rows: seq<T>, key: T -> Option<K>, name: T -> Option<N>, k: K): (ns: set<N>)
  {
    if |rows| == 0 then {}
    else
      var earlier, x := GroupNames(rows[..|rows| - 1], key, name, k), rows[|rows| - 1];
      if key(x) == Some(k) && name(x).Some? then earlier + {name(x).value} else earlier
  }

  /** A group never has more distinct names than rows. */
  lemma {:induction false} NamesAtMostRows<T, K, N>(rows: seq<T>, key: T -> Option<K>, name: T -> Option<N>, k: K)
    ensures |GroupNames(rows, key, name, k)| <= GroupSize(rows, key, k)
  {
    if |rows| > 0 {
      NamesAtMostRows(rows[..|rows| - 1], key, name, k);
    }
  }

  /** A group has a name exactly when one of its rows has a present name; otherwise its count is 0. */
  lemma {:induction false} NamesPresent<T, K, N>(rows: seq<T>, key: T -> Option<K>, name: T -> Option<N>, k: K)
    ensures |GroupNames(rows, key, name, k)| > 0 <==> exists i :: 0 <= i < |rows| && key(rows[i]) == Some(k) && name(rows[i]).Some?
  {
    if |rows| > 0 {
      var init, x := rows[..|rows| - 1], rows[|rows| - 1];
      NamesPresent(init, key, name, k);
      if exists i :: 0 <= i < |rows| && key(rows[i]) == Some(k) && name(rows[i]).Some? {
        var i :| 0 <= i < |rows| && key(rows[i]) == Some(k) && name(rows[i]).Some?;
        if i < |init| {
          assert init[i] == rows[i];
        }
      }
      if |GroupNames(init, key, name, k)| > 0 {
        var i :| 0 <= i < |init| && key(init[i]) == Some(k) && name(init[i]).Some?;
        assert rows[i] == init[i];
      }
    }
  }

  /** A group counts no name exactly when every row of the group lacks one. */
  lemma NamesAbsent<T, K, N>(rows: seq<T>, key: T -> Option<K>, name: T -> Option<N>, k: K)
    ensures |GroupNames(rows, key, name, k)| == 0 <==> forall i :: 0 <= i < |rows| && key(rows[i]) == Some(k) ==> name(rows[i]).None?
  {
    NamesPresent(rows, key, name, k);
  }
}

=== FILE: loading.dfy ===
/**
 * `load_and_merge_data(year)`: the ridership rows of one year, left-joined
 * with the line registry, the stop registry, the carbon-intensity table and
 * the vehicle sizes; stamped with the year; and given the long name of the
 * next stop by position. The four CSV files are parameters.
 */
module Loading {
  import opened Wrappers
  import opened Tables
  import opened ReferenceData
  import opened Columns
  import opened Records

  // The rows after each of the four joins.
  type Lined = (Ridership, Option<LineEntry>)
  type Placed = (Lined, Option<StopEntry>)
  type Rated = (Placed, Option<(string, real)>)
  type Sized = (Rated, Option<VesselEntry>)

  // The join keys, left side and right side.
  function LineKey(r: Ridership): (int, string) { (r.lineId, r.lineCode) }
  function EntryLineKey(e: LineEntry): (int, string) { (e.lineId, e.lineCode) }
  function StopKey(p: Lined): int { p.0.stopId }
  function EntryStopKey(e: StopEntry): int { e.stopId }
  function ClassKey(p: Placed): string { p.0.0.vehicleClass }
  function CodeKey(e: (string, real)): string { e.0 }
  function TripKey(p: Rated): int { p.0.0.0.tripPlanId }
  function EntryTripKey(e: VesselEntry): int { e.tripPlanId }
  function NextStopKey(r: Ridership): int { r.nextStopId }

  // The columns each join contributes.
  function DisplayName(e: LineEntry): string { e.displayName }
  function LongName(e: StopEntry): string { e.longName }
  function IntensityOf(e: (string, real)): real { e.1 }
  function CapacityOf(e: VesselEntry): Capacity { e.capacity }

  /** The four left joins of the loader, in the order it performs them. */
  function Joins(intensity: seq<(string, real)>, reisende: seq<Ridership>, linie: seq<LineEntry>,
                 stops: seq<StopEntry>, vessels: seq<VesselEntry>): seq<Sized>
  {
    var lined := LeftJoin(reisende, linie, LineKey, EntryLineKey);
    var placed := LeftJoin(lined, stops, StopKey, EntryStopKey);
    var rated := LeftJoin(placed, intensity, ClassKey, CodeKey);
    LeftJoin(rated, vessels, TripKey, EntryTripKey)
  }

  /**
   * The next-stop column: the ridership rows joined once more with the stop
   * registry, this time on `Nach_Hst_Id`, keeping only the long name.
   */
  function NextStops(reisende: seq<Ridership>, stops: seq<StopEntry>): (next: seq<Option<string>>)
    ensures |next| >= |reisende|
  {
    var j := LeftJoin(reisende, stops, NextStopKey, EntryStopKey);
    seq(|j|, i requires 0 <= i < |j| => j[i].1.Map(LongName))
  }

  /** Assigning a column by position: row `i` takes entry `i`, or a missing value past the end. */
  function AtPosition(column: seq<Option<string>>, i: nat): Option<string> {
    if i < |column| then column[i] else None
  }

  /** The merged row built from one output row of the joins. */
  function Assemble(s: Sized, year: string, next: Option<string>): Record<string> {
    var x := s.0.0.0.0;
    Record(x.direction, x.sequence, x.stopId, x.nextStopId, x.departure,
      x.passengerIn, x.passengerOut, x.passengerAmount, x.distance, x.factors,
      x.nightFlag, x.vehicleClass,
      s.0.0.0.1.Map(DisplayName), s.0.0.1.Map(LongName), s.0.1.Map(IntensityOf), s.1.Map(CapacityOf),
      year, next)
  }

  /** The rows of the loader's result, for a given carbon-intensity table. */
  function MergeRows(intensity: seq<(string, real)>, year: string, reisende: seq<Ridership>,
                     linie: seq<LineEntry>, stops: seq<StopEntry>, vessels: seq<VesselEntry>)
    : (rows: seq<Record<string>>)
    ensures |rows| >= |reisende|
    ensures forall i :: 0 <= i < |rows| ==> rows[i].year == year
  {
    var sized := Joins(intensity, reisende, linie, stops, vessels);
    var next := NextStops(reisende, stops);
    seq(|sized|, i requires 0 <= i < |sized| => Assemble(sized[i], year, AtPosition(next, i)))
  }

  /**
   * `load_and_merge_data(year)` with the four files given as frames. A label
   * the code drops, joins on or reads for the next stop that is missing
   * raises `KeyError` (`LoadedColumns`). The
   * carbon-intensity table is the one the code builds, in which the night
   * bus keeps its label (`NightBusHasNoIntensity`).
   */
  function LoadAndMerge(year: string, reisende: Table<Ridership>, linie: Table<LineEntry>,
                        stops: Table<StopEntry>, vessels: Table<VesselEntry>)
    : (r: Result<Table<Record<string>>, ColumnError>)
    ensures r.Success? <==> LoadedColumns(reisende.columns, linie.columns, stops.columns, vessels.columns).Success?
    ensures r.Success? ==> |r.value.rows| >= |reisende.rows|
    ensures r.Success? ==> forall i :: 0 <= i < |r.value.rows| ==> r.value.rows[i].year == year
  {
    var columns :- LoadedColumns(reisende.columns, linie.columns, stops.columns, vessels.columns);
    Success(Table(columns, MergeRows(CarbonIntensityAsWritten, year, reisende.rows, linie.rows, stops.rows, vessels.rows)))
  }

  /** The same loader with the night-bus label spelt as the class map spells it. */
  function LoadAndMergeCorrected(year: string, reisende: Table<Ridership>, linie: Table<LineEntry>,
                                 stops: Table<StopEntry>, vessels: Table<VesselEntry>)
    : (r: Result<Table<Record<string>>, ColumnError>)
    ensures r.Success? <==> LoadAndMerge(year, reisende, linie, stops, vessels).Success?
    ensures r.Success? ==> r.value.columns == LoadAndMerge(year, reisende, linie, stops, vessels).value.columns
    ensures r.Success? ==> |r.value.rows| >= |reisende.rows|
    ensures r.Success? ==> forall i :: 0 <= i < |r.value.rows| ==> r.value.rows[i].year == year
  {
    var columns :- LoadedColumns(reisende.columns, linie.columns, stops.columns, vessels.columns);
    Success(Table(columns, MergeRows(CarbonIntensityTransport, year, reisende.rows, linie.rows, stops.rows, vessels.rows)))
  }

  // ------------------------------------------------------------ properties

  /** A merged row carries the ridership columns of `x` unchanged. */
  predicate FromRide(r: Record<string>, x: Ridership) {
    && r.direction == x.direction && r.sequence == x.sequence
    && r.stopId == x.stopId && r.nextStopId == x.nextStopId && r.departure == x.departure
    && r.passengerIn == x.passengerIn && r.passengerOut == x.passengerOut
    && r.passengerAmount == x.passengerAmount && r.distance == x.distance
    && r.factors == x.factors && r.nightFlag == x.nightFlag && r.vehicleClass == x.vehicleClass
  }

  /** Every row of a left join's output comes from a row of its left side. */
  lemma JoinedFrom<L, R, K>(left: seq<L>, right: seq<R>, lk: L -> K, rk: R -> K, j: nat)
    requires j < |LeftJoin(left, right, lk, rk)|
    ensures exists k :: 0 <= k < |left| && left[k] == LeftJoin(left, right, lk, rk)[j].0
  {
    assert Joined(LeftJoin(left, right, lk, rk)[j], left, right, lk, rk);
  }

  /** The position of an output row of a left join that carries left row `i`. */
  lemma KeptAt<L, R, K>(left: seq<L>, right: seq<R>, lk: L -> K, rk: R -> K, i: nat) returns (j: nat)
    requires i < |left|
    ensures j < |LeftJoin(left, right, lk, rk)| && LeftJoin(left, right, lk, rk)[j].0 == left[i]
  {
    LeftJoinKeepsEveryRow(left, right, lk, rk, i);
    j :| 0 <= j < |LeftJoin(left, right, lk, rk)| && LeftJoin(left, right, lk, rk)[j].0 == left[i];
  }

  /** No ridership row is lost: each one leads at least one merged row. */
  lemma EveryRideKept(intensity: seq<(string, real)>, year: string, reisende: seq<Ridership>,
                      linie: seq<LineEntry>, stops: seq<StopEntry>, vessels: seq<VesselEntry>, i: nat)
    requires i < |reisende|
    ensures var rows := MergeRows(intensity, year, reisende, linie, stops, vessels);
      exists j :: 0 <= j < |rows| && FromRide(rows[j], reisende[i])
  {
    var lined := LeftJoin(reisende, linie, LineKey, EntryLineKey);
    var placed := LeftJoin(lined, stops, StopKey, EntryStopKey);
    var rated := LeftJoin(placed, intensity, ClassKey, CodeKey);
    var sized := LeftJoin(rated, vessels, TripKey, EntryTripKey);
    var j1 := KeptAt(reisende, linie, LineKey, EntryLineKey, i);
    var j2 := KeptAt(lined, stops, StopKey, EntryStopKey, j1);
    var j3 := KeptAt(placed, intensity, ClassKey, CodeKey, j2);
    var j4 := KeptAt(rated, vessels, TripKey, EntryTripKey, j3);
    assert sized[j4].0.0.0.0 == reisende[i];
    var rows := MergeRows(intensity, year, reisende, linie, stops, vessels);
    assert rows[j4] == Assemble(sized[j4], year, AtPosition(NextStops(reisende, stops), j4));
    assert FromRide(rows[j4], reisende[i]);
  }

  /** A left join of the intensity table finds nothing exactly when the lookup finds nothing. */
  lemma NoMatchIsLookupNone(intensity: seq<(string, real)>, code: string)
    ensures NoMatch(intensity, CodeKey, code) <==> Lookup(intensity, code).None?
  {
  }

  /**
   * The carbon intensity of a merged row is missing exactly when its
   * vehicle-class code is not a key of the intensity table; otherwise it is
   * a value the table stores under that code.
   */
  lemma IntensityByCode(intensity: seq<(string, real)>, year: string, reisende: seq<Ridership>,
                        linie: seq<LineEntry>, stops: seq<StopEntry>, vessels: seq<VesselEntry>, j: nat)
    requires j < |MergeRows(intensity, year, reisende, linie, stops, vessels)|
    ensures var r := MergeRows(intensity, year, reisende, linie, stops, vessels)[j];
      && (r.carbonIntensity.None? <==> Lookup(intensity, r.vehicleClass).None?)
      && (r.carbonIntensity.Some? ==> (r.vehicleClass, r.carbonIntensity.value) in intensity)
  {
    var lined := LeftJoin(reisende, linie, LineKey, EntryLineKey);
    var placed := LeftJoin(lined, stops, StopKey, EntryStopKey);
    var rated := LeftJoin(placed, intensity, ClassKey, CodeKey);
    var sized := LeftJoin(rated, vessels, TripKey, EntryTripKey);
    JoinedFrom(rated, vessels, TripKey, EntryTripKey, j);
    var k :| 0 <= k < |rated| && rated[k] == sized[j].0;
    assert Joined(rated[k], placed, intensity, ClassKey, CodeKey);
    NoMatchIsLookupNone(intensity, ClassKey(rated[k].0));
    assert MergeRows(intensity, year, reisende, linie, stops, vessels)[j]
      == Assemble(sized[j], year, AtPosition(NextStops(reisende, stops), j));
  }

  /** As written, no merged row of class "N" (night bus) gets a carbon intensity. */
  lemma NightBusUnratedAsWritten(year: string, reisende: seq<Ridership>, linie: seq<LineEntry>,
                                 stops: seq<StopEntry>, vessels: seq<VesselEntry>, j: nat)
    requires j < |MergeRows(CarbonIntensityAsWritten, year, reisende, linie, stops, vessels)|
    requires MergeRows(CarbonIntensityAsWritten, year, reisende, linie, stops, vessels)[j].vehicleClass == "N"
    ensures MergeRows(CarbonIntensityAsWritten, year, reisende, linie, stops, vessels)[j].carbonIntensity == None
  {
    IntensityByCode(CarbonIntensityAsWritten, year, reisende, linie, stops, vessels, j);
    NightBusHasNoIntensity();
  }

  /**
   * With the corrected table, a merged row of any known vehicle class gets
   * the intensity the table stores for its class.
   */
  lemma KnownClassesRated(year: string, reisende: seq<Ridership>, linie: seq<LineEntry>,
                          stops: seq<StopEntry>, vessels: seq<VesselEntry>, j: nat)
    requires j < |MergeRows(CarbonIntensityTransport, year, reisende, linie, stops, vessels)|
    requires Lookup(VehicleClass, MergeRows(CarbonIntensityTransport, year, reisende, linie, stops, vessels)[j].vehicleClass).Some?
    ensures var r := MergeRows(CarbonIntensityTransport, year, reisende, linie, stops, vessels)[j];
      r.carbonIntensity.Some? && r.carbonIntensity == Lookup(CarbonIntensityTransport, r.vehicleClass)
  {
    var r := MergeRows(CarbonIntensityTransport, year, reisende, linie, stops, vessels)[j];
    IntensityByCode(CarbonIntensityTransport, year, reisende, linie, stops, vessels, j);
    EveryClassHasIntensity();
    ClassRated(CarbonIntensityTransport, r.vehicleClass, r.carbonIntensity);
  }

  /** A table that rates every class and has distinct keys rates a known class as its lookup says. */
  lemma ClassRated(t: seq<(string, real)>, code: string, rate: Option<real>)
    requires forall i :: 0 <= i < |VehicleClass| ==> Lookup(t, VehicleClass[i].0).Some?
    requires DistinctKeys(t)
    requires Lookup(VehicleClass, code).Some?
    requires rate.None? <==> Lookup(t, code).None?
    requires rate.Some? ==> (code, rate.value) in t
    ensures rate.Some? && rate == Lookup(t, code)
  {
    var c :| 0 <= c < |VehicleClass| && VehicleClass[c] == (code, Lookup(VehicleClass, code).value);
    assert Lookup(t, VehicleClass[c].0).Some?;
    var k :| 0 <= k < |t| && t[k] == (code, rate.value);
    LookupDistinct(t, k);
  }

  // ------------------------------------------------------ unique right keys

  /** The merged row a ridership row should give: each joined column looked up by its key. */
  function Expected(x: Ridership, year: string, intensity: seq<(string, real)>, linie: seq<LineEntry>,
                    stops: seq<StopEntry>, vessels: seq<VesselEntry>): Record<string>
  {
    Record(x.direction, x.sequence, x.stopId, x.nextStopId, x.departure,
      x.passengerIn, x.passengerOut, x.passengerAmount, x.distance, x.factors,
      x.nightFlag, x.vehicleClass,
      FirstMatch(linie, EntryLineKey, LineKey(x)).Map(DisplayName),
      FirstMatch(stops, EntryStopKey, x.stopId).Map(LongName),
      Lookup(intensity, x.vehicleClass),
      FirstMatch(vessels, EntryTripKey, x.tripPlanId).Map(CapacityOf),
      year,
      FirstMatch(stops, EntryStopKey, x.nextStopId).Map(LongName))
  }

  /** A lookup in the intensity table is its first match's value. */
  lemma {:induction false} LookupIsFirstMatch(intensity: seq<(string, real)>, code: string)
    ensures Lookup(intensity, code) == FirstMatch(intensity, CodeKey, code).Map(IntensityOf)
  {
    if |intensity| > 0 && intensity[0].0 != code {
      LookupIsFirstMatch(intensity[1..], code);
    }
  }

  /**
   * When every right-hand key is unique, the loader neither drops nor
   * duplicates rows: row `i` of its result is ridership row `i` with each
   * joined column looked up by key, including the next stop's name.
   */
  lemma MergeUnique(intensity: seq<(string, real)>, year: string, reisende: seq<Ridership>,
                    linie: seq<LineEntry>, stops: seq<StopEntry>, vessels: seq<VesselEntry>)
    requires UniqueKeys(linie, EntryLineKey) && UniqueKeys(stops, EntryStopKey)
    requires UniqueKeys(intensity, CodeKey) && UniqueKeys(vessels, EntryTripKey)
    ensures |MergeRows(intensity, year, reisende, linie, stops, vessels)| == |reisende|
    ensures forall i :: 0 <= i < |reisende| ==>
      MergeRows(intensity, year, reisende, linie, stops, vessels)[i] == Expected(reisende[i], year, intensity, linie, stops, vessels)
  {
    forall i | 0 <= i < |reisende|
      ensures MergeRows(intensity, year, reisende, linie, stops, vessels)[i] == Expected(reisende[i], year, intensity, linie, stops, vessels)
    {
      MergeRowAt(intensity, year, reisende, linie, stops, vessels, i);
    }
    if |reisende| > 0 {
      MergeRowAt(intensity, year, reisende, linie, stops, vessels, 0);
    }
  }

  /** Row `i` of the merge, when every right-hand key is unique. */
  lemma MergeRowAt(intensity: seq<(string, real)>, year: string, reisende: seq<Ridership>,
                   linie: seq<LineEntry>, stops: seq<StopEntry>, vessels: seq<VesselEntry>, i: nat)
    requires UniqueKeys(linie, EntryLineKey) && UniqueKeys(stops, EntryStopKey)
    requires UniqueKeys(intensity, CodeKey) && UniqueKeys(vessels, EntryTripKey)
    requires i < |reisende|
    ensures |MergeRows(intensity, year, reisende, linie, stops, vessels)| == |reisende|
    ensures MergeRows(intensity, year, reisende, linie, stops, vessels)[i] == Expected(reisende[i], year, intensity, linie, stops, vessels)
  {
    var lined := LeftJoin(reisende, linie, LineKey, EntryLineKey);
    var placed := LeftJoin(lined, stops, StopKey, EntryStopKey);
    var rated := LeftJoin(placed, intensity, ClassKey, CodeKey);
    var sized := LeftJoin(rated, vessels, TripKey, EntryTripKey);
    var next := LeftJoin(reisende, stops, NextStopKey, EntryStopKey);
    LeftJoinUnique(reisende, linie, LineKey, EntryLineKey);
    LeftJoinUnique(lined, stops, StopKey, EntryStopKey);
    LeftJoinUnique(placed, intensity, ClassKey, CodeKey);
    LeftJoinUnique(rated, vessels, TripKey, EntryTripKey);
    LeftJoinUnique(reisende, stops, NextStopKey, EntryStopKey);
    LookupIsFirstMatch(intensity, reisende[i].vehicleClass);
    assert sized[i].0 == rated[i] && rated[i].0 == placed[i] && placed[i].0 == lined[i] && lined[i].0 == reisende[i];
    assert AtPosition(NextStops(reisende, stops), i) == next[i].1.Map(LongName);
  }

  lemma TransportCodesUnique()
    ensures UniqueKeys(CarbonIntensityTransport, CodeKey)
  {
    EveryClassHasIntensity();
  }

  lemma AsWrittenCodesUnique()
    ensures UniqueKeys(CarbonIntensityAsWritten, CodeKey)
  {
    AsWrittenKeysDistinct();
  }

  /** The loader's result, when the registries have unique keys: one row per ridership row, looked up by key. */
  lemma LoadAndMergeUnique(year: string, reisende: Table<Ridership>, linie: Table<LineEntry>,
                           stops: Table<StopEntry>, vessels: Table<VesselEntry>)
    requires LoadAndMerge(year, reisende, linie, stops, vessels).Success?
    requires UniqueKeys(linie.rows, EntryLineKey) && UniqueKeys(stops.rows, EntryStopKey)
    requires UniqueKeys(vessels.rows, EntryTripKey)
    ensures var rows := LoadAndMerge(year, reisende, linie, stops, vessels).value.rows;
      && |rows| == |reisende.rows|
      && forall i :: 0 <= i < |rows| ==>
        rows[i] == Expected(reisende.rows[i], year, CarbonIntensityAsWritten, linie.rows, stops.rows, vessels.rows)
  {
    AsWrittenCodesUnique();
    MergeUnique(CarbonIntensityAsWritten, year, reisende.rows, linie.rows, stops.rows, vessels.rows);
  }

  /** The same for the corrected loader, with the corrected intensity table. */
  lemma LoadAndMergeCorrectedUnique(year: string, reisende: Table<Ridership>, linie: Table<LineEntry>,
                                    stops: Table<StopEntry>, vessels: Table<VesselEntry>)
    requires LoadAndMergeCorrected(year, reisende, linie, stops, vessels).Success?
    requires UniqueKeys(linie.rows, EntryLineKey) && UniqueKeys(stops.rows, EntryStopKey)
    requires UniqueKeys(vessels.rows, EntryTripKey)
    ensures var rows := LoadAndMergeCorrected(year, reisende, linie, stops, vessels).value.rows;
      && |rows| == |reisende.rows|
      && forall i :: 0 <= i < |rows| ==>
        rows[i] == Expected(reisende.rows[i], year, CarbonIntensityTransport, linie.rows, stops.rows, vessels.rows)
  {
    TransportCodesUnique();
    MergeUnique(CarbonIntensityTransport, year, reisende.rows, linie.rows, stops.rows, vessels.rows);
  }

  /** Every night-bus row the loader returns lacks a carbon intensity. */
  lemma LoadedNightBusUnrated(year: string, reisende: Table<Ridership>, linie: Table<LineEntry>,
                              stops: Table<StopEntry>, vessels: Table<VesselEntry>, j: nat)
    requires LoadAndMerge(year, reisende, linie, stops, vessels).Success?
    requires j < |LoadAndMerge(year, reisende, linie, stops, vessels).value.rows|
    requires LoadAndMerge(year, reisende, linie, stops, vessels).value.rows[j].vehicleClass == "N"
    ensures LoadAndMerge(year, reisende, linie, stops, vessels).value.rows[j].carbonIntensity == None
  {
    NightBusUnratedAsWritten(year, reisende.rows, linie.rows, stops.rows, vessels.rows, j);
  }

  /** Every row of a known class the corrected loader returns carries its class's intensity. */
  lemma CorrectedLoadRated(year: string, reisende: Table<Ridership>, linie: Table<LineEntry>,
                           stops: Table<StopEntry>, vessels: Table<VesselEntry>, j: nat)
    requires LoadAndMergeCorrected(year, reisende, linie, stops, vessels).Success?
    requires j < |LoadAndMergeCorrected(year, reisende, linie, stops, vessels).value.rows|
    requires Lookup(VehicleClass, LoadAndMergeCorrected(year, reisende, linie, stops, vessels).value.rows[j].vehicleClass).Some?
    ensures var r := LoadAndMergeCorrected(year, reisende, linie, stops, vessels).value.rows[j];
      r.carbonIntensity.Some? && r.carbonIntensity == Lookup(CarbonIntensityTransport, r.vehicleClass)
  {
    KnownClassesRated(year, reisende.rows, linie.rows, stops.rows, vessels.rows, j);
  }

  /**
   * The next-stop column is assigned by position, so a ridership row that
   * the line join duplicates shifts it: with two line-registry rows for
   * `x0`'s line, merged row 1 is still `x0`'s but carries `x1`'s next stop,
   * and the last merged row carries none.
   */
  lemma StopNextMisaligned(intensity: seq<(string, real)>, year: string, x0: Ridership, x1: Ridership,
                           e1: LineEntry, e2: LineEntry, stops: seq<StopEntry>, vessels: seq<VesselEntry>)
    requires EntryLineKey(e1) == LineKey(x0) && EntryLineKey(e2) == LineKey(x0) && LineKey(x1) != LineKey(x0)
    requires UniqueKeys(stops, EntryStopKey) && UniqueKeys(intensity, CodeKey) && UniqueKeys(vessels, EntryTripKey)
    ensures var rows := MergeRows(intensity, year, [x0, x1], [e1, e2], stops, vessels);
      && |rows| == 3
      && FromRide(rows[1], x0)
      && rows[1].stopNext == FirstMatch(stops, EntryStopKey, x1.nextStopId).Map(LongName)
      && rows[2].stopNext == None
  {
    var sized := Joins(intensity, [x0, x1], [e1, e2], stops, vessels);
    DuplicatedLineJoins(intensity, x0, x1, e1, e2, stops, vessels);
    LeftJoinUnique([x0, x1], stops, NextStopKey, EntryStopKey);
    var next := NextStops([x0, x1], stops);
    assert |next| == 2;
    var rows := MergeRows(intensity, year, [x0, x1], [e1, e2], stops, vessels);
    assert rows[1] == Assemble(sized[1], year, next[1]);
  }

  /** The joins of two rides whose first ride's line is registered twice: three rows, the middle one the first ride's. */
  lemma DuplicatedLineJoins(intensity: seq<(string, real)>, x0: Ridership, x1: Ridership,
                            e1: LineEntry, e2: LineEntry, stops: seq<StopEntry>, vessels: seq<VesselEntry>)
    requires EntryLineKey(e1) == LineKey(x0) && EntryLineKey(e2) == LineKey(x0) && LineKey(x1) != LineKey(x0)
    requires UniqueKeys(stops, EntryStopKey) && UniqueKeys(intensity, CodeKey) && UniqueKeys(vessels, EntryTripKey)
    ensures |Joins(intensity, [x0, x1], [e1, e2], stops, vessels)| == 3
    ensures Joins(intensity, [x0, x1], [e1, e2], stops, vessels)[1].0.0.0.0 == x0
  {
    var lined := LeftJoin([x0, x1], [e1, e2], LineKey, EntryLineKey);
    LineDuplicated(x0, x1, e1, e2);
    var placed := LeftJoin(lined, stops, StopKey, EntryStopKey);
    var rated := LeftJoin(placed, intensity, ClassKey, CodeKey);
    var sized := LeftJoin(rated, vessels, TripKey, EntryTripKey);
    LeftJoinUnique(lined, stops, StopKey, EntryStopKey);
    LeftJoinUnique(placed, intensity, ClassKey, CodeKey);
    LeftJoinUnique(rated, vessels, TripKey, EntryTripKey);
    assert sized[1].0.0.0 == lined[1];
  }

  /** Joining two rides with the line table: the first ride's line is there twice, the second's not at all. */
  lemma LineDuplicated(x0: Ridership, x1: Ridership, e1: LineEntry, e2: LineEntry)
    requires EntryLineKey(e1) == LineKey(x0) && EntryLineKey(e2) == LineKey(x0) && LineKey(x1) != LineKey(x0)
    ensures LeftJoin([x0, x1], [e1, e2], LineKey, EntryLineKey) == [(x0, Some(e1)), (x0, Some(e2)), (x1, None)]
  {
    var linie := [e1, e2];
    assert [x0, x1] == [x0] + [x1];
    LeftJoinAppend([x0], [x1], linie, LineKey, EntryLineKey);
    DuplicateKeyDuplicatesRow(x0, e1, e2, LineKey, EntryLineKey);
    assert Matches(linie, EntryLineKey, LineKey(x1)) == [];
    assert LeftJoin([x1], linie, LineKey, EntryLineKey) == [(x1, None)] by {
      assert [x1][1..] == [];
    }
  }
}

=== FILE: metrics.dfy ===
/**
 * `calculate_metrics`: the row-wise derived columns of the cleaned frame and
 * the eight views the dashboard draws from it, each as a map from its group
 * labels to its cells.
 */
module Metrics {
  import opened Wrappers
  import opened TimeRepair
  import opened Records
  import opened ReferenceData
  import opened Bucketing
  import opened Grouping
  import opened Pivots

  /** A row of the cleaned frame: departures are times of day, distances kilometres. */
  type Row = Record<Seconds>

  /** The day counts a yearly expansion factor is divided by. */
  const WorkingDaysPerYear: real := 251.0
  const SaturdaysPerYear: real := 52.0
  const SundaysPerYear: real := 62.0

  // ---------------------------------------------------------------- derived columns

  /** `flow_passengers_in`: boardings over the year; dividing by the average factor gives the measured boardings back. */
  function FlowIn(x: Row): (r: real)
    ensures x.factors.average != 0.0 ==> r / x.factors.average == x.passengerIn
    ensures x.passengerIn == 0.0 || x.factors.average == 0.0 <==> r == 0.0
  {
    x.passengerIn * x.factors.average
  }

  /**
   * `ocuppancy_rate_seats`: passengers per seat; missing when the trip has no
   * vessel size or zero seats.
   */
  function SeatOccupancy(x: Row): (r: Option<real>)
    ensures r.Some? <==> x.capacity.Some? && x.capacity.value.seats != 0.0
    ensures r.Some? ==> r.value * x.capacity.value.seats == x.passengerAmount
  {
    match x.capacity
    case Some(c) => if c.seats != 0.0 then Some(x.passengerAmount / c.seats) else None
    case None => None
  }

  /** `passenger_amount_workingDay`: the load on an average working day; times 251 days it is the load times the yearly factor. */
  function WorkingDayAmount(x: Row): (r: real)
    ensures r * WorkingDaysPerYear == x.passengerAmount * x.factors.workingDays
  {
    x.passengerAmount * x.factors.workingDays / WorkingDaysPerYear
  }

  /**
   * `passenger_amount_nonWorkingDay`: the load on an average Saturday plus
   * that on an average Sunday; scaled by both day counts it is the load times
   * the Saturday factor weighted by the Sundays plus the Sunday factor
   * weighted by the Saturdays.
   */
  function NonWorkingDayAmount(x: Row): (r: real)
    ensures r * (SaturdaysPerYear * SundaysPerYear)
      == x.passengerAmount * (x.factors.saturday * SundaysPerYear + x.factors.sunday * SaturdaysPerYear)
  {
    x.passengerAmount * x.factors.saturday / SaturdaysPerYear + x.passengerAmount * x.factors.sunday / SundaysPerYear
  }

  /** `passenger_amount_night`: the non-working-day load computed with the night factors in place of the day ones. */
  function NightAmount(x: Row): (r: real)
    ensures r == NonWorkingDayAmount(x.(factors := x.factors.(saturday := x.factors.saturdayNight, sunday := x.factors.sundayNight)))
  {
    x.passengerAmount * x.factors.saturdayNight / SaturdaysPerYear + x.passengerAmount * x.factors.sundayNight / SundaysPerYear
  }

  /** `passenger_kilometre`: the load times the distance the trip travels over the year. */
  function PassengerKm(x: Row): (r: real)
    ensures r == x.passengerAmount * DistanceTravelled(x)
  {
    x.passengerAmount * x.distance * x.factors.average
  }

  /** `passenger_kilometre_co2`: missing when the row's vehicle class has no intensity. */
  function PassengerKmCo2(x: Row): (r: Option<real>)
    ensures r.Some? <==> x.carbonIntensity.Some?
  {
    match x.carbonIntensity
    case Some(c) => Some(PassengerKm(x) * c)
    case None => None
  }

  /** `distance_travelled`: kilometres driven over the year; dividing by the average factor gives the section length back. */
  function DistanceTravelled(x: Row): (r: real)
    ensures x.factors.average != 0.0 ==> r / x.factors.average == x.distance
  {
    x.distance * x.factors.average
  }

  // ---------------------------------------------------------------- group keys and values

  function Departure(x: Row): Seconds { x.departure }
  function YearOf(x: Row): Option<string> { Some(x.year) }
  function LineNameOf(x: Row): Option<string> { x.lineName }

  /** (year, line): rows without a line name belong to no group. */
  function YearLine(x: Row): Option<(string, string)> {
    if x.lineName.Some? then Some((x.year, x.lineName.value)) else None
  }

  /** (year, vehicle class). */
  function YearClass(x: Row): Option<(string, string)> { Some((x.year, x.vehicleClass)) }

  /** (time of day, (year, vehicle class)). */
  function TimeYearClass(x: Row): Option<(Seconds, (string, string))> {
    Some((x.departure, (x.year, x.vehicleClass)))
  }

  function FlowValue(x: Row): Option<real> { Some(FlowIn(x)) }
  function PkmValue(x: Row): Option<real> { Some(PassengerKm(x)) }
  function DistanceValue(x: Row): Option<real> { Some(DistanceTravelled(x)) }

  /** The years of the frame. */
  function Years(data: seq<Row>): set<string> {
    set i | 0 <= i < |data| :: data[i].year
  }

  /** The three loads of the occupancy view, under the labels the view renames them to. */
  datatype DayType = WorkingDays | NonWorkingDays | NonWorkingNights

  function Label(d: DayType): string {
    match d
    case WorkingDays => "Working days"
    case NonWorkingDays => "Non-working days"
    case NonWorkingNights => "Non-working nights"
  }

  const DayLabels: set<string> := {"Working days", "Non-working days", "Non-working nights"}

  /** The load a label of the occupancy view names. */
  function DayOfLabel(l: string): DayType {
    if l == "Working days" then WorkingDays
    else if l == "Non-working days" then NonWorkingDays
    else NonWorkingNights
  }

  /** The renaming is one-to-one: each load has its own label and each label names one load. */
  lemma LabelsOneToOne(d: DayType, l: string)
    ensures Label(d) in DayLabels && DayOfLabel(Label(d)) == d
    ensures l in DayLabels ==> Label(DayOfLabel(l)) == l
  {
  }

  function WorkingLoad(x: Row): Option<real> { Some(WorkingDayAmount(x)) }
  function NonWorkingLoad(x: Row): Option<real> { Some(NonWorkingDayAmount(x)) }
  function NightLoad(x: Row): Option<real> { Some(NightAmount(x)) }

  function DayLoad(d: DayType): Row -> Option<real> {
    match d
    case WorkingDays => WorkingLoad
    case NonWorkingDays => NonWorkingLoad
    case NonWorkingNights => NightLoad
  }

  function InYear(y: string): Row -> bool { (x: Row) => x.year == y }

  function InYearClass(p: (string, string)): Row -> bool { (x: Row) => (x.year, x.vehicleClass) == p }

  /** One load of one year, summed per time of day and resampled to 15-second means. */
  function LoadColumn(data: seq<Row>, d: DayType, y: string): seq<Sample> {
    AggregateTimeStep(TimeColumn(data, Departure, InYear(y), DayLoad(d)), Every(15))
  }

  // ---------------------------------------------------------------- the eight views

  /** `number_passengers`: boardings per (year, line). */
  function NumberPassengers(data: seq<Row>): map<(string, string), Option<real>> {
    PivotSum(data, YearLine, FlowValue)
  }

  /** `occupancy_trend`: each (load label, year) column, resampled. */
  function OccupancyTrend(data: seq<Row>): map<(string, string), seq<Sample>> {
    map p | p in Cells(DayLabels, Years(data)) :: LoadColumn(data, DayOfLabel(p.0), p.1)
  }

  /** `passenger_day`: the night load per year, resampled. */
  function PassengerDay(data: seq<Row>): (m: map<string, seq<Sample>>)
    ensures m.Keys == Years(data)
  {
    map y | y in Years(data) :: AggregateTimeStep(TimeColumn(data, Departure, InYear(y), NightLoad), Every(15))
  }

  /** `pkm_amount`: passenger-kilometres per (year, vehicle class) and time of day, resampled. */
  function PkmAmount(data: seq<Row>): (m: map<(string, string), seq<Sample>>)
    ensures m.Keys == GroupKeys(data, YearClass)
  {
    map p | p in GroupKeys(data, YearClass) :: AggregateTimeStep(TimeColumn(data, Departure, InYearClass(p), PkmValue), Every(15))
  }

  /** `number_lines`: distinct line names per (year, vehicle class). */
  function NumberLines(data: seq<Row>): map<(string, string), Option<nat>> {
    PivotCount(data, YearClass, LineNameOf)
  }

  /** `capacity_factor`: mean seat occupancy per time of day and (year, vehicle class), gaps filled with 0. */
  function CapacityFactor(data: seq<Row>): map<(Seconds, (string, string)), real> {
    FilledMeans(data, TimeYearClass, SeatOccupancy)
  }

  /** `distance_travelled`: kilometres per (year, vehicle class). */
  function DistanceTravelledView(data: seq<Row>): map<(string, string), Option<real>> {
    PivotSum(data, YearClass, DistanceValue)
  }

  /** A year's passenger-kilometres. */
  function YearPkm(data: seq<Row>, y: string): real {
    Sum(GroupValues(data, YearOf, PkmValue, y))
  }

  /** A year's public-transport emissions: the present `passenger_kilometre_co2` cells added up. */
  function YearCo2(data: seq<Row>, y: string): real {
    Sum(GroupValues(data, YearOf, PassengerKmCo2, y))
  }

  /**
   * `saved_co2`: per year, the emissions of the same passenger-kilometres by
   * the reference car fleet less those of public transport, in tonnes.
   */
  function SavedCo2(data: seq<Row>): (m: map<string, real>)
    ensures m.Keys == Years(data)
  {
    map y | y in Years(data) :: (YearPkm(data, y) * CarbonIntensityVehicleFleet - YearCo2(data, y)) / 1000.0
  }

  /** The shapes of the eight views. */
  datatype View =
    | Sums(sums: map<(string, string), Option<real>>)
    | Columns(columns: map<(string, string), seq<Sample>>)
    | YearColumns(byYear: map<string, seq<Sample>>)
    | Counts(counts: map<(string, string), Option<nat>>)
    | CapacityCells(cells: map<(Seconds, (string, string)), real>)
    | PerYear(perYear: map<string, real>)

  const ViewNames: set<string> := {"number_passengers", "occupancy_trend", "passenger_day", "pkm_amount",
    "number_lines", "capacity_factor", "distance_travelled", "saved_co2"}

  /** `calculate_metrics`: the eight views by name; the night load is stored under "passenger_day". */
  function CalculateMetrics(data: seq<Row>): (m: map<string, View>)
    ensures m.Keys == ViewNames
  {
    map[
      "number_passengers" := Sums(NumberPassengers(data)),
      "occupancy_trend" := Columns(OccupancyTrend(data)),
      "passenger_day" := YearColumns(PassengerDay(data)),
      "pkm_amount" := Columns(PkmAmount(data)),
      "number_lines" := Counts(NumberLines(data)),
      "capacity_factor" := CapacityCells(CapacityFactor(data)),
      "distance_travelled" := Sums(DistanceTravelledView(data)),
      "saved_co2" := PerYear(SavedCo2(data))]
  }

  /** There are exactly eight views. */
  lemma EightViews()
    ensures |ViewNames| == 8
  {
    assert |{"number_passengers"}| == 1;
    assert "occupancy_trend" !in {"number_passengers"} by {
      assert "number_passengers"[0] != "occupancy_trend"[0];
    }
    assert |{"number_passengers", "occupancy_trend"}| == 2;
    assert "passenger_day" !in {"number_passengers", "occupancy_trend"} by {
      assert "passenger_day"[0] != "number_passengers"[0] && "passenger_day"[0] != "occupancy_trend"[0];
    }
    assert |{"number_passengers", "occupancy_trend", "passenger_day"}| == 3;
    assert "pkm_amount" !in {"number_passengers", "occupancy_trend", "passenger_day"} by {
      assert "pkm_amount"[1] != "passenger_day"[1];
    }
    assert |{"number_passengers", "occupancy_trend", "passenger_day", "pkm_amount"}| == 4;
    assert |{"number_passengers", "occupancy_trend", "passenger_day", "pkm_amount", "number_lines"}| == 5;
    assert "capacity_factor" !in {"number_passengers", "occupancy_trend", "passenger_day", "pkm_amount", "number_lines"} by {
      assert "capacity_factor"[0] != "occupancy_trend"[0];
    }
    assert |{"number_passengers", "occupancy_trend", "passenger_day", "pkm_amount", "number_lines", "capacity_factor"}| == 6;
    assert |{"number_passengers", "occupancy_trend", "passenger_day", "pkm_amount", "number_lines", "capacity_factor", "distance_travelled"}| == 7;
    assert |{"number_passengers", "occupancy_trend", "passenger_day", "pkm_amount", "number_lines", "capacity_factor", "distance_travelled", "saved_co2"}| == 8;
  }

  /** The view stored under "passenger_day" is the night load, the same column as occupancy's "Non-working nights". */
  lemma NightViewIsPassengerDay(data: seq<Row>, y: string)
    ensures CalculateMetrics(data)["passenger_day"].YearColumns?
    ensures CalculateMetrics(data)["occupancy_trend"].Columns?
    ensures y in CalculateMetrics(data)["passenger_day"].byYear <==> y in Years(data)
    ensures y in Years(data) ==>
      && ("Non-working nights", y) in CalculateMetrics(data)["occupancy_trend"].columns
      && CalculateMetrics(data)["passenger_day"].byYear[y] == CalculateMetrics(data)["occupancy_trend"].columns[("Non-working nights", y)]
  {
    var m := CalculateMetrics(data);
    assert m["passenger_day"] == YearColumns(PassengerDay(data));
    assert m["occupancy_trend"] == Columns(OccupancyTrend(data));
    if y in Years(data) {
      NightColumnsAgree(data, y);
    }
  }

  lemma NightColumnsAgree(data: seq<Row>, y: string)
    requires y in Years(data)
    ensures ("Non-working nights", y) in OccupancyTrend(data)
    ensures OccupancyTrend(data)[("Non-working nights", y)] == PassengerDay(data)[y]
  {
    assert ("Non-working nights", y) in Cells(DayLabels, Years(data));
    assert DayLoad(DayOfLabel("Non-working nights")) == NightLoad;
  }

  // ---------------------------------------------------------------- properties of the views

  /** Every resampled column of the time-indexed views has at most 5760 buckets, one day of 15 seconds. */
  lemma TrendsFitADay(data: seq<Row>)
    ensures forall p :: p in OccupancyTrend(data) ==> |OccupancyTrend(data)[p]| <= 5760
    ensures forall y :: y in PassengerDay(data) ==> |PassengerDay(data)[y]| <= 5760
    ensures forall p :: p in PkmAmount(data) ==> |PkmAmount(data)[p]| <= 5760
  {
    forall p | p in OccupancyTrend(data) ensures |OccupancyTrend(data)[p]| <= 5760 {
      FifteenSecondBuckets(TimeColumn(data, Departure, InYear(p.1), DayLoad(DayOfLabel(p.0))));
    }
    forall y | y in PassengerDay(data) ensures |PassengerDay(data)[y]| <= 5760 {
      FifteenSecondBuckets(TimeColumn(data, Departure, InYear(y), NightLoad));
    }
    forall p | p in PkmAmount(data) ensures |PkmAmount(data)[p]| <= 5760 {
      FifteenSecondBuckets(TimeColumn(data, Departure, InYearClass(p), PkmValue));
    }
  }

  /** The per-row saving: the row's passenger-kilometres by car less its public-transport emissions. */
  function RowSaving(x: Row): Option<real> {
    Some(PassengerKm(x) * CarbonIntensityVehicleFleet - PassengerKmCo2(x).GetOr(0.0))
  }

  /** A year's saving is the sum of its rows' savings, in tonnes. */
  lemma SavedCo2ByRow(data: seq<Row>, y: string)
    requires y in Years(data)
    ensures SavedCo2(data)[y] == Sum(GroupValues(data, YearOf, RowSaving, y)) / 1000.0
  {
    SavingsAddUp(data, y);
  }

  lemma {:induction false} SavingsAddUp(rows: seq<Row>, y: string)
    ensures YearPkm(rows, y) * CarbonIntensityVehicleFleet - YearCo2(rows, y) == Sum(GroupValues(rows, YearOf, RowSaving, y))
  {
    if |rows| > 0 {
      var init, x := rows[..|rows| - 1], rows[|rows| - 1];
      assert rows == init + [x];
      SavingsAddUp(init, y);
      GroupValuesAppend(init, x, YearOf, PkmValue, y);
      GroupValuesAppend(init, x, YearOf, PassengerKmCo2, y);
      GroupValuesAppend(init, x, YearOf, RowSaving, y);
      if x.year == y {
        SumAppend(GroupValues(init, YearOf, PkmValue, y), PassengerKm(x));
        SumAppend(GroupValues(init, YearOf, RowSaving, y), RowSaving(x).value);
        if x.carbonIntensity.Some? {
          SumAppend(GroupValues(init, YearOf, PassengerKmCo2, y), PassengerKmCo2(x).value);
        }
      }
    }
  }

  /** A year whose every row is carried at the fleet's own intensity saves nothing. */
  lemma SavedCo2ZeroAtFleetIntensity(data: seq<Row>, y: string)
    requires y in Years(data)
    requires forall i :: 0 <= i < |data| && data[i].year == y ==> data[i].carbonIntensity == Some(CarbonIntensityVehicleFleet)
    ensures SavedCo2(data)[y] == 0.0
  {
    SavedCo2ByRow(data, y);
    var xs := GroupValues(data, YearOf, RowSaving, y);
    forall j | 0 <= j < |xs| ensures xs[j] == 0.0 {
      GroupValueFrom(data, YearOf, RowSaving, y, j);
    }
    SumWithin(xs, 0.0, 0.0);
  }

  /**
   * When no present seat occupancy exceeds 1 or falls below 0, every
   * capacity factor lies in `[0, 1]`; a cell is the mean occupancy of its
   * group when the group has one, and 0 otherwise.
   */
  lemma CapacityFactorIsFraction(data: seq<Row>, p: (Seconds, (string, string)))
    requires p in CapacityFactor(data)
    requires forall i :: 0 <= i < |data| && SeatOccupancy(data[i]).Some? ==> 0.0 <= SeatOccupancy(data[i]).value <= 1.0
    ensures 0.0 <= CapacityFactor(data)[p] <= 1.0
    ensures (exists i :: 0 <= i < |data| && TimeYearClass(data[i]) == Some(p) && SeatOccupancy(data[i]).Some?)
      ==> Some(CapacityFactor(data)[p]) == Mean(GroupValues(data, TimeYearClass, SeatOccupancy, p))
  {
    FilledMeanCell(data, TimeYearClass, SeatOccupancy, p, 0.0, 1.0);
  }

  /**
   * A present `number_passengers` cell is the sum of the boardings of the
   * rows with that year and line; every value in that sum is the boarding
   * flow of such a row.
   */
  lemma PassengersPerLine(data: seq<Row>, y: string, line: string)
    requires (y, line) in NumberPassengers(data) && NumberPassengers(data)[(y, line)].Some?
    ensures NumberPassengers(data)[(y, line)].value == Sum(GroupValues(data, YearLine, FlowValue, (y, line)))
    ensures forall j :: 0 <= j < |GroupValues(data, YearLine, FlowValue, (y, line))| ==>
      exists i :: 0 <= i < |data| && data[i].year == y && data[i].lineName == Some(line)
        && FlowIn(data[i]) == GroupValues(data, YearLine, FlowValue, (y, line))[j]
  {
    var vs := GroupValues(data, YearLine, FlowValue, (y, line));
    PivotSumValue(data, YearLine, FlowValue, (y, line));
    forall j | 0 <= j < |vs|
      ensures exists i :: 0 <= i < |data| && data[i].year == y && data[i].lineName == Some(line) && FlowIn(data[i]) == vs[j]
    {
      var i :| 0 <= i < |data| && YearLine(data[i]) == Some((y, line)) && FlowValue(data[i]) == Some(vs[j]);
      assert data[i].lineName == Some(line);
    }
  }

  /**
   * A 15-second bucket of a `pkm_amount` column starts on a multiple of 15
   * and holds the mean, over the departure times within the bucket that a
   * row of that (year, vehicle class) has, of the passenger-kilometres
   * summed at each such time; it is missing when there is no such time.
   */
  lemma PkmBucket(data: seq<Row>, p: (string, string), j: nat)
    requires p in PkmAmount(data) && j < |PkmAmount(data)[p]|
    ensures var b := PkmAmount(data)[p][j];
      && b.time % 15 == 0
      && b.value == Mean(SumsIn(data, Departure, InYearClass(p), PkmValue, Ascending(TimeIndex(data, Departure)), b.time, b.time + 15))
  {
    var col := TimeColumn(data, Departure, InYearClass(p), PkmValue);
    assert PkmAmount(data)[p] == AggregateTimeStep(col, Every(15));
    TimeColumnCellsAre(data, Departure, InYearClass(p), PkmValue);
    ResampledCell(col, Ascending(TimeIndex(data, Departure)), data, Departure, InYearClass(p), PkmValue, 15, j);
  }

  /** The same for one load column of one year: a bucket is the mean of the per-time load sums within it. */
  lemma LoadBucket(data: seq<Row>, d: DayType, y: string, j: nat)
    requires j < |LoadColumn(data, d, y)|
    ensures var b := LoadColumn(data, d, y)[j];
      && b.time % 15 == 0
      && b.value == Mean(SumsIn(data, Departure, InYear(y), DayLoad(d), Ascending(TimeIndex(data, Departure)), b.time, b.time + 15))
  {
    assert LoadColumn(data, d, y) == AggregateTimeStep(TimeColumn(data, Departure, InYear(y), DayLoad(d)), Every(15));
    ResampledLoad(data, InYear(y), DayLoad(d), j);
  }

  lemma ResampledLoad(data: seq<Row>, inColumn: Row -> bool, val: Row -> Option<real>, j: nat)
    requires j < |AggregateTimeStep(TimeColumn(data, Departure, inColumn, val), Every(15))|
    ensures var b := AggregateTimeStep(TimeColumn(data, Departure, inColumn, val), Every(15))[j];
      && b.time % 15 == 0
      && b.value == Mean(SumsIn(data, Departure, inColumn, val, Ascending(TimeIndex(data, Departure)), b.time, b.time + 15))
  {
    TimeColumnCellsAre(data, Departure, inColumn, val);
    ResampledCell(TimeColumn(data, Departure, inColumn, val), Ascending(TimeIndex(data, Departure)),
                  data, Departure, inColumn, val, 15, j);
  }

  /**
   * `occupancy_trend` has a column only for a load label and a year of the
   * frame, and that column is the load's resampled column for the year
   * (whose buckets `LoadBucket` describes).
   */
  lemma OccupancyColumn(data: seq<Row>, p: (string, string))
    requires p in OccupancyTrend(data)
    ensures p.0 in DayLabels && p.1 in Years(data)
    ensures OccupancyTrend(data)[p] == LoadColumn(data, DayOfLabel(p.0), p.1)
  {
  }

  /** Each bucket of a `passenger_day` column is the mean of that year's per-time night loads within it. */
  lemma PassengerDayBucket(data: seq<Row>, y: string, j: nat)
    requires y in PassengerDay(data) && j < |PassengerDay(data)[y]|
    ensures var b := PassengerDay(data)[y][j];
      && b.time % 15 == 0
      && b.value == Mean(SumsIn(data, Departure, InYear(y), NightLoad,
                                Ascending(TimeIndex(data, Departure)), b.time, b.time + 15))
  {
    var col := TimeColumn(data, Departure, InYear(y), NightLoad);
    assert PassengerDay(data)[y] == AggregateTimeStep(col, Every(15));
    TimeColumnCellsAre(data, Departure, InYear(y), NightLoad);
    ResampledCell(col, Ascending(TimeIndex(data, Departure)), data, Departure, InYear(y), NightLoad, 15, j);
  }

  /** A `distance_travelled` cell is the sum of the distances its (year, class) rows travelled. */
  lemma DistancePerClass(data: seq<Row>, y: string, c: string)
    requires (y, c) in DistanceTravelledView(data) && DistanceTravelledView(data)[(y, c)].Some?
    ensures DistanceTravelledView(data)[(y, c)].value == Sum(GroupValues(data, YearClass, DistanceValue, (y, c)))
    ensures forall j :: 0 <= j < |GroupValues(data, YearClass, DistanceValue, (y, c))| ==>
      exists i :: 0 <= i < |data| && data[i].year == y && data[i].vehicleClass == c
        && DistanceTravelled(data[i]) == GroupValues(data, YearClass, DistanceValue, (y, c))[j]
  {
    var vs := GroupValues(data, YearClass, DistanceValue, (y, c));
    PivotSumValue(data, YearClass, DistanceValue, (y, c));
    forall j | 0 <= j < |vs|
      ensures exists i :: 0 <= i < |data| && data[i].year == y && data[i].vehicleClass == c && DistanceTravelled(data[i]) == vs[j]
    {
      var i :| 0 <= i < |data| && YearClass(data[i]) == Some((y, c)) && DistanceValue(data[i]) == Some(vs[j]);
      assert data[i].vehicleClass == c;
    }
  }

  /** `number_lines` never exceeds the group's row count and is 0 when no row of the group has a line name. */
  lemma LineCounts(data: seq<Row>, p: (string, string))
    requires p in NumberLines(data) && NumberLines(data)[p].Some?
    ensures NumberLines(data)[p].value <= GroupSize(data, YearClass, p)
    ensures NumberLines(data)[p].value == 0
      <==> forall i :: 0 <= i < |data| && data[i].year == p.0 && data[i].vehicleClass == p.1 ==> data[i].lineName.None?
  {
    PivotCountBounds(data, YearClass, LineNameOf, p);
    forall i | 0 <= i < |data|
      ensures (YearClass(data[i]) == Some(p) ==> LineNameOf(data[i]).None?)
        <==> (data[i].year == p.0 && data[i].vehicleClass == p.1 ==> data[i].lineName.None?)
    {
      YearClassFields(data[i], p);
    }
  }

  lemma YearClassFields(x: Row, p: (string, string))
    ensures YearClass(x) == Some(p) <==> x.year == p.0 && x.vehicleClass == p.1
  {
  }
}

=== FILE: pivots.dfy ===
/**
 * `pivot_table` laid out as a map from (row label, column label) to cell.
 * The labels are those of the groups that occur; a label pair no row has is
 * a missing cell (NaN), except where the caller fills it (`fillna(0)`).
 * A time-indexed pivot column is kept as a sequence of samples in index
 * order, ready for the 15-second resample.
 */
module Pivots {
  import opened Wrappers
  import opened TimeRepair
  import opened Bucketing
  import opened Grouping

  /** The row labels of a set of label pairs. */
  function Index<R(==), C(==)>(ps: set<(R, C)>): set<R> {
    set p | p in ps :: p.0
  }

  /** The column labels of a set of label pairs. */
  function Header<R(==), C(==)>(ps: set<(R, C)>): set<C> {
    set p | p in ps :: p.1
  }

  /** Every row label paired with every column label. */
  function Cells<R(==), C(==)>(rs: set<R>, cs: set<C>): set<(R, C)> {
    set r, c | r in rs && c in cs :: (r, c)
  }

  /** `pivot_table(..., aggfunc="sum")`: a cell holds its group's sum, and is missing when no row has its label pair. */
  function PivotSum<T, R(==), C(==)>(rows: seq<T>, key: T -> Option<(R, C)>, val: T -> Option<real>)
    : (g: map<(R, C), Option<real>>)
  {
    var groups, sums := GroupKeys(rows, key), GroupSum(rows, key, val);
    map p | p in Cells(Index(groups), Header(groups)) :: if p in sums then Some(sums[p]) else None
  }

  /** `groupby(...)[[name]].nunique().unstack()`: distinct present names per label pair. */
  function PivotCount<T, R(==), C(==), N(==)>(rows: seq<T>, key: T -> Option<(R, C)>, name: T -> Option<N>)
    : (g: map<(R, C), Option<nat>>)
  {
    var groups := GroupKeys(rows, key);
    map p | p in Cells(Index(groups), Header(groups)) :: if p in groups then Some(|GroupNames(rows, key, name, p)|) else None
  }

  /** The label pairs of the groups holding at least one present value. */
  function ValuedKeys<T, K>(rows: seq<T>, key: T -> Option<K>, val: T -> Option<real>): set<K> {
    set i | 0 <= i < |rows| && key(rows[i]).Some? && val(rows[i]).Some? :: key(rows[i]).value
  }

  /**
   * `pivot_table(...)` with the default mean, then `fillna(0)`: groups
   * whose values are all missing are dropped before the table is laid out,
   * and every cell left empty becomes 0.
   */
  function FilledMeans<T, R(==), C(==)>(rows: seq<T>, key: T -> Option<(R, C)>, val: T -> Option<real>)
    : (g: map<(R, C), real>)
  {
    var valued := ValuedKeys(rows, key, val);
    map p | p in Cells(Index(valued), Header(valued)) :: Mean(GroupValues(rows, key, val, p)).GetOr(0.0)
  }

  /** A label pair is a cell of a sum pivot exactly when its row label and its column label both occur. */
  lemma PivotSumCells<T, R, C>(rows: seq<T>, key: T -> Option<(R, C)>, val: T -> Option<real>, r: R, c: C)
    ensures (r, c) in PivotSum(rows, key, val)
      <==> ((exists i :: 0 <= i < |rows| && key(rows[i]).Some? && key(rows[i]).value.0 == r)
        && (exists i :: 0 <= i < |rows| && key(rows[i]).Some? && key(rows[i]).value.1 == c))
    ensures (r, c) in PivotSum(rows, key, val)
      ==> (PivotSum(rows, key, val)[(r, c)].Some? <==> exists i :: 0 <= i < |rows| && key(rows[i]) == Some((r, c)))
  {
    var groups := GroupKeys(rows, key);
    if exists i :: 0 <= i < |rows| && key(rows[i]).Some? && key(rows[i]).value.0 == r {
      var i :| 0 <= i < |rows| && key(rows[i]).Some? && key(rows[i]).value.0 == r;
      assert key(rows[i]).value in groups;
    }
    if exists i :: 0 <= i < |rows| && key(rows[i]).Some? && key(rows[i]).value.1 == c {
      var i :| 0 <= i < |rows| && key(rows[i]).Some? && key(rows[i]).value.1 == c;
      assert key(rows[i]).value in groups;
    }
  }

  /**
   * A present cell of a sum pivot is its group's sum, and every value added
   * comes from a row of that group.
   */
  lemma PivotSumValue<T, R, C>(rows: seq<T>, key: T -> Option<(R, C)>, val: T -> Option<real>, p: (R, C))
    requires p in PivotSum(rows, key, val) && PivotSum(rows, key, val)[p].Some?
    ensures p in GroupKeys(rows, key)
    ensures PivotSum(rows, key, val)[p].value == Sum(GroupValues(rows, key, val, p))
    ensures forall j :: 0 <= j < |GroupValues(rows, key, val, p)| ==>
      exists i :: 0 <= i < |rows| && key(rows[i]) == Some(p) && val(rows[i]) == Some(GroupValues(rows, key, val, p)[j])
  {
    var sums := GroupSum(rows, key, val);
    assert p in sums;
    forall j | 0 <= j < |GroupValues(rows, key, val, p)|
      ensures exists i :: 0 <= i < |rows| && key(rows[i]) == Some(p) && val(rows[i]) == Some(GroupValues(rows, key, val, p)[j])
    {
      GroupValueFrom(rows, key, val, p, j);
    }
  }

  /** A group that occurs has at least one row. */
  lemma {:induction false} PresentGroupNonEmpty<T, K>(rows: seq<T>, key: T -> Option<K>, k: K)
    requires k in GroupKeys(rows, key)
    ensures GroupSize(rows, key, k) >= 1
  {
    var init, x := rows[..|rows| - 1], rows[|rows| - 1];
    assert rows == init + [x];
    GroupKeysAppend(init, x, key);
    if key(x) != Some(k) {
      PresentGroupNonEmpty(init, key, k);
    }
  }

  /**
   * A distinct-name count never exceeds its group's row count, and is at
   * least 1 exactly when some row of the group has a name: a group whose
   * names are all missing counts 0.
   */
  lemma PivotCountBounds<T, R, C, N>(rows: seq<T>, key: T -> Option<(R, C)>, name: T -> Option<N>, p: (R, C))
    requires p in PivotCount(rows, key, name) && PivotCount(rows, key, name)[p].Some?
    ensures PivotCount(rows, key, name)[p].value <= GroupSize(rows, key, p)
    ensures 1 <= GroupSize(rows, key, p)
    ensures PivotCount(rows, key, name)[p].value == 0
      <==> forall i :: 0 <= i < |rows| && key(rows[i]) == Some(p) ==> name(rows[i]).None?
  {
    var groups := GroupKeys(rows, key);
    assert p in groups;
    assert PivotCount(rows, key, name)[p] == Some(|GroupNames(rows, key, name, p)|);
    PresentGroupNonEmpty(rows, key, p);
    NamesAtMostRows(rows, key, name, p);
    NamesAbsent(rows, key, name, p);
  }

  /**
   * A filled-mean cell is the mean of its group's present values when it has
   * any, and 0 otherwise; so when every present value lies in `[lo, hi]`,
   * every cell is 0 or lies in `[lo, hi]`.
   */
  lemma FilledMeanCell<T, R, C>(rows: seq<T>, key: T -> Option<(R, C)>, val: T -> Option<real>, p: (R, C), lo: real, hi: real)
    requires p in FilledMeans(rows, key, val)
    requires forall i :: 0 <= i < |rows| && val(rows[i]).Some? ==> lo <= val(rows[i]).value <= hi
    ensures var v := FilledMeans(rows, key, val)[p];
      if exists i :: 0 <= i < |rows| && key(rows[i]) == Some(p) && val(rows[i]).Some?
      then lo <= v <= hi && Some(v) == Mean(GroupValues(rows, key, val, p))
      else v == 0.0
  {
    var xs := GroupValues(rows, key, val, p);
    GroupHasValues(rows, key, val, p);
    if |xs| > 0 {
      forall j | 0 <= j < |xs| ensures lo <= xs[j] <= hi {
        GroupValueFrom(rows, key, val, p, j);
      }
      MeanWithin(xs, lo, hi);
    }
  }

  /** The times present in `ts` from `from` on, in increasing order. */
  function Ascending(ts: set<Seconds>, from: nat := 0): (r: seq<Seconds>)
    decreases SecondsPerDay - from
  {
    if from >= SecondsPerDay then []
    else (if from as Seconds in ts then [from as Seconds] else []) + Ascending(ts, from + 1)
  }

  /** The listing holds exactly the times of `ts` from `from` on. */
  lemma {:induction false} AscendingMembers(ts: set<Seconds>, from: nat, t: Seconds)
    ensures t in Ascending(ts, from) <==> t in ts && from <= t
    decreases SecondsPerDay - from
  {
    if from < SecondsPerDay {
      AscendingMembers(ts, from + 1, t);
    }
  }

  /** The listing is strictly increasing. */
  lemma {:induction false} AscendingIncreasing(ts: set<Seconds>, from: nat)
    ensures forall i, j :: 0 <= i < j < |Ascending(ts, from)| ==> Ascending(ts, from)[i] < Ascending(ts, from)[j]
    decreases SecondsPerDay - from
  {
    if from < SecondsPerDay {
      var head, rest := if from as Seconds in ts then [from as Seconds] else [], Ascending(ts, from + 1);
      var r := head + rest;
      assert r == Ascending(ts, from);
      AscendingIncreasing(ts, from + 1);
      forall i, j | 0 <= i < j < |r| ensures r[i] < r[j] {
        if |head| == 1 && i == 0 {
          assert r[i] == from && r[j] == rest[j - 1];
          AscendingMembers(ts, from + 1, rest[j - 1]);
        } else {
          assert r[i] == rest[i - |head|] && r[j] == rest[j - |head|];
          assert rest[i - |head|] < rest[j - |head|];
        }
      }
    }
  }

  /** The times of day of the rows: the index of a time-indexed pivot. */
  function TimeIndex<T>(rows: seq<T>, time: T -> Seconds): set<Seconds> {
    set i | 0 <= i < |rows| :: time(rows[i])
  }

  /** The rows of one pivot column, keyed by their time of day. */
  function AtTime<T>(time: T -> Seconds, inColumn: T -> bool): T -> Option<Seconds> {
    x => if inColumn(x) then Some(time(x)) else None
  }

  /**
   * One column of `pivot_table(index="departure_time", ..., aggfunc="sum")`:
   * one sample per time of the index, in increasing order, holding the sum
   * of the column's rows at that time, or missing when it has none there.
   */
  function TimeColumn<T>(rows: seq<T>, time: T -> Seconds, inColumn: T -> bool, val: T -> Option<real>): (s: seq<Sample>)
    ensures |s| == |Ascending(TimeIndex(rows, time))|
  {
    var ts, sums := Ascending(TimeIndex(rows, time)), GroupSum(rows, AtTime(time, inColumn), val);
    seq(|ts|, j requires 0 <= j < |ts| => Sample(ts[j], if ts[j] in sums then Some(sums[ts[j]]) else None))
  }

  /** A time column lists every time of the rows once, in increasing order, and no other time. */
  lemma TimeColumnIndex<T>(rows: seq<T>, time: T -> Seconds, inColumn: T -> bool, val: T -> Option<real>)
    ensures var s := TimeColumn(rows, time, inColumn, val);
      (forall i, j :: 0 <= i < j < |s| ==> s[i].time < s[j].time)
      && (forall j :: 0 <= j < |s| ==> s[j].time in TimeIndex(rows, time))
      && (forall t :: t in TimeIndex(rows, time) ==> exists j :: 0 <= j < |s| && s[j].time == t)
  {
    var index := TimeIndex(rows, time);
    TimeColumnTimes(rows, time, inColumn, val);
    AscendingIncreasing(index, 0);
    AscendingExactly(index);
    ListedTimes(TimeColumn(rows, time, inColumn, val), Ascending(index), index);
  }

  lemma TimeColumnTimes<T>(rows: seq<T>, time: T -> Seconds, inColumn: T -> bool, val: T -> Option<real>)
    ensures var s, ts := TimeColumn(rows, time, inColumn, val), Ascending(TimeIndex(rows, time));
      |s| == |ts| && forall j :: 0 <= j < |s| ==> s[j].time == ts[j]
  {
  }

  lemma AscendingExactly(ts: set<Seconds>)
    ensures forall t: Seconds :: t in Ascending(ts) <==> t in ts
  {
    forall t: Seconds ensures t in Ascending(ts) <==> t in ts {
      AscendingMembers(ts, 0, t);
    }
  }

  /** Samples whose times are an increasing listing of `index` list each time of `index` once. */
  lemma ListedTimes(s: seq<Sample>, ts: seq<Seconds>, index: set<Seconds>)
    requires |s| == |ts| && forall j :: 0 <= j < |s| ==> s[j].time == ts[j]
    requires forall i, j :: 0 <= i < j < |ts| ==> ts[i] < ts[j]
    requires forall t: Seconds :: t in ts <==> t in index
    ensures forall i, j :: 0 <= i < j < |s| ==> s[i].time < s[j].time
    ensures forall j :: 0 <= j < |s| ==> s[j].time in index
    ensures forall t :: t in index ==> exists j :: 0 <= j < |s| && s[j].time == t
  {
    forall t | t in index ensures exists j :: 0 <= j < |s| && s[j].time == t {
      var j :| 0 <= j < |ts| && ts[j] == t;
      assert s[j].time == t;
    }
  }

  /** A sample is present exactly when a row of the column has its time, and then holds their sum. */
  lemma TimeColumnCell<T>(rows: seq<T>, time: T -> Seconds, inColumn: T -> bool, val: T -> Option<real>, j: nat)
    requires j < |TimeColumn(rows, time, inColumn, val)|
    ensures var b := TimeColumn(rows, time, inColumn, val)[j];
      (b.value.Some? <==> exists i :: 0 <= i < |rows| && inColumn(rows[i]) && time(rows[i]) == b.time)
      && (b.value.Some? ==> b.value.value == Sum(GroupValues(rows, AtTime(time, inColumn), val, b.time)))
  {
    var b := TimeColumn(rows, time, inColumn, val)[j];
    var key := AtTime(time, inColumn);
    if exists i :: 0 <= i < |rows| && inColumn(rows[i]) && time(rows[i]) == b.time {
      var i :| 0 <= i < |rows| && inColumn(rows[i]) && time(rows[i]) == b.time;
      assert key(rows[i]) == Some(b.time);
    }
  }

  /** Some row of the column has time of day `t`. */
  ghost predicate RowAt<T>(rows: seq<T>, time: T -> Seconds, inColumn: T -> bool, t: Seconds) {
    exists i :: 0 <= i < |rows| && inColumn(rows[i]) && time(rows[i]) == t
  }

  /** The column's sum at time of day `t`. */
  ghost function SumAt<T>(rows: seq<T>, time: T -> Seconds, inColumn: T -> bool, val: T -> Option<real>, t: Seconds): real {
    Sum(GroupValues(rows, AtTime(time, inColumn), val, t))
  }

  /**
   * The column's sums at the times of `ts` that lie in `[a, b)` and that
   * some row of the column has, in the order of `ts`.
   */
  ghost function SumsIn<T>(rows: seq<T>, time: T -> Seconds, inColumn: T -> bool, val: T -> Option<real>,
                           ts: seq<Seconds>, a: int, b: int): seq<real>
  {
    if |ts| == 0 then []
    else
      var earlier, t := SumsIn(rows, time, inColumn, val, ts[..|ts| - 1], a, b), ts[|ts| - 1];
      if a <= t < b && RowAt(rows, time, inColumn, t) then earlier + [SumAt(rows, time, inColumn, val, t)] else earlier
  }

  /** Samples at the times `ts` whose cell is present exactly when a row has that time, and then holds the sum. */
  ghost predicate CellsAre<T>(col: seq<Sample>, ts: seq<Seconds>, rows: seq<T>, time: T -> Seconds,
                              inColumn: T -> bool, val: T -> Option<real>) {
    && |col| == |ts|
    && forall j :: 0 <= j < |col| ==>
         col[j].time == ts[j] && (col[j].value.Some? <==> RowAt(rows, time, inColumn, ts[j]))
         && (col[j].value.Some? ==> col[j].value.value == SumAt(rows, time, inColumn, val, ts[j]))
  }

  lemma {:induction false} CellsValuesIn<T>(col: seq<Sample>, ts: seq<Seconds>, rows: seq<T>, time: T -> Seconds,
                                            inColumn: T -> bool, val: T -> Option<real>, a: int, b: int)
    requires CellsAre(col, ts, rows, time, inColumn, val)
    ensures ValuesIn(col, a, b) == SumsIn(rows, time, inColumn, val, ts, a, b)
    decreases |col|
  {
    if |col| > 0 {
      var k := |col|;
      assert CellsAre(col[..k - 1], ts[..k - 1], rows, time, inColumn, val);
      CellsValuesIn(col[..k - 1], ts[..k - 1], rows, time, inColumn, val, a, b);
    }
  }

  /** A time column's cells are present exactly at the times a row of the column has, and then hold the sum there. */
  lemma TimeColumnCellsAre<T>(rows: seq<T>, time: T -> Seconds, inColumn: T -> bool, val: T -> Option<real>)
    ensures CellsAre(TimeColumn(rows, time, inColumn, val), Ascending(TimeIndex(rows, time)), rows, time, inColumn, val)
  {
    var ts := Ascending(TimeIndex(rows, time));
    var col := TimeColumn(rows, time, inColumn, val);
    forall j | 0 <= j < |col|
      ensures col[j].time == ts[j] && (col[j].value.Some? <==> RowAt(rows, time, inColumn, ts[j]))
           && (col[j].value.Some? ==> col[j].value.value == SumAt(rows, time, inColumn, val, ts[j]))
    {
      TimeColumnCell(rows, time, inColumn, val, j);
    }
  }

  /**
   * Resampling such a column into buckets of width `w`: a bucket starts on a
   * multiple of `w` and holds the mean of the per-time sums within it.
   */
  lemma ResampledCell<T>(col: seq<Sample>, ts: seq<Seconds>, rows: seq<T>, time: T -> Seconds, inColumn: T -> bool,
                         val: T -> Option<real>, w: Width, j: nat)
    requires CellsAre(col, ts, rows, time, inColumn, val)
    requires j < |AggregateTimeStep(col, Every(w))|
    ensures var b := AggregateTimeStep(col, Every(w))[j];
      && b.time % w == 0
      && b.value == Mean(SumsIn(rows, time, inColumn, val, ts, b.time, b.time + w))
  {
    BucketOf(col, w, j);
    var b := AggregateTimeStep(col, Every(w))[j];
    CellsValuesIn(col, ts, rows, time, inColumn, val, b.time, b.time + w);
  }

  lemma BucketOf(col: seq<Sample>, w: Width, j: nat)
    requires j < |AggregateTimeStep(col, Every(w))|
    ensures var b := AggregateTimeStep(col, Every(w))[j];
      b.time % w == 0 && b.value == Mean(ValuesIn(col, b.time, b.time + w))
  {
    BucketsAligned(col, w);
  }
}

=== FILE: records.dfy ===
/**
 * The rows of the four files the loader reads and of the frame it builds.
 * Only the columns the pipeline keeps or joins on are modelled; the three
 * ridership columns the loader drops on reading are not carried at all.
 */
module Records {
  import opened Wrappers

  /** The day-type expansion factors of a ridership row (`Tage_*`). */
  datatype Factors = Factors(
    average: real,        // Tage_DTV
    workingDays: real,    // Tage_DWV
    saturday: real,       // Tage_SA
    sunday: real,         // Tage_SO
    saturdayNight: real,  // Tage_SA_N
    sundayNight: real)    // Tage_SO_N

  /** One row of `REISENDE.csv`: a measured stop-to-stop section of a trip. */
  datatype Ridership = Ridership(
    lineId: int,            // Linien_Id
    lineCode: string,       // Linienname
    direction: int,         // Richtung
    sequence: int,          // Sequenz
    stopId: int,            // Haltestellen_Id
    nextStopId: int,        // Nach_Hst_Id
    departure: string,      // FZ_AB, "HH:MM:SS" with hours possibly past 23
    passengerIn: real,      // Einsteiger
    passengerOut: real,     // Aussteiger
    passengerAmount: real,  // Besetzung
    distance: real,         // Distanz, in metres
    factors: Factors,
    nightFlag: int,         // Nachtnetz
    vehicleClass: string,   // VSYS
    tripPlanId: int)        // Plan_Fahrt_Id

  /** One row of `LINIE.csv`. */
  datatype LineEntry = LineEntry(lineId: int, lineCode: string, displayName: string)

  /** One row of `HALTESTELLEN.csv`. */
  datatype StopEntry = StopEntry(stopId: int, number: int, shortName: string, longName: string)

  /** The capacity columns of `GEFAESSGROESSE.csv`. */
  datatype Capacity = Capacity(seats: real, standing1: real, standing2: real, standing3: real, standing4: real)

  /** One row of `GEFAESSGROESSE.csv`: the vehicle size of a planned trip. */
  datatype VesselEntry = VesselEntry(tripPlanId: int, capacity: Capacity)

  /**
   * A row of the merged frame. The departure is text `T = string` before
   * cleaning and a time of day after it; the joined columns are missing
   * (`None`) when the join found no partner row.
   */
  datatype Record<T> = Record(
    direction: int,
    sequence: int,
    stopId: int,
    nextStopId: int,
    departure: T,
    passengerIn: real,
    passengerOut: real,
    passengerAmount: real,
    distance: real,
    factors: Factors,
    nightFlag: int,
    vehicleClass: string,
    lineName: Option<string>,         // Linienname_Fahrgastauskunft, from LINIE
    stopCurrent: Option<string>,      // Haltestellenlangname, from HALTESTELLEN
    carbonIntensity: Option<real>,    // from the carbon-intensity table, by VSYS
    capacity: Option<Capacity>,       // from GEFAESSGROESSE, by Plan_Fahrt_Id
    year: string,
    stopNext: Option<string>)         // long name of the next stop

  /** The same row with its departure replaced, as the cleaner's time conversion does. */
  function WithDeparture<A, B>(r: Record<A>, d: B): (s: Record<B>)
    ensures s.departure == d
  {
    Record(r.direction, r.sequence, r.stopId, r.nextStopId, d,
      r.passengerIn, r.passengerOut, r.passengerAmount, r.distance, r.factors,
      r.nightFlag, r.vehicleClass, r.lineName, r.stopCurrent, r.carbonIntensity, r.capacity,
      r.year, r.stopNext)
  }

  /** A frame: its column labels, and its rows. */
  datatype Table<R> = Table(columns: seq<string>, rows: seq<R>)
}

=== FILE: reference_data.dfy ===
/**
 * The static reference tables: the raw-to-semantic column rename map, the
 * vehicle-class code labels, the per-class carbon intensities (kg CO2-eq per
 * passenger-kilometre) and the private-vehicle fleet intensity.
 * Python dicts keep insertion order, so each table is a sequence of pairs.
 */
module ReferenceData {
  import opened Wrappers
  import opened Tables

  /** The value stored under the first pair whose key is `k`. */
  function Lookup<K(==), V>(pairs: seq<(K, V)>, k: K): (r: Option<V>)
    ensures r.None? <==> forall i :: 0 <= i < |pairs| ==> pairs[i].0 != k
    ensures r.Some? ==> exists i :: 0 <= i < |pairs| && pairs[i] == (k, r.value)
  {
    if |pairs| == 0 then None
    else if pairs[0].0 == k then Some(pairs[0].1)
    else
      var r := Lookup(pairs[1..], k);
      assert r.Some? ==> exists i :: 0 <= i < |pairs[1..]| && pairs[1..][i] == (k, r.value);
      r
  }

  predicate DistinctKeys<K(==), V>(pairs: seq<(K, V)>) {
    forall i, j :: 0 <= i < j < |pairs| ==> pairs[i].0 != pairs[j].0
  }

  predicate DistinctValues<K, V(==)>(pairs: seq<(K, V)>) {
    forall i, j :: 0 <= i < j < |pairs| ==> pairs[i].1 != pairs[j].1
  }

  /** `{value: key for key, value in d.items()}`, in the same order. */
  function Invert<K, V>(pairs: seq<(K, V)>): (r: seq<(V, K)>)
    ensures |r| == |pairs|
    ensures forall i :: 0 <= i < |r| ==> r[i] == (pairs[i].1, pairs[i].0)
  {
    seq(|pairs|, i requires 0 <= i < |pairs| => (pairs[i].1, pairs[i].0))
  }

  /**
   * Inverting twice gives the table back, and the inverse has distinct keys
   * exactly when the table has distinct values, and the other way round.
   */
  lemma InvertInvolution<K, V>(pairs: seq<(K, V)>)
    ensures Invert(Invert(pairs)) == pairs
    ensures DistinctKeys(Invert(pairs)) <==> DistinctValues(pairs)
    ensures DistinctValues(Invert(pairs)) <==> DistinctKeys(pairs)
  {
  }

  /** Inversion of a one-to-one table is its exact converse. */
  lemma InvertIsConverse<K, V>(pairs: seq<(K, V)>, k: K, v: V)
    requires DistinctKeys(pairs) && DistinctValues(pairs)
    ensures Lookup(Invert(pairs), v) == Some(k) <==> Lookup(pairs, k) == Some(v)
  {
    var inv := Invert(pairs);
    if Lookup(pairs, k) == Some(v) {
      var i :| 0 <= i < |pairs| && pairs[i] == (k, v);
      assert inv[i] == (v, k);
      LookupDistinct(inv, i);
    }
    if Lookup(inv, v) == Some(k) {
      var i :| 0 <= i < |inv| && inv[i] == (v, k);
      assert pairs[i] == (k, v);
      LookupDistinct(pairs, i);
    }
  }

  /** The first pair with key `k` decides the lookup. */
  lemma LookupFirst<K, V>(pairs: seq<(K, V)>, i: nat, k: K)
    requires i < |pairs| && pairs[i].0 == k
    requires forall j :: 0 <= j < i ==> pairs[j].0 != k
    ensures Lookup(pairs, k) == Some(pairs[i].1)
  {
    if i > 0 {
      LookupFirst(pairs[1..], i - 1, k);
    }
  }

  /** In a table with distinct keys, each pair is what its key looks up. */
  lemma LookupDistinct<K, V>(pairs: seq<(K, V)>, i: nat)
    requires i < |pairs|
    requires forall j :: 0 <= j < |pairs| && j != i ==> pairs[j].0 != pairs[i].0
    ensures Lookup(pairs, pairs[i].0) == Some(pairs[i].1)
  {
    if i > 0 {
      LookupDistinct(pairs[1..], i - 1);
    }
  }

  /** `Series.rename(mapping)`: relabels every entry whose label is a key of `mapping`. */
  function RenameIndex<V>(table: seq<(string, V)>, mapping: seq<(string, string)>): (r: seq<(string, V)>)
    ensures |r| == |table|
    ensures forall i :: 0 <= i < |r| ==> r[i].1 == table[i].1
    ensures forall i :: 0 <= i < |r| ==>
      r[i].0 == (match Lookup(mapping, table[i].0) case Some(l) => l case None => table[i].0)
  {
    seq(|table|, i requires 0 <= i < |table| =>
      (match Lookup(mapping, table[i].0) case Some(l) => l case None => table[i].0, table[i].1))
  }

  // ---------------------------------------------------------------- the tables

  const MappingAttributes: seq<(string, string)> := [
    ("Richtung", "direction"),
    ("Sequenz", "sequence"),
    ("FZ_AB", "departure_time"),
    ("Einsteiger", "passenger_in"),
    ("Aussteiger", "passenger_out"),
    ("Besetzung", "passenger_amount"),
    ("Distanz", "distance"),
    ("Tage_DTV", "factor_average"),
    ("Tage_DWV", "factor_workingDays"),
    ("Tage_SA", "factor_saturday"),
    ("Tage_SO", "factor_sunday"),
    ("Nachtnetz", "night_flag"),
    ("Tage_SA_N", "factor_saturday_night"),
    ("Tage_SO_N", "factor_sunday_night"),
    ("VSYS", "type_transport"),
    ("Linienname_Fahrgastauskunft", "line_name"),
    ("SITZPLAETZE", "seat_capacity"),
    ("KAP_1m2", "passenger_capacity_1"),
    ("KAP_2m2", "passenger_capacity_2"),
    ("KAP_3m2", "passenger_capacity_3"),
    ("KAP_4m2", "passenger_capacity_4"),
    ("Haltestellenlangname", "stop_current")
  ]

  const VehicleClass: seq<(string, string)> := [
    ("TR", "Trolley Bus"),
    ("T", "Tram"),
    ("B", "Bus Urban"),
    ("BP", "Bus P"),
    ("BL", "Bus L"),
    ("BZ", "Bus Z"),
    ("FB", "Funicular"),
    ("N", "Night Bus"),
    ("BG", "Bus G"),
    ("SB", "Cable car")
  ]

  /** The intensity series as written, keyed by label before relabelling. */
  const IntensityByLabel: seq<(string, real)> := [
    ("Bus G", 0.097),
    ("Bus L", 0.097),
    ("Bus P", 0.097),
    ("Bus Urban", 0.097),
    ("Bus Z", 0.097),
    ("Cable car", 0.044),
    ("Funicular", 0.0245),
    ("Night bus", 0.097),
    ("Tram", 0.029),
    ("Trolley Bus", 0.097 * 0.5 + 0.047 * 0.5)
  ]

  /** The same series with the night-bus label spelt as in `VehicleClass`. */
  const IntensityByLabelCorrected: seq<(string, real)> :=
    IntensityByLabel[7 := ("Night Bus", 0.097)]

  /** `CARBON_INTENSITY_TRANSPORT_VBZ` as the source builds it: relabelled by the inverted class map. */
  const CarbonIntensityAsWritten: seq<(string, real)> := RenameIndex(IntensityByLabel, Invert(VehicleClass))

  /** The intended table, in which every vehicle class code carries an intensity. */
  const CarbonIntensityTransport: seq<(string, real)> := RenameIndex(IntensityByLabelCorrected, Invert(VehicleClass))

  /** Fleet of 35% diesel, 35% petrol, 20% electric and 10% motorbikes. */
  const FleetShares: seq<(real, real)> := [(0.171, 0.35), (0.170, 0.35), (0.047, 0.2), (0.114, 0.1)]

  const CarbonIntensityVehicleFleet: real := 0.171 * 0.35 + 0.170 * 0.35 + 0.047 * 0.2 + 0.114 * 0.1

  function WeightedSum(shares: seq<(real, real)>): real {
    if |shares| == 0 then 0.0 else shares[0].0 * shares[0].1 + WeightedSum(shares[1..])
  }

  function TotalWeight(shares: seq<(real, real)>): real {
    if |shares| == 0 then 0.0 else shares[0].1 + TotalWeight(shares[1..])
  }

  // ---------------------------------------------------------------- facts about the tables

  /** Ten codes with ten distinct labels, so the inverted map is well defined. */
  lemma VehicleClassOneToOne()
    ensures |VehicleClass| == 10
    ensures DistinctKeys(VehicleClass) && DistinctValues(VehicleClass)
  {
    CodesDistinct();
    LabelsDistinct();
  }

  lemma CodesDistinct()
    ensures forall i, j :: 0 <= i < j < |VehicleClass| ==> VehicleClass[i].0 != VehicleClass[j].0
  {
  }

  lemma LabelsDistinct()
    ensures forall i, j :: 0 <= i < j < |VehicleClass| ==> VehicleClass[i].1 != VehicleClass[j].1
  {
  }

  /** The rename map has 22 distinct sources and 22 distinct targets, so renaming never merges two columns. */
  lemma MappingAttributesOneToOne()
    ensures |MappingAttributes| == 22
    ensures DistinctKeys(MappingAttributes) && DistinctValues(MappingAttributes)
  {
    SourcesDistinct();
    TargetsDistinct();
  }

  lemma SourcesDistinct()
    ensures forall i, j :: 0 <= i < j < |MappingAttributes| ==> MappingAttributes[i].0 != MappingAttributes[j].0
  {
  }

  lemma TargetsDistinct()
    ensures forall i, j :: 0 <= i < j < |MappingAttributes| ==> MappingAttributes[i].1 != MappingAttributes[j].1
  {
  }

  /** No class label is spelt "Night bus", the spelling of the intensity series. */
  lemma NightBusNotAClassLabel()
    ensures forall i :: 0 <= i < |VehicleClass| ==> VehicleClass[i].1 != "Night bus"
  {
  }

  /** The labels the loader adds are not sources of the rename map. */
  lemma NotRenamed(c: string)
    requires c == "carbon_intensity" || c == "year" || c == "stop_next"
    ensures Lookup(MappingAttributes, c) == None
  {
    SourcesCapitalised();
    assert 'a' <= c[0] <= 'z';
  }

  /** Every source label of the rename map starts with a capital letter. */
  lemma SourcesCapitalised()
    ensures forall j :: 0 <= j < |MappingAttributes| ==>
      |MappingAttributes[j].0| > 0 && 'A' <= MappingAttributes[j].0[0] <= 'Z'
  {
  }

  /** Each source label of the rename map looks up its own target. */
  lemma RenamedTo(j: nat)
    requires j < |MappingAttributes|
    ensures Lookup(MappingAttributes, MappingAttributes[j].0) == Some(MappingAttributes[j].1)
  {
    MappingAttributesOneToOne();
    LookupDistinct(MappingAttributes, j);
  }

  /** Each class label looks up its own code in the inverted class map. */
  lemma LabelToCode(j: nat)
    requires j < |VehicleClass|
    ensures Lookup(Invert(VehicleClass), VehicleClass[j].1) == Some(VehicleClass[j].0)
  {
    VehicleClassOneToOne();
    LookupDistinct(Invert(VehicleClass), j);
  }

  /** For each row of the intensity series, the class row whose label it is meant to carry. */
  const LabelRows: seq<nat> := [8, 4, 3, 2, 5, 9, 6, 7, 1, 0]

  /** Relabelling swaps every class label for its code and leaves an unknown label as it is. */
  lemma RelabelledRow(labels: seq<(string, real)>, i: nat)
    requires |labels| == 10 && i < 10 && i != 7
    requires forall k :: 0 <= k < 10 && k != 7 ==> labels[k].0 == IntensityByLabel[k].0
    ensures RenameIndex(labels, Invert(VehicleClass))[i] == (VehicleClass[LabelRows[i]].0, labels[i].1)
  {
    var j := LabelRows[i];
    assert IntensityByLabel[i].0 == VehicleClass[j].1;
    LabelToCode(j);
  }

  /** For each class row, the row of the intensity series that carries its label. */
  const ClassRowInSeries: seq<nat> := [9, 8, 3, 2, 1, 4, 6, 7, 0, 5]

  /** As written, every row but the night-bus one is relabelled to its class code. */
  lemma AsWrittenCodes()
    ensures |CarbonIntensityAsWritten| == 10
    ensures CarbonIntensityAsWritten[7] == ("Night bus", 0.097)
    ensures forall i :: 0 <= i < 10 && i != 7 ==>
      CarbonIntensityAsWritten[i] == (VehicleClass[LabelRows[i]].0, IntensityByLabel[i].1)
  {
    var inv := Invert(VehicleClass);
    NightBusNotAClassLabel();
    assert Lookup(inv, IntensityByLabel[7].0) == None;
    var t := CarbonIntensityAsWritten;
    forall i | 0 <= i < 10 && i != 7 ensures t[i] == (VehicleClass[LabelRows[i]].0, IntensityByLabel[i].1) {
      RelabelledRow(IntensityByLabel, i);
    }
  }

  /** The relabelled series as the source builds it. */
  lemma AsWrittenTable()
    ensures CarbonIntensityAsWritten == [("BG", 0.097), ("BL", 0.097), ("BP", 0.097), ("B", 0.097),
      ("BZ", 0.097), ("SB", 0.044), ("FB", 0.0245), ("Night bus", 0.097), ("T", 0.029), ("TR", 0.072)]
  {
    var expected := [("BG", 0.097), ("BL", 0.097), ("BP", 0.097), ("B", 0.097),
      ("BZ", 0.097), ("SB", 0.044), ("FB", 0.0245), ("Night bus", 0.097), ("T", 0.029), ("TR", 0.072)];
    AsWrittenCodes();
    forall i | 0 <= i < 10 ensures CarbonIntensityAsWritten[i] == expected[i] {
    }
    assert CarbonIntensityAsWritten == expected;
  }

  /** Once the night-bus label is spelt as the class map spells it, every row is relabelled to its code. */
  lemma CorrectedCodes()
    ensures |CarbonIntensityTransport| == 10
    ensures forall i :: 0 <= i < 10 ==>
      CarbonIntensityTransport[i] == (VehicleClass[LabelRows[i]].0, IntensityByLabelCorrected[i].1)
  {
    var t := CarbonIntensityTransport;
    var fixed := IntensityByLabelCorrected;
    forall i | 0 <= i < 10 ensures t[i] == (VehicleClass[LabelRows[i]].0, fixed[i].1) {
      if i == 7 {
        assert fixed[7].0 == VehicleClass[7].1;
        LabelToCode(7);
      } else {
        RelabelledRow(fixed, i);
      }
    }
  }

  /** The relabelled series once the night-bus label is spelt as the class map spells it. */
  lemma CorrectedTable()
    ensures CarbonIntensityTransport == [("BG", 0.097), ("BL", 0.097), ("BP", 0.097), ("B", 0.097),
      ("BZ", 0.097), ("SB", 0.044), ("FB", 0.0245), ("N", 0.097), ("T", 0.029), ("TR", 0.072)]
  {
    var expected := [("BG", 0.097), ("BL", 0.097), ("BP", 0.097), ("B", 0.097),
      ("BZ", 0.097), ("SB", 0.044), ("FB", 0.0245), ("N", 0.097), ("T", 0.029), ("TR", 0.072)];
    CorrectedCodes();
    forall i | 0 <= i < 10 ensures CarbonIntensityTransport[i] == expected[i] {
    }
    assert CarbonIntensityTransport == expected;
  }

  /** Lookups in a table that carries the class codes at the rows `ClassRowInSeries` names. */
  lemma CodesLookUp(t: seq<(string, real)>, skip: int)
    requires |t| == 10
    requires forall i :: 0 <= i < 10 && i != skip ==> t[ClassRowInSeries[i]].0 == VehicleClass[i].0
    ensures forall i :: 0 <= i < |VehicleClass| && i != skip ==> Lookup(t, VehicleClass[i].0).Some?
  {
    forall i | 0 <= i < |VehicleClass| && i != skip ensures Lookup(t, VehicleClass[i].0).Some? {
      var j := ClassRowInSeries[i];
      assert t[j].0 == VehicleClass[i].0;
    }
  }

  /**
   * As written, the label "Night bus" does not match the class label
   * "Night Bus": that row keeps its label and code "N" has no intensity,
   * while every other class code has one.
   */
  lemma NightBusHasNoIntensity()
    ensures Lookup(CarbonIntensityAsWritten, "N") == None
    ensures Lookup(CarbonIntensityAsWritten, "Night bus") == Some(0.097)
    ensures forall i :: 0 <= i < |VehicleClass| && VehicleClass[i].0 != "N" ==>
      Lookup(CarbonIntensityAsWritten, VehicleClass[i].0).Some?
  {
    AsWrittenTable();
    NightBusRows(CarbonIntensityAsWritten);
  }

  lemma NightBusRows(t: seq<(string, real)>)
    requires t == [("BG", 0.097), ("BL", 0.097), ("BP", 0.097), ("B", 0.097),
      ("BZ", 0.097), ("SB", 0.044), ("FB", 0.0245), ("Night bus", 0.097), ("T", 0.029), ("TR", 0.072)]
    ensures Lookup(t, "N") == None
    ensures Lookup(t, "Night bus") == Some(0.097)
    ensures forall i :: 0 <= i < |VehicleClass| && VehicleClass[i].0 != "N" ==> Lookup(t, VehicleClass[i].0).Some?
  {
    assert forall i :: 0 <= i < |t| ==> t[i].0 != "N";
    LookupFirst(t, 7, "Night bus");
    CodesLookUp(t, 7);
    assert VehicleClass[7].0 == "N";
  }

  /** With the label spelt as the class map spells it, every class code has an intensity. */
  lemma EveryClassHasIntensity()
    ensures forall i :: 0 <= i < |VehicleClass| ==> Lookup(CarbonIntensityTransport, VehicleClass[i].0).Some?
    ensures Lookup(CarbonIntensityTransport, "N") == Some(0.097)
    ensures DistinctKeys(CarbonIntensityTransport)
  {
    CorrectedCodes();
    CorrectedRows(CarbonIntensityTransport);
  }

  lemma CorrectedRows(t: seq<(string, real)>)
    requires |t| == 10 && t[7].1 == 0.097
    requires forall i :: 0 <= i < 10 ==> t[i].0 == VehicleClass[LabelRows[i]].0
    ensures forall i :: 0 <= i < |VehicleClass| ==> Lookup(t, VehicleClass[i].0).Some?
    ensures Lookup(t, "N") == Some(0.097)
    ensures DistinctKeys(t)
  {
    forall i | 0 <= i < 10 ensures t[ClassRowInSeries[i]].0 == VehicleClass[i].0 {
      assert LabelRows[ClassRowInSeries[i]] == i;
    }
    CodesLookUp(t, -1);
    SeriesCodesDistinct(t);
    assert t[7].0 == "N";
    LookupDistinct(t, 7);
  }

  /** A table whose rows carry the class codes in the order `LabelRows` gives has distinct keys. */
  lemma SeriesCodesDistinct(t: seq<(string, real)>)
    requires |t| == 10
    requires forall i :: 0 <= i < 10 ==> t[i].0 == VehicleClass[LabelRows[i]].0
    ensures DistinctKeys(t)
  {
    VehicleClassOneToOne();
    forall i, j | 0 <= i < j < |t| ensures t[i].0 != t[j].0 {
      assert LabelRows[i] != LabelRows[j];
    }
  }

  /** As written, the relabelled series still has ten distinct keys: nine class codes and "Night bus". */
  lemma AsWrittenKeysDistinct()
    ensures DistinctKeys(CarbonIntensityAsWritten)
  {
    AsWrittenCodes();
    AsWrittenRowsDistinct(CarbonIntensityAsWritten);
  }

  lemma AsWrittenRowsDistinct(t: seq<(string, real)>)
    requires |t| == 10 && t[7].0 == "Night bus"
    requires forall i :: 0 <= i < 10 && i != 7 ==> t[i].0 == VehicleClass[LabelRows[i]].0
    ensures DistinctKeys(t)
  {
    VehicleClassOneToOne();
    NightBusNotACode();
    forall i, j | 0 <= i < j < |t| ensures t[i].0 != t[j].0 {
      if i != 7 && j != 7 {
        assert LabelRows[i] != LabelRows[j];
      }
    }
  }

  lemma NightBusNotACode()
    ensures forall k :: 0 <= k < |VehicleClass| ==> VehicleClass[k].0 != "Night bus"
  {
    forall k | 0 <= k < |VehicleClass| ensures VehicleClass[k].0 != "Night bus" {
      assert |VehicleClass[k].0| <= 2;
    }
  }

  /** The trolley-bus intensity is the mean of the diesel-bus and electric figures. */
  lemma TrolleyBusIsMean()
    ensures Lookup(CarbonIntensityTransport, "TR") == Some((0.097 + 0.047) / 2.0)
  {
    CorrectedTable();
    LookupFirst(CarbonIntensityTransport, 9, "TR");
  }

  /** The fleet intensity is the share-weighted mean of its four vehicle types. */
  lemma FleetIntensityIsWeightedMean()
    ensures TotalWeight(FleetShares) == 1.0
    ensures CarbonIntensityVehicleFleet == WeightedSum(FleetShares) / TotalWeight(FleetShares)
    ensures CarbonIntensityVehicleFleet == 0.14015
  {
  }
}

=== FILE: strings.dfy ===
/**
 * The parts of Python's `str` behaviour the pipeline relies on: `split`
 * with a one-character separator, `find`, slicing with negative and
 * out-of-range bounds, and `str()` of a non-negative integer.
 */
module Strings {

  predicate IsDigit(c: char) { '0' <= c <= '9' }

  function DigitValue(c: char): nat
    requires IsDigit(c)
  {
    c as int - '0' as int
  }

  function DigitChar(d: nat): (c: char)
    requires d < 10
    ensures IsDigit(c) && DigitValue(c) == d
  {
    ('0' as int + d) as char
  }

  predicate AllDigits(s: string) {
    forall i :: 0 <= i < |s| ==> IsDigit(s[i])
  }

  /** The value of a run of decimal digits, most significant first. */
  function DigitsValue(s: string): nat
    requires AllDigits(s)
  {
    if |s| == 0 then 0 else 10 * DigitsValue(s[..|s| - 1]) + DigitValue(s[|s| - 1])
  }

  /** `str(n)` for `n >= 0`: decimal digits without padding or sign. */
  function NatToDecimal(n: nat): (s: string)
    ensures |s| >= 1 && AllDigits(s)
    ensures DigitsValue(s) == n
    ensures n < 10 <==> |s| == 1
    ensures n >= 10 ==> s[0] != '0'
  {
    if n < 10 then [DigitChar(n)]
    else
      var s := NatToDecimal(n / 10) + [DigitChar(n % 10)];
      assert s[..|s| - 1] == NatToDecimal(n / 10);
      s
  }

  // ---------------------------------------------------------------- split

  /** `s.split(sep)`: the pieces between occurrences of `sep`, in order. */
  function Split(s: string, sep: char): (r: seq<string>)
    ensures |r| >= 1
    ensures forall i, j :: 0 <= i < |r| && 0 <= j < |r[i]| ==> r[i][j] != sep
  {
    if |s| == 0 then [""]
    else if s[0] == sep then [""] + Split(s[1..], sep)
    else
      var rest := Split(s[1..], sep);
      [[s[0]] + rest[0]] + rest[1..]
  }

  /** `sep.join(pieces)`. */
  function Join(pieces: seq<string>, sep: char): (r: string)
    requires |pieces| >= 1
  {
    if |pieces| == 1 then pieces[0] else pieces[0] + [sep] + Join(pieces[1..], sep)
  }

  /** A join starts with the first piece and the separator, and ends with the last piece. */
  lemma {:induction false} JoinEnds(pieces: seq<string>, sep: char)
    requires |pieces| >= 1
    ensures var r := Join(pieces, sep);
      && |r| >= |pieces[0]| && r[..|pieces[0]|] == pieces[0]
      && (|pieces| > 1 ==> |r| > |pieces[0]| && r[|pieces[0]|] == sep)
      && |r| >= |pieces[|pieces| - 1]| && r[|r| - |pieces[|pieces| - 1]|..] == pieces[|pieces| - 1]
  {
    if |pieces| > 1 {
      JoinEnds(pieces[1..], sep);
      var rest := Join(pieces[1..], sep);
      var last := pieces[|pieces| - 1];
      assert last == pieces[1..][|pieces[1..]| - 1];
      assert (pieces[0] + [sep] + rest)[|pieces[0] + [sep] + rest| - |last|..] == rest[|rest| - |last|..];
    }
  }

  predicate Free(s: string, c: char) {
    forall i :: 0 <= i < |s| ==> s[i] != c
  }

  /** A string without the separator is one piece. */
  lemma {:induction false} SplitFree(s: string, sep: char)
    requires Free(s, sep)
    ensures Split(s, sep) == [s]
  {
    if |s| > 0 {
      SplitFree(s[1..], sep);
      assert [s[0]] + s[1..] == s;
    }
  }

  /** Splitting at the first separator peels off the piece before it. */
  lemma {:induction false} SplitFirst(a: string, sep: char, b: string)
    requires Free(a, sep)
    ensures Split(a + [sep] + b, sep) == [a] + Split(b, sep)
  {
    if |a| == 0 {
      assert a + [sep] + b == [sep] + b;
      assert ([sep] + b)[1..] == b;
    } else {
      assert (a + [sep] + b)[1..] == a[1..] + [sep] + b;
      SplitFirst(a[1..], sep, b);
      assert [a[0]] + a[1..] == a;
    }
  }

  /** `split` undoes `join` when no piece holds the separator. */
  lemma {:induction false} SplitJoin(pieces: seq<string>, sep: char)
    requires |pieces| >= 1
    requires forall i :: 0 <= i < |pieces| ==> Free(pieces[i], sep)
    ensures Split(Join(pieces, sep), sep) == pieces
  {
    if |pieces| == 1 {
      SplitFree(pieces[0], sep);
    } else {
      SplitJoin(pieces[1..], sep);
      SplitFirst(pieces[0], sep, Join(pieces[1..], sep));
      assert [pieces[0]] + pieces[1..] == pieces;
    }
  }

  /** `join` undoes `split`: no character is lost or moved. */
  lemma {:induction false} JoinSplit(s: string, sep: char)
    ensures Join(Split(s, sep), sep) == s
  {
    if |s| > 0 {
      JoinSplit(s[1..], sep);
      if s[0] != sep {
        var rest := Split(s[1..], sep);
        var r := Split(s, sep);
        assert r[1..] == rest[1..];
        if |rest| > 1 {
          assert rest == [rest[0]] + rest[1..];
        }
      }
    }
  }

  // ---------------------------------------------------------------- find and slices

  predicate OccursAt(s: string, pat: string, i: int) {
    0 <= i && i + |pat| <= |s| && s[i..i + |pat|] == pat
  }

  /** `s.find(pat)`: the lowest index where `pat` occurs, or -1. */
  function Find(s: string, pat: string): (r: int)
    ensures r == -1 || OccursAt(s, pat, r)
    ensures r == -1 <==> forall i :: 0 <= i <= |s| ==> !OccursAt(s, pat, i)
    ensures r >= 0 ==> forall i :: 0 <= i < r ==> !OccursAt(s, pat, i)
  {
    FindFrom(s, pat, 0)
  }

  function FindFrom(s: string, pat: string, from: nat): (r: int)
    requires from <= |s| + 1
    requires forall i :: 0 <= i < from ==> !OccursAt(s, pat, i)
    ensures r == -1 || (from <= r && OccursAt(s, pat, r))
    ensures r == -1 <==> forall i :: 0 <= i <= |s| ==> !OccursAt(s, pat, i)
    ensures r >= 0 ==> forall i :: 0 <= i < r ==> !OccursAt(s, pat, i)
    decreases |s| + 1 - from
  {
    if from + |pat| > |s| then -1
    else if s[from..from + |pat|] == pat then from
    else FindFrom(s, pat, from + 1)
  }

  /** A slice bound as Python normalises it: negative counts from the end, then clamp. */
  function SliceBound(i: int, len: nat): (r: nat)
    ensures r <= len
  {
    if i < 0 then (if i + len < 0 then 0 else i + len)
    else if i > len then len
    else i
  }

  /**
   * `s[start:stop]` with Python's bound rules; never raises. In-range bounds
   * slice as written, a stop past the end means "to the end", a negative
   * start counts back from the end, and bounds that cross give "".
   */
  function Slice(s: string, start: int, stop: int): (r: string)
    ensures |r| <= |s|
    ensures 0 <= start <= stop <= |s| ==> r == s[start..stop]
    ensures 0 <= start <= |s| <= stop ==> r == s[start..]
    ensures -|s| <= start < 0 && |s| <= stop ==> r == s[|s| + start..]
    ensures 0 <= stop <= start ==> r == ""
  {
    var a, b := SliceBound(start, |s|), SliceBound(stop, |s|);
    if a >= b then "" else s[a..b]
  }
}

=== FILE: tables.dfy ===
/**
 * Table operations the pipeline borrows from pandas, on tables modelled as
 * sequences of rows: `merge(how="left")` and `drop_duplicates()`.
 * A left join pairs each left row with a right row or with a missing value
 * (pandas' NaN), which the model writes as `None`.
 */
module Tables {
  import opened Wrappers

  predicate Distinct<T(==)>(xs: seq<T>) {
    forall i, j :: 0 <= i < j < |xs| ==> xs[i] != xs[j]
  }

  // ------------------------------------------------------------- left join

  /** The right rows whose key is `k`, in right-table order. */
  function Matches<R, K(==)>(right: seq<R>, rk: R -> K, k: K): (m: seq<R>)
    ensures |m| <= |right|
    ensures forall i :: 0 <= i < |m| ==> m[i] in right && rk(m[i]) == k
    ensures |m| == 0 <==> forall j :: 0 <= j < |right| ==> rk(right[j]) != k
  {
    if |right| == 0 then []
    else
      var rest := Matches(right[1..], rk, k);
      assert forall j :: 1 <= j < |right| ==> right[j] == right[1..][j - 1];
      if rk(right[0]) == k then [right[0]] + rest else rest
  }

  /** No right row carries key `k`. */
  predicate NoMatch<R, K(==)>(right: seq<R>, rk: R -> K, k: K) {
    forall i :: 0 <= i < |right| ==> rk(right[i]) != k
  }

  /** An output row of a left join: a left row with a matching right row, or with none if none matches. */
  ghost predicate Joined<L, R, K>(row: (L, Option<R>), left: seq<L>, right: seq<R>, lk: L -> K, rk: R -> K) {
    && row.0 in left
    && (row.1.Some? ==> row.1.value in right && rk(row.1.value) == lk(row.0))
    && (row.1.None? ==> NoMatch(right, rk, lk(row.0)))
  }

  /** The output rows one left row contributes: one per match, or one unmatched row. */
  function Expand<L, R, K(==)>(l: L, right: seq<R>, lk: L -> K, rk: R -> K): (e: seq<(L, Option<R>)>)
    ensures |e| >= 1
    ensures forall j :: 0 <= j < |e| ==> Joined(e[j], [l], right, lk, rk)
  {
    var m := Matches(right, rk, lk(l));
    if |m| == 0 then [(l, None)]
    else seq(|m|, i requires 0 <= i < |m| => (l, Some(m[i])))
  }

  /**
   * `pd.merge(left, right, how="left", left_on=lk, right_on=rk)`: left rows
   * in order, each followed through all its matches in right-table order.
   */
  function LeftJoin<L, R, K(==)>(left: seq<L>, right: seq<R>, lk: L -> K, rk: R -> K)
    : (out: seq<(L, Option<R>)>)
    ensures |out| >= |left|
    ensures forall j :: 0 <= j < |out| ==> Joined(out[j], left, right, lk, rk)
  {
    if |left| == 0 then []
    else
      var e := Expand(left[0], right, lk, rk);
      var rest := LeftJoin(left[1..], right, lk, rk);
      JoinedAppend(e, rest, left[0], left[1..], right, lk, rk);
      assert [left[0]] + left[1..] == left;
      e + rest
  }

  /** The rows of one left row followed by the rows of the others are rows of the whole join. */
  lemma JoinedAppend<L, R, K>(e: seq<(L, Option<R>)>, rest: seq<(L, Option<R>)>, l: L, tail: seq<L>,
                              right: seq<R>, lk: L -> K, rk: R -> K)
    requires forall j :: 0 <= j < |e| ==> Joined(e[j], [l], right, lk, rk)
    requires forall j :: 0 <= j < |rest| ==> Joined(rest[j], tail, right, lk, rk)
    ensures forall j :: 0 <= j < |e + rest| ==> Joined((e + rest)[j], [l] + tail, right, lk, rk)
  {
    forall j | 0 <= j < |e + rest| ensures Joined((e + rest)[j], [l] + tail, right, lk, rk) {
      if j < |e| {
        assert (e + rest)[j] == e[j];
      } else {
        assert (e + rest)[j] == rest[j - |e|];
      }
    }
  }

  /** Joining a concatenation joins the parts separately: rows never move across each other. */
  lemma {:induction false} LeftJoinAppend<L, R, K>(a: seq<L>, b: seq<L>, right: seq<R>, lk: L -> K, rk: R -> K)
    ensures LeftJoin(a + b, right, lk, rk) == LeftJoin(a, right, lk, rk) + LeftJoin(b, right, lk, rk)
  {
    if |a| > 0 {
      assert (a + b)[1..] == a[1..] + b;
      LeftJoinAppend(a[1..], b, right, lk, rk);
    } else {
      assert a + b == b;
    }
  }

  /** No left row is dropped: each one leads at least one output row. */
  lemma LeftJoinKeepsEveryRow<L, R, K>(left: seq<L>, right: seq<R>, lk: L -> K, rk: R -> K, i: nat)
    requires i < |left|
    ensures exists j :: 0 <= j < |LeftJoin(left, right, lk, rk)| && LeftJoin(left, right, lk, rk)[j].0 == left[i]
  {
    var front := LeftJoin(left[..i], right, lk, rk);
    assert left == left[..i] + left[i..];
    LeftJoinAppend(left[..i], left[i..], right, lk, rk);
    var back := LeftJoin(left[i..], right, lk, rk);
    assert back[0].0 == left[i];
    assert LeftJoin(left, right, lk, rk)[|front|] == back[0];
  }

  /** Every right row with key `k` is among the matches. */
  lemma {:induction false} MatchesComplete<R, K>(right: seq<R>, rk: R -> K, k: K, r: R)
    requires r in right && rk(r) == k
    ensures r in Matches(right, rk, k)
  {
    if right[0] != r {
      assert r in right[1..];
      MatchesComplete(right[1..], rk, k, r);
    }
  }

  /**
   * A left row is paired with every right row carrying its key, and with a
   * missing value when there is none: no match is dropped.
   */
  lemma LeftJoinComplete<L, R, K>(left: seq<L>, right: seq<R>, lk: L -> K, rk: R -> K, i: nat)
    requires i < |left|
    ensures forall r :: r in right && rk(r) == lk(left[i]) ==> (left[i], Some(r)) in LeftJoin(left, right, lk, rk)
    ensures NoMatch(right, rk, lk(left[i])) ==> (left[i], None) in LeftJoin(left, right, lk, rk)
  {
    assert left == left[..i] + left[i..];
    LeftJoinAppend(left[..i], left[i..], right, lk, rk);
    var front := LeftJoin(left[..i], right, lk, rk);
    var e := Expand(left[i], right, lk, rk);
    assert left[i..][0] == left[i];
    assert LeftJoin(left[i..], right, lk, rk)[..|e|] == e;
    var m := Matches(right, rk, lk(left[i]));
    forall r | r in right && rk(r) == lk(left[i])
      ensures (left[i], Some(r)) in LeftJoin(left, right, lk, rk)
    {
      MatchesComplete(right, rk, lk(left[i]), r);
      var t :| 0 <= t < |m| && m[t] == r;
      assert e[t] == (left[i], Some(r));
      assert LeftJoin(left, right, lk, rk)[|front| + t] == e[t];
    }
    if NoMatch(right, rk, lk(left[i])) {
      assert e[0] == (left[i], None);
      assert LeftJoin(left, right, lk, rk)[|front|] == e[0];
    }
  }

  /** The number of output rows: each left row contributes its match count, or one row when it has none. */
  function JoinSize<L, R, K(==)>(left: seq<L>, right: seq<R>, lk: L -> K, rk: R -> K): nat {
    if |left| == 0 then 0
    else
      var n := |Matches(right, rk, lk(left[0]))|;
      (if n == 0 then 1 else n) + JoinSize(left[1..], right, lk, rk)
  }

  lemma {:induction false} LeftJoinCount<L, R, K>(left: seq<L>, right: seq<R>, lk: L -> K, rk: R -> K)
    ensures |LeftJoin(left, right, lk, rk)| == JoinSize(left, right, lk, rk)
  {
    if |left| > 0 {
      LeftJoinCount(left[1..], right, lk, rk);
    }
  }

  predicate UniqueKeys<R, K(==)>(right: seq<R>, rk: R -> K) {
    forall i, j :: 0 <= i < j < |right| ==> rk(right[i]) != rk(right[j])
  }

  /** The right row carrying key `k`, if there is one (the first, if several). */
  function FirstMatch<R, K(==)>(right: seq<R>, rk: R -> K, k: K): (r: Option<R>)
    ensures r.None? <==> forall j :: 0 <= j < |right| ==> rk(right[j]) != k
    ensures r.Some? ==> r.value in right && rk(r.value) == k
  {
    if |right| == 0 then None
    else if rk(right[0]) == k then Some(right[0])
    else
      assert forall j :: 1 <= j < |right| ==> right[j] == right[1..][j - 1];
      FirstMatch(right[1..], rk, k)
  }

  lemma {:induction false} UniqueMatches<R, K>(right: seq<R>, rk: R -> K, k: K)
    requires UniqueKeys(right, rk)
    ensures FirstMatch(right, rk, k).None? ==> Matches(right, rk, k) == []
    ensures FirstMatch(right, rk, k).Some? ==> Matches(right, rk, k) == [FirstMatch(right, rk, k).value]
  {
    if |right| > 0 {
      UniqueMatches(right[1..], rk, k);
      if rk(right[0]) == k {
        assert forall j :: 0 <= j < |right[1..]| ==> rk(right[1..][j]) != k by {
          forall j | 0 <= j < |right[1..]| ensures rk(right[1..][j]) != k {
            assert right[1..][j] == right[j + 1];
          }
        }
      }
    }
  }

  /**
   * With unique right keys a left join is a lookup: one output row per left
   * row, in left order, carrying the matching right row or `None`.
   */
  lemma {:induction false} LeftJoinUnique<L, R, K>(left: seq<L>, right: seq<R>, lk: L -> K, rk: R -> K)
    requires UniqueKeys(right, rk)
    ensures |LeftJoin(left, right, lk, rk)| == |left|
    ensures forall i :: 0 <= i < |left| ==>
      LeftJoin(left, right, lk, rk)[i] == (left[i], FirstMatch(right, rk, lk(left[i])))
  {
    if |left| > 0 {
      LeftJoinUnique(left[1..], right, lk, rk);
      ExpandUnique(left[0], right, lk, rk);
      var out := LeftJoin(left, right, lk, rk);
      var rest := LeftJoin(left[1..], right, lk, rk);
      assert out == [(left[0], FirstMatch(right, rk, lk(left[0])))] + rest;
      forall i | 1 <= i < |left|
        ensures out[i] == (left[i], FirstMatch(right, rk, lk(left[i])))
      {
        assert out[i] == rest[i - 1];
        assert left[1..][i - 1] == left[i];
      }
    }
  }

  /** With unique right keys a left row expands to exactly one output row. */
  lemma ExpandUnique<L, R, K>(l: L, right: seq<R>, lk: L -> K, rk: R -> K)
    requires UniqueKeys(right, rk)
    ensures Expand(l, right, lk, rk) == [(l, FirstMatch(right, rk, lk(l)))]
  {
    UniqueMatches(right, rk, lk(l));
  }

  /** A key matched by two right rows duplicates its left row. */
  lemma DuplicateKeyDuplicatesRow<L, R, K>(l: L, r1: R, r2: R, lk: L -> K, rk: R -> K)
    requires rk(r1) == lk(l) && rk(r2) == lk(l)
    ensures LeftJoin([l], [r1, r2], lk, rk) == [(l, Some(r1)), (l, Some(r2))]
  {
    var right := [r1, r2];
    assert right[1..] == [r2];
    assert right[1..][1..] == [];
    assert Matches(right, rk, lk(l)) == [r1, r2];
    assert LeftJoin([l], right, lk, rk) == Expand(l, right, lk, rk) + LeftJoin([l][1..], right, lk, rk);
  }

  // ------------------------------------------------------- drop duplicates

  /** `drop_duplicates()` (keep="first"): the first occurrence of every row, in order. */
  function Dedup<T(==)>(s: seq<T>): (r: seq<T>)
    ensures Distinct(r)
    ensures forall i :: 0 <= i < |r| ==> r[i] in s
    ensures forall i :: 0 <= i < |s| ==> s[i] in r
    ensures |r| <= |s|
  {
    if |s| == 0 then []
    else
      var p := Dedup(s[..|s| - 1]);
      assert forall i :: 0 <= i < |s| - 1 ==> s[i] == s[..|s| - 1][i];
      if s[|s| - 1] in p then p else p + [s[|s| - 1]]
  }

  /** The index of the first occurrence of `x` in `s`. */
  function FirstIndex<T(==)>(s: seq<T>, x: T): (i: nat)
    requires x in s
    ensures i < |s| && s[i] == x
    ensures forall j :: 0 <= j < i ==> s[j] != x
  {
    if s[0] == x then 0 else 1 + FirstIndex(s[1..], x)
  }

  lemma FirstIndexPrefix<T>(s: seq<T>, n: nat, x: T)
    requires n <= |s| && x in s[..n]
    ensures x in s && FirstIndex(s, x) == FirstIndex(s[..n], x)
  {
    var i := FirstIndex(s[..n], x);
    assert s[i] == x;
    var k := FirstIndex(s, x);
    assert k <= i;
    assert s[..n][k] == x;
  }

  /** Deduplication keeps rows in the order of their first occurrences. */
  lemma {:induction false} DedupKeepsFirstOrder<T>(s: seq<T>)
    ensures forall i, j :: 0 <= i < j < |Dedup(s)| ==>
      FirstIndex(s, Dedup(s)[i]) < FirstIndex(s, Dedup(s)[j])
  {
    if |s| > 0 {
      var init := s[..|s| - 1];
      var p := Dedup(init);
      DedupKeepsFirstOrder(init);
      assert s[..|s| - 1] == init;
      forall x | x in init ensures FirstIndex(s, x) == FirstIndex(init, x) {
        assert init == s[..|s| - 1];
        FirstIndexPrefix(s, |s| - 1, init[FirstIndex(init, x)]);
      }
      if s[|s| - 1] !in p {
        var last := s[|s| - 1];
        assert FirstIndex(s, last) == |s| - 1 by {
          assert last !in init;
        }
      }
    }
  }

  /** Deduplicating twice changes nothing. */
  lemma DedupIdempotent<T>(s: seq<T>)
    ensures Dedup(Dedup(s)) == Dedup(s)
  {
    DedupOfDistinct(Dedup(s));
  }

  /** A table without repeated rows is left as it is. */
  lemma {:induction false} DedupOfDistinct<T>(s: seq<T>)
    requires Distinct(s)
    ensures Dedup(s) == s
  {
    if |s| > 0 {
      var init := s[..|s| - 1];
      assert Distinct(init);
      DedupOfDistinct(init);
      assert s[|s| - 1] !in init;
      assert init + [s[|s| - 1]] == s;
    }
  }

  /** The same deduplication done with a set of rows already seen. */
  method DropDuplicates<T(==)>(s: seq<T>) returns (r: seq<T>)
    ensures r == Dedup(s)
  {
    r := [];
    var seen: set<T> := {};
    var i := 0;
    while i < |s|
      invariant 0 <= i <= |s|
      invariant r == Dedup(s[..i])
      invariant forall x :: x in seen <==> x in r
    {
      assert s[..i + 1][..i] == s[..i];
      if s[i] !in seen {
        r := r + [s[i]];
        seen := seen + {s[i]};
      }
      i := i + 1;
    }
    assert s[..i] == s;
  }

  // ------------------------------------------------------ element-wise map

  /** Some element makes `f` fail with `e`, and every element before it succeeds. */
  ghost predicate FailsFirstAt<A, B, E>(xs: seq<A>, f: A -> Result<B, E>, e: E) {
    exists i :: 0 <= i < |xs| && f(xs[i]) == Failure(e) && forall k :: 0 <= k < i ==> f(xs[k]).Success?
  }

  /**
   * `Series.map(f)` for an `f` that may raise: the results in order, or the
   * error of the first element `f` fails on.
   */
  function MapAll<A, B, E>(xs: seq<A>, f: A -> Result<B, E>): (r: Result<seq<B>, E>)
    ensures r.Success? <==> forall i :: 0 <= i < |xs| ==> f(xs[i]).Success?
    ensures r.Success? ==> |r.value| == |xs| && forall i :: 0 <= i < |xs| ==> f(xs[i]) == Success(r.value[i])
    ensures r.Failure? ==> FailsFirstAt(xs, f, r.error)
  {
    if |xs| == 0 then Success([])
    else
      match f(xs[0])
      case Failure(e) => Failure(e)
      case Success(y) =>
        var rest := MapAll(xs[1..], f);
        assert forall i :: 1 <= i < |xs| ==> xs[i] == xs[1..][i - 1];
        match rest
        case Failure(e) =>
          assert FailsFirstAt(xs, f, e) by {
            var i :| 0 <= i < |xs[1..]| && f(xs[1..][i]) == Failure(e) && forall k :: 0 <= k < i ==> f(xs[1..][k]).Success?;
            assert f(xs[i + 1]) == Failure(e);
          }
          Failure(e)
        case Success(ys) => Success([y] + ys)
  }
}

=== FILE: time_repair.dfy ===
/**
 * Departure-time repair of the cleaning stage (`adjust_invalid_times`) and
 * the `%H:%M:%S` parse that follows it. Times of day are whole seconds after
 * midnight.
 */
module TimeRepair {
  import opened Wrappers
  import opened Strings

  const SecondsPerDay := 86400

  type Seconds = t: nat | t < 86400

  datatype TimeError =
    | NotAnInteger(text: string)   // `int(time_str[:2])` raised ValueError
    | NotATime(text: string)       // the `%H:%M:%S` parse raised ValueError

  // ---------------------------------------------------------------- int()

  /** The whitespace `int()` strips from both ends (its ASCII and Latin-1 members). */
  predicate IsPySpace(c: char) {
    c == ' ' || '\t' <= c <= '\r' || '\U{1C}' <= c <= '\U{1F}' || c == '\U{85}' || c == '\U{A0}'
  }

  function StripSpace(s: string): (r: string)
    ensures |r| <= |s|
    ensures |r| > 0 ==> !IsPySpace(r[0]) && !IsPySpace(r[|r| - 1])
    decreases |s|
  {
    if |s| > 0 && IsPySpace(s[0]) then StripSpace(s[1..])
    else if |s| > 0 && IsPySpace(s[|s| - 1]) then StripSpace(s[..|s| - 1])
    else s
  }

  /** Digits, with single underscores allowed between two digits. */
  predicate IsDigitGroup(s: string) {
    && |s| > 0 && IsDigit(s[0]) && IsDigit(s[|s| - 1])
    && (forall i :: 0 <= i < |s| ==> IsDigit(s[i]) || s[i] == '_')
    && (forall i :: 0 <= i < |s| - 1 && s[i] == '_' ==> IsDigit(s[i + 1]))
  }

  function DropUnderscores(s: string): (r: string)
    requires forall i :: 0 <= i < |s| ==> IsDigit(s[i]) || s[i] == '_'
    ensures AllDigits(r)
  {
    if |s| == 0 then ""
    else if s[0] == '_' then DropUnderscores(s[1..])
    else [s[0]] + DropUnderscores(s[1..])
  }

  /** Underscores are all a run of digits could lose. */
  lemma {:induction false} DropUnderscoresOfDigits(s: string)
    requires AllDigits(s)
    ensures DropUnderscores(s) == s
  {
    if |s| > 0 {
      DropUnderscoresOfDigits(s[1..]);
      assert [s[0]] + s[1..] == s;
    }
  }

  /**
   * `int(s)` on a `str` with base 10 (non-ASCII decimal digits left aside):
   * blank text raises, a run of digits reads as its value, and a minus sign
   * before one reads as its negation.
   */
  function ParsePyInt(s: string): (r: Option<int>)
    ensures |StripSpace(s)| == 0 ==> r.None?
    ensures |s| > 0 && AllDigits(s) ==> r == Some(DigitsValue(s))
    ensures |s| > 1 && s[0] == '-' && AllDigits(s[1..]) ==> r == Some(-(DigitsValue(s[1..]) as int))
  {
    assert |s| > 0 && AllDigits(s) ==> StripSpace(s) == s && DropUnderscores(s) == s by {
      if |s| > 0 && AllDigits(s) { DropUnderscoresOfDigits(s); }
    }
    assert |s| > 1 && s[0] == '-' && AllDigits(s[1..]) ==> StripSpace(s) == s && DropUnderscores(s[1..]) == s[1..] by {
      if |s| > 1 && s[0] == '-' && AllDigits(s[1..]) {
        assert s[|s| - 1] == s[1..][|s| - 2];
        DropUnderscoresOfDigits(s[1..]);
      }
    }
    var t := StripSpace(s);
    if |t| > 0 && (t[0] == '+' || t[0] == '-') then
      if IsDigitGroup(t[1..]) then
        var v: int := DigitsValue(DropUnderscores(t[1..]));
        Some(if t[0] == '-' then -v else v)
      else None
    else if IsDigitGroup(t) then Some(DigitsValue(DropUnderscores(t)))
    else None
  }

  /** `int()` of two decimal digits is their value. */
  lemma ParseTwoDigits(s: string)
    requires |s| == 2 && AllDigits(s)
    ensures ParsePyInt(s) == Some(10 * DigitValue(s[0]) + DigitValue(s[1]))
  {
    assert StripSpace(s) == s;
    assert IsDigitGroup(s);
    assert DropUnderscores(s[1..]) == s[1..];
    assert DropUnderscores(s) == s;
    assert s[..1] == [s[0]];
    assert s[..1][..0] == [];
    assert DigitsValue(s[..1]) == DigitValue(s[0]);
  }

  /** `int()` of a digit followed by a colon raises. */
  lemma DigitColonIsNotAnInteger(s: string)
    requires |s| == 2 && IsDigit(s[0]) && s[1] == ':'
    ensures ParsePyInt(s) == None
  {
    assert StripSpace(s) == s;
  }

  // ---------------------------------------------------------------- adjust_invalid_times

  /** The first two characters, as `time_str[:2]` gives them. */
  function HourField(s: string): string {
    if |s| <= 2 then s else s[..2]
  }

  /**
   * `adjust_invalid_times`: reads an hour from the first two characters and,
   * when it is 24 or more, replaces them with `str(hour - 24)` and keeps the
   * rest of the string verbatim. Any other string is returned unchanged.
   */
  function AdjustInvalidTimes(s: string): (r: Result<string, TimeError>)
    ensures ParsePyInt(HourField(s)).None? <==> r.Failure?
    ensures ParsePyInt(HourField(s)).Some? && ParsePyInt(HourField(s)).value < 24 ==> r == Success(s)
    ensures ParsePyInt(HourField(s)).Some? && ParsePyInt(HourField(s)).value >= 24 ==>
      |s| >= 2 && r == Success(NatToDecimal(ParsePyInt(HourField(s)).value - 24) + s[2..])
  {
    var field := HourField(s);
    match ParsePyInt(field)
    case None => Failure(NotAnInteger(field))
    case Some(hour) =>
      if hour >= 24 then
        ShortFieldIsSmall(field);
        Success(NatToDecimal(hour - 24) + s[|field|..])
      else Success(s)
  }

  /** Fewer than two characters can only spell an integer below 10. */
  lemma ShortFieldIsSmall(s: string)
    ensures |s| < 2 && ParsePyInt(s).Some? ==> ParsePyInt(s).value < 10
  {
    var t := StripSpace(s);
    if |s| < 2 && |t| == 1 && IsDigitGroup(t) {
      assert DropUnderscores(t) == t;
      assert t[..0] == [];
      assert DigitsValue(t) == DigitValue(t[0]);
    }
  }

  // ---------------------------------------------------------------- %H:%M:%S

  /** One field of the `%H:%M:%S` pattern: one or two digits, at most `max`. */
  function ParseField(f: string, max: nat): (r: Option<nat>)
    ensures r.Some? ==> r.value <= max
  {
    if 1 <= |f| <= 2 && AllDigits(f) && DigitsValue(f) <= max then Some(DigitsValue(f)) else None
  }

  /**
   * What the `%H:%M:%S` pattern matches: three colon-separated fields of one
   * or two digits, hour 0..23, minute 0..59 and second 0..61.
   */
  predicate ClockShaped(parts: seq<string>) {
    && |parts| == 3
    && (forall i :: 0 <= i < 3 ==> 1 <= |parts[i]| <= 2 && AllDigits(parts[i]))
    && DigitsValue(parts[0]) <= 23 && DigitsValue(parts[1]) <= 59 && DigitsValue(parts[2]) <= 61
  }

  /**
   * `pd.to_datetime(..., format="%H:%M:%S").dt.time` on one value: the time
   * of day in seconds, or an error for anything the pattern does not match.
   * Seconds 60 and 61 are not range-checked after the match: they carry into
   * the next minute, and from 23:59 past midnight, whose date `.dt.time` drops.
   */
  function ParseClock(s: string): (r: Option<Seconds>)
    ensures r.Some? <==> ClockShaped(Split(s, ':'))
    ensures r.Some? ==> r.value == WrapDay(DigitsValue(Split(s, ':')[0]) * 3600 + DigitsValue(Split(s, ':')[1]) * 60
                                           + DigitsValue(Split(s, ':')[2]))
  {
    ClockOfFields(Split(s, ':'));
    ClockOf(Split(s, ':'))
  }

  /** The time the three colon-separated fields denote, if each is in range. */
  function ClockOf(parts: seq<string>): Option<Seconds> {
    if |parts| != 3 then None
    else
      var h, m, sec := ParseField(parts[0], 23), ParseField(parts[1], 59), ParseField(parts[2], 61);
      if h.Some? && m.Some? && sec.Some? then Some(WrapDay(h.value * 3600 + m.value * 60 + sec.value))
      else None
  }

  /**
   * A count of seconds below two days as a time of day: the day it reaches
   * into is dropped.
   */
  function WrapDay(t: nat): Seconds
    requires t < 2 * SecondsPerDay
  {
    if t < SecondsPerDay then t else t - SecondsPerDay
  }

  /** Dropping the day is taking the remainder modulo a day. */
  lemma WrapDayIsRemainder(t: nat)
    requires t < 2 * SecondsPerDay
    ensures WrapDay(t) == t % SecondsPerDay
    ensures WrapDay(t) == t <==> t < SecondsPerDay
  {
  }

  lemma ClockOfFields(parts: seq<string>)
    ensures ClockOf(parts).Some? <==> ClockShaped(parts)
    ensures ClockOf(parts).Some? ==>
      ClockOf(parts).value == WrapDay(DigitsValue(parts[0]) * 3600 + DigitsValue(parts[1]) * 60 + DigitsValue(parts[2]))
  {
  }

  /**
   * With seconds below 60 nothing carries: the parsed time gives the three
   * fields back as its hour, minute and second.
   */
  lemma ParseClockReadBack(s: string)
    requires ParseClock(s).Some? && DigitsValue(Split(s, ':')[2]) < 60
    ensures ParseClock(s).value / 3600 == DigitsValue(Split(s, ':')[0])
    ensures (ParseClock(s).value / 60) % 60 == DigitsValue(Split(s, ':')[1])
    ensures ParseClock(s).value % 60 == DigitsValue(Split(s, ':')[2])
  {
    var parts := Split(s, ':');
    var h, m, sec := DigitsValue(parts[0]), DigitsValue(parts[1]), DigitsValue(parts[2]);
    NoCarry(h, m, sec);
    ClockFields(h, m, sec);
  }

  /** A time of day below 24 hours is not wrapped. */
  lemma NoCarry(h: nat, m: nat, sec: nat)
    requires h < 24 && m < 60 && sec < 60
    ensures WrapDay(h * 3600 + m * 60 + sec) == h * 3600 + m * 60 + sec
  {
    assert h * 3600 <= 23 * 3600;
    assert m * 60 <= 59 * 60;
  }

  /** Hours, minutes and seconds come back out of the seconds after midnight they add up to. */
  lemma ClockFields(h: nat, m: nat, sec: nat)
    requires h < 24 && m < 60 && sec < 60
    ensures (h * 3600 + m * 60 + sec) / 3600 == h
    ensures ((h * 3600 + m * 60 + sec) / 60) % 60 == m
    ensures (h * 3600 + m * 60 + sec) % 60 == sec
  {
    var t := h * 3600 + m * 60 + sec;
    assert t == (h * 60 + m) * 60 + sec;
    assert t / 60 == h * 60 + m;
    assert t == h * 3600 + (m * 60 + sec) && m * 60 + sec < 3600;
  }

  /** Two-digit zero-padded decimal of `n < 100`. */
  function Pad2(n: nat): (s: string)
    requires n < 100
    ensures |s| == 2 && AllDigits(s) && DigitsValue(s) == n
  {
    var s := [DigitChar(n / 10), DigitChar(n % 10)];
    assert s[..1] == [s[0]];
    assert s[..1][..0] == [];
    assert DigitsValue(s[..1]) == n / 10;
    s
  }

  /** A clock string `HH:MM:SS` with two-digit fields (the hour may exceed 23). */
  function ClockText(h: nat, m: nat, sec: nat): string
    requires h < 100 && m < 60 && sec < 60
  {
    Pad2(h) + ":" + Pad2(m) + ":" + Pad2(sec)
  }

  /** How pandas writes a time of day back out: `HH:MM:SS`. */
  function FormatClock(t: Seconds): string {
    ClockText(t / 3600, (t / 60) % 60, t % 60)
  }

  lemma Pad2Free(n: nat)
    requires n < 100
    ensures Free(Pad2(n), ':')
  {
  }

  lemma SplitClockText(h: nat, m: nat, sec: nat)
    requires h < 100 && m < 60 && sec < 60
    ensures Split(ClockText(h, m, sec), ':') == [Pad2(h), Pad2(m), Pad2(sec)]
  {
    var pieces := [Pad2(h), Pad2(m), Pad2(sec)];
    SplitJoin(pieces, ':');
    JoinThree(Pad2(h), Pad2(m), Pad2(sec));
  }

  lemma JoinThree(a: string, b: string, c: string)
    ensures Join([a, b, c], ':') == a + ":" + b + ":" + c
  {
    assert [a, b, c][1..] == [b, c];
    assert [b, c][1..] == [c];
    assert Join([b, c], ':') == b + ":" + c;
  }

  /** A well-formed clock text parses to its seconds after midnight. */
  lemma ParseClockText(h: nat, m: nat, sec: nat)
    requires h < 24 && m < 60 && sec < 60
    ensures ParseClock(ClockText(h, m, sec)) == Some(h * 3600 + m * 60 + sec)
  {
    SplitClockText(h, m, sec);
    NoCarry(h, m, sec);
  }

  /**
   * The converse of `ParseClock`'s contract: any three fields of one or two
   * digits with hour, minute and second in range parse, zero-padded or not.
   */
  lemma ParseClockFields(a: string, b: string, c: string)
    requires 1 <= |a| <= 2 && 1 <= |b| <= 2 && 1 <= |c| <= 2
    requires AllDigits(a) && AllDigits(b) && AllDigits(c)
    requires DigitsValue(a) < 24 && DigitsValue(b) < 60 && DigitsValue(c) < 62
    ensures ParseClock(a + ":" + b + ":" + c)
      == Some(WrapDay(DigitsValue(a) * 3600 + DigitsValue(b) * 60 + DigitsValue(c)))
  {
    SplitFields(a, b, c);
    ParseOfFields(a + ":" + b + ":" + c, a, b, c);
  }

  lemma ParseOfFields(t: string, a: string, b: string, c: string)
    requires Split(t, ':') == [a, b, c]
    requires 1 <= |a| <= 2 && 1 <= |b| <= 2 && 1 <= |c| <= 2
    requires AllDigits(a) && AllDigits(b) && AllDigits(c)
    requires DigitsValue(a) < 24 && DigitsValue(b) < 60 && DigitsValue(c) < 62
    ensures ParseClock(t) == Some(WrapDay(DigitsValue(a) * 3600 + DigitsValue(b) * 60 + DigitsValue(c)))
  {
    ClockOfDigits(a, b, c);
  }

  lemma ClockOfDigits(a: string, b: string, c: string)
    requires 1 <= |a| <= 2 && 1 <= |b| <= 2 && 1 <= |c| <= 2
    requires AllDigits(a) && AllDigits(b) && AllDigits(c)
    requires DigitsValue(a) < 24 && DigitsValue(b) < 60 && DigitsValue(c) < 62
    ensures ClockOf([a, b, c]) == Some(WrapDay(DigitsValue(a) * 3600 + DigitsValue(b) * 60 + DigitsValue(c)))
  {
    var parts := [a, b, c];
    assert parts[0] == a && parts[1] == b && parts[2] == c;
    FieldInRange(a, 23);
    FieldInRange(b, 59);
    FieldInRange(c, 61);
  }

  /** A leap second is read and carried: "12:30:60" is 12:31:00. */
  lemma LeapSecondCarries()
    ensures ParseClock("12:30:60") == Some(12 * 3600 + 31 * 60)
  {
    assert "12:30:60" == Pad2(12) + ":" + Pad2(30) + ":" + Pad2(60);
    ParseClockFields(Pad2(12), Pad2(30), Pad2(60));
  }

  /** From 23:59 a leap second carries past midnight: "23:59:61" is 00:00:01. */
  lemma LeapSecondPastMidnight()
    ensures ParseClock("23:59:61") == Some(1)
  {
    assert "23:59:61" == Pad2(23) + ":" + Pad2(59) + ":" + Pad2(61);
    ParseClockFields(Pad2(23), Pad2(59), Pad2(61));
  }

  /** Sixty-two seconds do not match `%S`. */
  lemma SixtyTwoSecondsRejected()
    ensures ParseClock("12:30:62") == None
  {
    assert "12:30:62" == Pad2(12) + ":" + Pad2(30) + ":" + Pad2(62);
    SplitFields(Pad2(12), Pad2(30), Pad2(62));
  }

  lemma FieldInRange(f: string, max: nat)
    requires 1 <= |f| <= 2 && AllDigits(f) && DigitsValue(f) <= max
    ensures ParseField(f, max) == Some(DigitsValue(f))
  {
  }

  lemma SplitFields(a: string, b: string, c: string)
    requires AllDigits(a) && AllDigits(b) && AllDigits(c)
    ensures Split(a + ":" + b + ":" + c, ':') == [a, b, c]
  {
    assert Free(a, ':') && Free(b, ':') && Free(c, ':');
    SplitJoin([a, b, c], ':');
    JoinThree(a, b, c);
  }

  /** Writing a time out and parsing it back is the identity. */
  lemma FormatClockRoundTrip(t: Seconds)
    ensures ParseClock(FormatClock(t)) == Some(t)
    ensures AdjustInvalidTimes(FormatClock(t)) == Success(FormatClock(t))
  {
    var h, m, sec := t / 3600, (t / 60) % 60, t % 60;
    assert t == h * 3600 + m * 60 + sec;
    ParseClockText(h, m, sec);
    HourOfClockText(h, m, sec);
  }

  /** The hour field of a clock text is its two-digit hour. */
  lemma HourOfClockText(h: nat, m: nat, sec: nat)
    requires h < 100 && m < 60 && sec < 60
    ensures HourField(ClockText(h, m, sec)) == Pad2(h)
    ensures ParsePyInt(HourField(ClockText(h, m, sec))) == Some(h)
    ensures ClockText(h, m, sec)[2..] == ":" + Pad2(m) + ":" + Pad2(sec)
  {
    ParseTwoDigits(Pad2(h));
  }

  /**
   * Hours 24..47 wrap onto the same day: the repaired text parses to the
   * original time minus one day. Hours 48..99 stay out of range after one
   * subtraction, so the parse that follows raises.
   */
  lemma AdjustWrapsToDay(h: nat, m: nat, sec: nat)
    requires 24 <= h < 100 && m < 60 && sec < 60
    ensures var r := AdjustInvalidTimes(ClockText(h, m, sec));
      r.Success? &&
      ParseClock(r.value) == (if h < 48 then Some(h * 3600 + m * 60 + sec - SecondsPerDay) else None)
  {
    HourOfClockText(h, m, sec);
    var r := AdjustInvalidTimes(ClockText(h, m, sec)).value;
    var hs := NatToDecimal(h - 24);
    assert r == hs + ":" + Pad2(m) + ":" + Pad2(sec);
    SplitJoin([hs, Pad2(m), Pad2(sec)], ':');
    JoinThree(hs, Pad2(m), Pad2(sec));
  }

  /**
   * Repair is not idempotent: for hours 24..33 the repaired text starts with
   * one digit and a colon, and reading an hour from it raises. For hours
   * 34..47 a second repair changes nothing.
   */
  lemma AdjustTwice(h: nat, m: nat, sec: nat)
    requires 24 <= h < 48 && m < 60 && sec < 60
    ensures var once := AdjustInvalidTimes(ClockText(h, m, sec));
      once.Success? &&
      (h < 34 ==> AdjustInvalidTimes(once.value).Failure?) &&
      (h >= 34 ==> AdjustInvalidTimes(once.value) == once)
  {
    AdjustOnce(h, m, sec);
    var once := NatToDecimal(h - 24) + ":" + Pad2(m) + ":" + Pad2(sec);
    if h < 34 {
      SecondRepairRaises(h - 24, m, sec);
    } else {
      SecondRepairKeeps(h - 24, m, sec);
    }
  }

  /** One repair of an hour from 24 on writes the hour less 24 without padding. */
  lemma AdjustOnce(h: nat, m: nat, sec: nat)
    requires 24 <= h < 100 && m < 60 && sec < 60
    ensures AdjustInvalidTimes(ClockText(h, m, sec)) == Success(NatToDecimal(h - 24) + ":" + Pad2(m) + ":" + Pad2(sec))
  {
    HourOfClockText(h, m, sec);
    var hs, tail := NatToDecimal(h - 24), ":" + Pad2(m) + ":" + Pad2(sec);
    assert hs + tail == hs + ":" + Pad2(m) + ":" + Pad2(sec);
  }

  /** A one-digit hour followed by a colon cannot be read as an hour. */
  lemma SecondRepairRaises(h: nat, m: nat, sec: nat)
    requires h < 10 && m < 60 && sec < 60
    ensures AdjustInvalidTimes(NatToDecimal(h) + ":" + Pad2(m) + ":" + Pad2(sec)).Failure?
  {
    var once := NatToDecimal(h) + ":" + Pad2(m) + ":" + Pad2(sec);
    var hs := NatToDecimal(h);
    assert HourField(once) == [hs[0], ':'];
    DigitColonIsNotAnInteger(HourField(once));
  }

  /** A two-digit hour below 24 is left as it is. */
  lemma SecondRepairKeeps(h: nat, m: nat, sec: nat)
    requires 10 <= h < 24 && m < 60 && sec < 60
    ensures var once := NatToDecimal(h) + ":" + Pad2(m) + ":" + Pad2(sec);
      AdjustInvalidTimes(once) == Success(once)
  {
    var once := NatToDecimal(h) + ":" + Pad2(m) + ":" + Pad2(sec);
    var hs := NatToDecimal(h);
    assert HourField(once) == hs;
    assert hs == Pad2(h);
    ParseTwoDigits(hs);
  }

  /** The concrete case: "24:30:00" repairs to "0:30:00", which cannot be repaired again. */
  lemma AdjustNotIdempotentExample()
    ensures AdjustInvalidTimes("24:30:00") == Success("0:30:00")
    ensures AdjustInvalidTimes("0:30:00").Failure?
  {
    assert Pad2(24) == "24" && Pad2(30) == "30" && Pad2(0) == "00";
    assert NatToDecimal(0) == "0";
    assert "24:30:00" == ClockText(24, 30, 0);
    assert "0:30:00" == NatToDecimal(0) + ":" + Pad2(30) + ":" + Pad2(0);
    AdjustOnce(24, 30, 0);
    SecondRepairRaises(0, 30, 0);
  }
}

=== FILE: upload.dfy ===
/**
 * The upload page: the year read from each archive's file name, the frames
 * of all uploaded years stacked, relabelled and cleaned, the name the
 * processed file is saved under, and the year range read back from such a
 * name. Unzipping, the file system, caching and the page widgets are left
 * out; each archive's four CSV files are parameters.
 */
module Upload {
  import opened Wrappers
  import opened Strings
  import opened Tables
  import opened TimeRepair
  import opened ReferenceData
  import opened Columns
  import opened Records
  import opened Loading
  import opened Cleaning

  // ---------------------------------------------------------------- the year of an archive

  /**
   * `obtain_year_zipfile(name)`: the four characters that start at the
   * first "20". When there is none, `find` gives -1 and Python reads the
   * slice `[-1:3]`: empty for names of four or more characters, the last
   * character for shorter ones.
   */
  function ObtainYearZipfile(name: string): (y: string)
    ensures |y| <= 4
    ensures Find(name, "20") >= 0 ==> 2 <= |y| && y[..2] == "20" && OccursAt(name, y, Find(name, "20"))
    ensures Find(name, "20") >= 0 && Find(name, "20") + 4 <= |name| ==> |y| == 4
    ensures Find(name, "20") == -1 && |name| >= 4 ==> y == ""
    ensures Find(name, "20") == -1 && 0 < |name| < 4 ==> y == [name[|name| - 1]]
  {
    var start := Find(name, "20");
    Slice(name, start, start + 4)
  }

  /** A name whose first "20" starts a year yields exactly that year. */
  lemma YearOfArchiveName(prefix: string, year: string, suffix: string)
    requires forall i :: !OccursAt(prefix, "20", i)
    requires |year| == 4 && year[..2] == "20"
    ensures ObtainYearZipfile(prefix + year + suffix) == year
  {
    var name := prefix + year + suffix;
    var k := |prefix|;
    forall i | 0 <= i < k ensures !OccursAt(name, "20", i) {
      if i + 2 <= k {
        assert name[i..i + 2] == prefix[i..i + 2];
        assert !OccursAt(prefix, "20", i);
      } else {
        assert year[0] == year[..2][0] == '2';
        assert name[i..i + 2][1] == name[i + 1] == year[0];
      }
    }
    assert name[k..k + 4] == year;
    assert name[k..k + 2] == year[..2];
    assert OccursAt(name, "20", k);
  }

  // ---------------------------------------------------------------- the processed file's name

  /** `processed_data_{first}-{last}.csv`. */
  function ProcessedName(first: string, last: string): string {
    "processed_data_" + first + "-" + last + ".csv"
  }

  /** The fixed prefix, the first year, a hyphen, the last year and the extension, each at its own position. */
  lemma ProcessedNameLayout(first: string, last: string)
    ensures var r := ProcessedName(first, last);
      && |r| == |first| + |last| + 20
      && r[..15] == "processed_data_" && r[|r| - 4..] == ".csv"
      && r[15..15 + |first|] == first && r[15 + |first|] == '-'
      && r[16 + |first|..|r| - 4] == last
  {
    var r := ProcessedName(first, last);
    assert r[15..15 + |first|] == first;
    assert r[16 + |first|..|r| - 4] == last;
  }

  /**
   * `obtain_year_period(name)`: the text after the last "_", up to its first
   * ".", split at every "-".
   */
  function ObtainYearPeriod(name: string): (years: seq<string>)
    ensures |years| >= 1
    ensures forall i :: 0 <= i < |years| ==> Free(years[i], '-')
  {
    var pieces := Split(name, '_');
    var stem := Split(pieces[|pieces| - 1], '.')[0];
    var years := Split(stem, '-');
    assert forall i :: 0 <= i < |years| ==> Free(years[i], '-');
    years
  }

  /** A name with no "_", "." or "-" is its own period, read whole. */
  lemma PlainNamePeriod(name: string)
    requires Free(name, '_') && Free(name, '.') && Free(name, '-')
    ensures ObtainYearPeriod(name) == [name]
  {
    SplitFree(name, '_');
    SplitFree(name, '.');
    SplitFree(name, '-');
  }

  lemma FreeConcat(a: string, b: string, c: char)
    requires Free(a, c) && Free(b, c)
    ensures Free(a + b, c)
  {
    forall i | 0 <= i < |a + b| ensures (a + b)[i] != c {
      if i < |a| {
        assert (a + b)[i] == a[i];
      } else {
        assert (a + b)[i] == b[i - |a|];
      }
    }
  }

  /**
   * Reading the period back from a saved name gives the two years it was
   * written with, as long as neither holds "_", "." or "-".
   */
  lemma {:induction false} YearPeriodOfProcessedName(first: string, last: string)
    requires Free(first, '_') && Free(first, '.') && Free(first, '-')
    requires Free(last, '_') && Free(last, '.') && Free(last, '-')
    ensures ObtainYearPeriod(ProcessedName(first, last)) == [first, last]
  {
    var range := first + "-" + last;
    var tail := range + ".csv";
    assert ProcessedName(first, last) == "processed" + ['_'] + ("data" + ['_'] + tail);
    FreeConcat(first, "-", '_');
    FreeConcat(first + "-", last, '_');
    FreeConcat(range, ".csv", '_');
    SplitFree(tail, '_');
    SplitFirst("data", '_', tail);
    SplitFirst("processed", '_', "data" + ['_'] + tail);
    assert Split(ProcessedName(first, last), '_') == ["processed", "data", tail];
    FreeConcat(first, "-", '.');
    FreeConcat(first + "-", last, '.');
    assert tail == range + ['.'] + "csv";
    SplitFirst(range, '.', "csv");
    assert Split(tail, '.')[0] == range;
    assert range == first + ['-'] + last;
    SplitFirst(first, '-', last);
    SplitFree(last, '-');
  }

  /**
   * The name the processed data is saved and offered under. Reading the
   * period back from it gives the first and the last uploaded year, as long
   * as no year holds "_", "." or "-".
   */
  function SavedName(years: seq<string>): (r: string)
    requires |years| > 0
    ensures (forall i :: 0 <= i < |years| ==> Free(years[i], '_') && Free(years[i], '.') && Free(years[i], '-'))
      ==> ObtainYearPeriod(r) == [years[0], years[|years| - 1]]
  {
    var first, last := years[0], years[|years| - 1];
    assert Free(first, '_') && Free(first, '.') && Free(first, '-') && Free(last, '_') && Free(last, '.') && Free(last, '-')
      ==> ObtainYearPeriod(ProcessedName(first, last)) == [first, last] by {
      if Free(first, '_') && Free(first, '.') && Free(first, '-') && Free(last, '_') && Free(last, '.') && Free(last, '-') {
        YearPeriodOfProcessedName(first, last);
      }
    }
    ProcessedName(first, last)
  }

  // ---------------------------------------------------------------- stacking the uploaded years

  /** One uploaded archive: its file name and the four CSV files it holds, already read. */
  datatype Archive = Archive(name: string, ridership: Table<Ridership>, lines: Table<LineEntry>,
                             stops: Table<StopEntry>, vessels: Table<VesselEntry>)

  datatype UploadError =
    | NothingToConcatenate          // `pd.concat([])` raises ValueError
    | LoadFailed(error: ColumnError) // the loader raised KeyError

  /** `load_and_merge_data` on one archive, with the year its name gives. */
  function LoadArchive(a: Archive): (r: Result<Table<Record<string>>, UploadError>)
    ensures r.Success? <==> LoadAndMerge(ObtainYearZipfile(a.name), a.ridership, a.lines, a.stops, a.vessels).Success?
    ensures r.Success? ==> forall i :: 0 <= i < |r.value.rows| ==> r.value.rows[i].year == ObtainYearZipfile(a.name)
  {
    match LoadAndMerge(ObtainYearZipfile(a.name), a.ridership, a.lines, a.stops, a.vessels)
    case Failure(e) => Failure(LoadFailed(e))
    case Success(t) => Success(t)
  }

  /** All labels of the frames, one frame after another. */
  function Labels(frames: seq<Table<Record<string>>>): seq<string> {
    if |frames| == 0 then [] else Labels(frames[..|frames| - 1]) + frames[|frames| - 1].columns
  }

  /** All rows of the frames, one frame after another. */
  function Rows(frames: seq<Table<Record<string>>>): seq<Record<string>> {
    if |frames| == 0 then [] else Rows(frames[..|frames| - 1]) + frames[|frames| - 1].rows
  }

  /** Where the rows of frame `i` start in the stacked frame. */
  function Offset(frames: seq<Table<Record<string>>>, i: nat): nat
    requires i <= |frames|
  {
    |Rows(frames[..i])|
  }

  /**
   * `pd.concat(frames, ignore_index=True)`: the rows of every frame, one
   * frame after another, renumbered; the labels in order of first appearance.
   */
  function Concat(frames: seq<Table<Record<string>>>): (t: Table<Record<string>>)
    ensures forall c :: c in t.columns <==> c in Labels(frames)
  {
    Table(Dedup(Labels(frames)), Rows(frames))
  }

  /** The years of the archives, in upload order. */
  function ArchiveYears(archives: seq<Archive>): (years: seq<string>)
    ensures |years| == |archives|
    ensures forall i :: 0 <= i < |archives| ==> years[i] == ObtainYearZipfile(archives[i].name)
  {
    seq(|archives|, i requires 0 <= i < |archives| => ObtainYearZipfile(archives[i].name))
  }

  /**
   * `process_uploaded_files`: every archive loaded in upload order, its year
   * noted; the first loader error stops the upload; an empty upload has
   * nothing to concatenate.
   */
  function ProcessUploadedFiles(archives: seq<Archive>): (r: Result<(Table<Record<string>>, seq<string>), UploadError>)
    ensures r.Success? <==> |archives| > 0 && forall i :: 0 <= i < |archives| ==> LoadArchive(archives[i]).Success?
    ensures |archives| == 0 ==> r == Failure(NothingToConcatenate)
    ensures r.Failure? && |archives| > 0 ==> FailsFirstAt(archives, LoadArchive, r.error)
    ensures r.Success? ==> r.value.1 == ArchiveYears(archives)
  {
    var frames :- MapAll(archives, LoadArchive);
    if |frames| == 0 then Failure(NothingToConcatenate)
    else Success((Concat(frames), ArchiveYears(archives)))
  }

  /** A successful upload stacks the frames its archives load to, in upload order. */
  lemma ProcessedFrames(archives: seq<Archive>)
    requires ProcessUploadedFiles(archives).Success?
    ensures forall i :: 0 <= i < |archives| ==> LoadArchive(archives[i]).Success?
    ensures ProcessUploadedFiles(archives).value.0 == Concat(Loaded(archives))
  {
    var frames := MapAll(archives, LoadArchive).value;
    LoadedIsMapAll(archives, frames);
  }

  lemma LoadedIsMapAll(archives: seq<Archive>, frames: seq<Table<Record<string>>>)
    requires |frames| == |archives|
    requires forall i :: 0 <= i < |archives| ==> LoadArchive(archives[i]) == Success(frames[i])
    ensures Loaded(archives) == frames
  {
  }

  /** The frames the archives load to, when they all load. */
  function Loaded(archives: seq<Archive>): (frames: seq<Table<Record<string>>>)
    requires forall i :: 0 <= i < |archives| ==> LoadArchive(archives[i]).Success?
    ensures |frames| == |archives|
  {
    seq(|archives|, i requires 0 <= i < |archives| => LoadArchive(archives[i]).value)
  }

  /** Stacking and cutting back apart: frame `i`'s rows sit, in order, from its offset on. */
  lemma {:induction false} RowsOfFrame(frames: seq<Table<Record<string>>>, i: nat)
    requires i < |frames|
    ensures Offset(frames, i) + |frames[i].rows| <= |Rows(frames)|
    ensures Rows(frames)[Offset(frames, i)..Offset(frames, i) + |frames[i].rows|] == frames[i].rows
  {
    var n := |frames|;
    var init := frames[..n - 1];
    if i == n - 1 {
      assert init == frames[..i];
    } else {
      RowsOfFrame(init, i);
      assert init[..i] == frames[..i];
      assert init[i] == frames[i];
    }
  }

  /** The stacked frame has exactly the rows of its frames. */
  lemma {:induction false} RowsCount(frames: seq<Table<Record<string>>>, i: nat)
    requires i <= |frames|
    ensures Offset(frames, i) <= |Rows(frames)|
    ensures i == |frames| ==> Offset(frames, i) == |Rows(frames)|
    ensures i < |frames| ==> Offset(frames, i + 1) == Offset(frames, i) + |frames[i].rows|
  {
    assert frames[..|frames|] == frames;
    if i < |frames| {
      assert frames[..i + 1][..i] == frames[..i];
      RowsOfFrame(frames, i);
    }
  }

  /** Every row of the stacked frame comes from one of the frames. */
  lemma {:induction false} RowFromFrame(frames: seq<Table<Record<string>>>, j: nat)
    requires j < |Rows(frames)|
    ensures exists i :: 0 <= i < |frames| && Rows(frames)[j] in frames[i].rows
  {
    var n := |frames|;
    var init := frames[..n - 1];
    if j < |Rows(init)| {
      RowFromFrame(init, j);
      var i :| 0 <= i < |init| && Rows(init)[j] in init[i].rows;
      assert init[i] == frames[i];
    } else {
      assert Rows(frames)[j] == frames[n - 1].rows[j - |Rows(init)|];
    }
  }

  /** The labels of the stacked frame are those of its frames. */
  lemma {:induction false} LabelsOfFrames(frames: seq<Table<Record<string>>>, c: string)
    ensures c in Labels(frames) <==> exists i :: 0 <= i < |frames| && c in frames[i].columns
  {
    if |frames| > 0 {
      var n := |frames|;
      var init := frames[..n - 1];
      LabelsOfFrames(init, c);
      if exists i :: 0 <= i < |frames| && c in frames[i].columns {
        var i :| 0 <= i < |frames| && c in frames[i].columns;
        if i < n - 1 {
          assert init[i] == frames[i];
        }
      }
      if c in Labels(init) {
        var i :| 0 <= i < |init| && c in init[i].columns;
        assert frames[i] == init[i];
      }
    }
  }

  /**
   * Every row of an upload carries the year of the archive it came from,
   * which is one of the years the upload reports.
   */
  lemma UploadedRowsCarryYears(archives: seq<Archive>, j: nat)
    requires ProcessUploadedFiles(archives).Success?
    requires j < |ProcessUploadedFiles(archives).value.0.rows|
    ensures ProcessUploadedFiles(archives).value.0.rows[j].year in ProcessUploadedFiles(archives).value.1
  {
    ProcessedFrames(archives);
    var frames := Loaded(archives);
    RowFromFrame(frames, j);
    var i :| 0 <= i < |frames| && Rows(frames)[j] in frames[i].rows;
    assert frames[i] == LoadArchive(archives[i]).value;
    assert ArchiveYears(archives)[i] == ObtainYearZipfile(archives[i].name);
  }

  // ---------------------------------------------------------------- relabel, then clean

  /** The page's `clean_data`: relabel with the rename map, then run the cleaner. */
  function CleanUploaded(raw: Table<Record<string>>): (r: Result<Table<Record<Seconds>>, CleanError>)
    ensures r.Success? ==> r.value.columns == Rename(raw.columns, MappingAttributes) && |r.value.rows| <= |raw.rows|
  {
    CleanData(Table(Rename(raw.columns, MappingAttributes), raw.rows))
  }

  /** Renaming sees only which labels there are: two label lists with the same members rename to the same members. */
  lemma RenameSameMembers(a: seq<string>, b: seq<string>, mapping: seq<(string, string)>)
    requires forall x :: x in a <==> x in b
    ensures forall c :: c in Rename(a, mapping) ==> c in Rename(b, mapping)
  {
    forall c | c in Rename(a, mapping) ensures c in Rename(b, mapping) {
      var i :| 0 <= i < |a| && Rename(a, mapping)[i] == c;
      assert a[i] in b;
      var j :| 0 <= j < |b| && b[j] == a[i];
      assert Rename(b, mapping)[j] == c;
    }
  }

  /** The rename targets the cleaner reads. */
  lemma CleanerTargets()
    ensures MappingAttributes[21].1 == "stop_current" && MappingAttributes[2].1 == "departure_time"
    ensures MappingAttributes[6].1 == "distance"
  {
  }

  /** After the rename, a frame with labels `cols` has every label the cleaner reads. */
  predicate Cleanable(cols: seq<string>) {
    FirstMissing(Rename(cols, MappingAttributes), DecodedAndTimed).None? && "distance" in Rename(cols, MappingAttributes)
  }

  /** The loader's labels for the files' usual headers are cleanable once renamed. */
  lemma HeadersCleanable(reisende: seq<string>, linie: seq<string>, stops: seq<string>, vessels: seq<string>)
    requires AssumedHeaders(reisende, linie, stops, vessels)
    ensures LoadedColumns(reisende, linie, stops, vessels).Success?
    ensures Cleanable(LoadedColumns(reisende, linie, stops, vessels).value)
  {
    RenamedLoadedColumns(reisende, linie, stops, vessels);
    var loaded := LoadedColumns(reisende, linie, stops, vessels).value;
    CleanerTargets();
    assert MappingAttributes[21].1 in Rename(loaded, MappingAttributes);
    assert MappingAttributes[2].1 in Rename(loaded, MappingAttributes);
    assert MappingAttributes[6].1 in Rename(loaded, MappingAttributes);
  }

  /** Whether labels are cleanable depends only on which labels there are. */
  lemma CleanableSameMembers(a: seq<string>, b: seq<string>)
    requires forall x :: x in a <==> x in b
    requires Cleanable(a)
    ensures Cleanable(b)
  {
    RenameSameMembers(a, b, MappingAttributes);
  }

  /** With every label the cleaner reads, cleaning fails only on a time it cannot repair or read. */
  lemma CleanAfterRename(raw: Table<Record<string>>)
    requires Cleanable(raw.columns)
    ensures CleanUploaded(raw).Success? <==> TimesReadable(raw.rows)
  {
    CleanDataSucceeds(Table(Rename(raw.columns, MappingAttributes), raw.rows));
  }

  /** Without the rename the cleaner stops at the first label it reads that the loader does not produce. */
  lemma CleanWithoutRename(raw: Table<Record<string>>, reisende: seq<string>, linie: seq<string>, stops: seq<string>, vessels: seq<string>)
    requires AssumedHeaders(reisende, linie, stops, vessels)
    requires LoadedColumns(reisende, linie, stops, vessels).Success?
    requires forall x :: x in LoadedColumns(reisende, linie, stops, vessels).value <==> x in raw.columns
    ensures CleanData(raw) == Failure(MissingColumn("stop_current"))
  {
    NoStopCurrentBeforeRename(reisende, linie, stops, vessels);
    AssumedHeadersShareOnlyKeys(reisende, linie, stops, vessels);
    LoadedColumnsLabels(reisende, linie, stops, vessels, "stop_next");
    assert "stop_next" in raw.columns;
    assert FirstMissing(raw.columns, DecodedAndTimed) == Some("stop_current");
    CleanDataErrors(raw);
  }

  /**
   * The whole upload: when every archive has the usual headers and loads,
   * the stacked frame carries the loader's labels, and cleaning it after
   * the rename fails only on an unreadable time.
   */
  lemma UploadThenClean(archives: seq<Archive>, reisende: seq<string>, linie: seq<string>, stops: seq<string>, vessels: seq<string>)
    requires AssumedHeaders(reisende, linie, stops, vessels)
    requires |archives| > 0
    requires forall i :: 0 <= i < |archives| ==>
      && archives[i].ridership.columns == reisende && archives[i].lines.columns == linie
      && archives[i].stops.columns == stops && archives[i].vessels.columns == vessels
    ensures ProcessUploadedFiles(archives).Success?
    ensures CleanUploaded(ProcessUploadedFiles(archives).value.0).Success? <==>
      TimesReadable(ProcessUploadedFiles(archives).value.0.rows)
  {
    HeadersCleanable(reisende, linie, stops, vessels);
    UploadThenCleanWith(archives, reisende, linie, stops, vessels);
  }

  /** The same for any headers the loader accepts and whose labels are cleanable once renamed. */
  lemma UploadThenCleanWith(archives: seq<Archive>, reisende: seq<string>, linie: seq<string>, stops: seq<string>, vessels: seq<string>)
    requires LoadedColumns(reisende, linie, stops, vessels).Success?
    requires Cleanable(LoadedColumns(reisende, linie, stops, vessels).value)
    requires |archives| > 0
    requires forall i :: 0 <= i < |archives| ==>
      && archives[i].ridership.columns == reisende && archives[i].lines.columns == linie
      && archives[i].stops.columns == stops && archives[i].vessels.columns == vessels
    ensures ProcessUploadedFiles(archives).Success?
    ensures CleanUploaded(ProcessUploadedFiles(archives).value.0).Success? <==>
      TimesReadable(ProcessUploadedFiles(archives).value.0.rows)
  {
    var loaded := LoadedColumns(reisende, linie, stops, vessels).value;
    ArchivesLoad(archives, reisende, linie, stops, vessels);
    LoadedLabels(archives, loaded);
    ProcessedFrames(archives);
    StackedClean(Loaded(archives), loaded);
  }

  /** Frames that share cleanable labels stack into a frame that cleans unless a time is unreadable. */
  lemma StackedClean(frames: seq<Table<Record<string>>>, labels: seq<string>)
    requires |frames| > 0 && Cleanable(labels)
    requires forall i :: 0 <= i < |frames| ==> frames[i].columns == labels
    ensures CleanUploaded(Concat(frames)).Success? <==> TimesReadable(Concat(frames).rows)
  {
    SameLabels(frames, labels);
    CleanableSameMembers(labels, Concat(frames).columns);
    CleanAfterRename(Concat(frames));
  }

  lemma LoadedLabels(archives: seq<Archive>, labels: seq<string>)
    requires forall i :: 0 <= i < |archives| ==> LoadArchive(archives[i]).Success?
    requires forall i :: 0 <= i < |archives| ==> LoadArchive(archives[i]).value.columns == labels
    ensures forall i :: 0 <= i < |Loaded(archives)| ==> Loaded(archives)[i].columns == labels
  {
  }

  /** Archives whose files all have loadable headers all load, to frames with the loader's labels. */
  lemma ArchivesLoad(archives: seq<Archive>, reisende: seq<string>, linie: seq<string>, stops: seq<string>, vessels: seq<string>)
    requires LoadedColumns(reisende, linie, stops, vessels).Success?
    requires forall i :: 0 <= i < |archives| ==>
      && archives[i].ridership.columns == reisende && archives[i].lines.columns == linie
      && archives[i].stops.columns == stops && archives[i].vessels.columns == vessels
    ensures forall i :: 0 <= i < |archives| ==> LoadArchive(archives[i]).Success?
    ensures forall i :: 0 <= i < |archives| ==>
      LoadArchive(archives[i]).value.columns == LoadedColumns(reisende, linie, stops, vessels).value
  {
  }

  /** Frames that all carry the same labels stack to a frame with those labels. */
  lemma SameLabels(frames: seq<Table<Record<string>>>, labels: seq<string>)
    requires |frames| > 0
    requires forall i :: 0 <= i < |frames| ==> frames[i].columns == labels
    ensures forall x :: x in labels <==> x in Concat(frames).columns
  {
    forall x ensures x in labels <==> x in Concat(frames).columns {
      LabelsOfFrames(frames, x);
      assert frames[0].columns == labels;
    }
  }
}

=== FILE: wrappers.dfy ===
/** Failure-compatible wrappers shared by every module of the model. */
module Wrappers {

  /** A value that may be missing: pandas' NaN cell, or a lookup that found nothing. */
  datatype Option<+T> = None | Some(value: T) {
    predicate IsFailure() { None? }

    function PropagateFailure<U>(): Option<U>
      requires None?
    {
      None
    }

    function Extract(): T
      requires Some?
    {
      value
    }

    function Map<U>(f: T -> U): Option<U> {
      match this
      case Some(v) => Some(f(v))
      case None => None
    }

    function GetOr(default: T): T {
      match this
      case Some(v) => v
      case None => default
    }
  }

  /** The outcome of a step that may raise. */
  datatype Result<+R, +E> = Success(value: R) | Failure(error: E) {
    predicate IsFailure() { Failure? }

    function PropagateFailure<U>(): Result<U, E>
      requires Failure?
    {
      Failure(error)
    }

    function Extract(): R
      requires Success?
    {
      value
    }
  }
}
